=== FILE: README.md ===
# recallkit core, modelled in Dafny

recallkit is a memory service for chat applications. A developer signs in to a dashboard and creates *namespaces*. Each namespace has one API key. The developer's application calls the recall API with that key, an end-user id and the conversation so far. The API answers with the end user's memories that are relevant to the latest message, formatted for a prompt. It also dispatches a background job that:
- extracts facts from the conversation with a language model;
- reconciles the facts with the stored memories into a plan of ADD, UPDATE, DELETE and NONE items;
- persists the plan in one Redis transaction.

This project models the deterministic logic around the store and the language model. It states and proves properties about that model.

- **Store.** The Redis store is a map from memory key (`memories:{namespace}:{userId}`) to a *scope*: the set of memory ids plus the id-to-document map (`MemoryStore`). How a scope answers reads is an explicit value: the order in which the id set is enumerated, whether reading the set fails, and which documents fail to read.
- **Account data.** A developer's `UserData`, the index from key hash to owner, and the encrypted plain keys are one immutable `Store` (`Accounts`). The dashboard actions are functions from store to store (`NamespaceActions`, `ApiKeyActions`).
- **Memory pipeline.** Persistence is a queue phase that yields one result per item and a command list. The commit folds the command list over the scope (`MemoryStorage`). Around it sit the result summaries (`ResultProcessor`), the job handler (`MemoryProcessor`), fact-extraction prompt assembly (`FactExtraction`) and memory fetching (`RedisUtils`).
- **Retrieval.** Retrieval first asks a vector index for documents and falls back to an exhaustive cosine-similarity ranking (`VectorSearch`). The index is an oracle; scores are real numbers, with the square root a parameter.
- **Endpoints.** `RecallRoute` models the recall API and `DemoChat` the demo chat endpoint. The demo calls the recall route's model directly.
- **Dashboard views.** `MemoriesData` models the memories view and `ApiKeysClient` the key list.
- **Shared helpers.** JavaScript string operations (`split`, `join`, `trim`, first-occurrence `replace`, `includes`) are in `Text`. `Filtering` holds order-preserving filters. `Encoding` holds the two API-key hashes: UTF-8 bytes through base64 when a key is created, `btoa` when a key is checked. Base64 itself (section 4 of RFC 4648) is an injective function parameter.

The language model, the embedder, the clock, the id generator and encryption are all parameters. Store failures are parameters at these calls: the authentication lookup; the account read and each separate write of the dashboard actions (`CreateFault`, `RegenerateFault` and `DeleteFault` name the failing step); the memory-set and document reads; the existence check of an UPDATE; the transaction commit; the key listing; the index search; and the index recreation. Anything else that can fail is listed under "## Left out".

Three behaviours of the code are easy to misread:
- A plan of n NONE items reports `memoriesChanged = n`, because the job counts successful results, not changes (`MemoryProcessor.AllNonePlanReportsEveryItem`).
- The recall route passes `forceFallback`, but the retrieval parameters have no such field. The flag has no effect, and `RetrieveParams` does not carry it.
- The recall route accepts an empty `userId`, but the job it dispatches then fails input validation (`RecallRoute.DispatchedJobValidates`).

The dashboard updates its local key list itself after a delete or a regeneration. That local list matches what the server then lists only while a developer's namespace names are distinct. Creation keeps names distinct, and so do the other actions (`NamespaceActions.CreatePreservesDistinctNames`, `ApiKeysClient.LocalDeleteMatchesServer`).

## Model

| member | source | states |
|---|---|---|
| Text.ContainsChar | src/data/memories.ts:40-41 | a one-character pattern occurs in a string exactly when that character is one of its characters |
| Text.HeadOccurs | src/app/api/v1/recall/route.ts:34 | a string that contains a non-empty pattern contains the pattern's first character |
| Text.AbsentHead | src/app/api/v1/recall/route.ts:34 | a string lacking a pattern's first character does not contain the pattern |
| Text.ContainsIffOccurs | src/app/api/demo/chat/route.ts:74 | substring containment holds exactly when the pattern occurs at some position of the string |
| Text.Split | src/data/memories.ts:40 | splitting at a non-empty separator always yields at least one piece |
| Text.SplitCountsOccurrences | src/app/api/demo/chat/route.ts:74 | the number of pieces is one more than the number of non-overlapping occurrences of the separator |
| Text.SplitWithoutSeparator | src/data/memories.ts:40 | a string without the separator splits into itself alone |
| Text.SplitAtFirst | src/data/memories.ts:40 | for a separator with no proper border, a piece free of the separator followed by the separator is split off first |
| Text.OverlapIsBorder | src/data/memories.ts:40 | a separator occurrence that overlaps the end of a shorter piece forces the separator to have a border |
| Text.SplitJoin | src/app/api/v1/recall/route.ts:34 | splitting a join of separator-free pieces at an unbordered separator gives back the pieces |
| Text.ReplaceFirstAtFront | src/actions/api-keys.ts:150 | removing the first occurrence of a pattern from a string that starts with it leaves the rest |
| Text.ReplaceFirstAbsent | src/actions/api-keys.ts:150 | replacing a pattern that does not occur changes nothing |
| Text.TrimStart | src/lib/recall/vector-search.ts:252 | the result is a suffix of the input, does not start with white space, and only white space was removed |
| Text.TrimEnd | src/lib/recall/vector-search.ts:252 | the result is a prefix of the input, does not end with white space, and only white space was removed |
| Text.Trim | src/lib/recall/vector-search.ts:323-324 | the result is the input with an all-white-space prefix and an all-white-space suffix cut off, has no white space at either end, and is empty exactly when the input is all white space |
| Filtering.FilterMap | src/lib/recall/result-processor.ts:19-20 | at most as many results as inputs; every result comes from some input; every present image appears in the result |
| Filtering.FilterMapConcat | src/lib/recall/result-processor.ts:19-20 | filtering a concatenation is the concatenation of the filtered parts |
| Filtering.FilterMapKeepsDistinct | src/lib/recall/redis-utils.ts:22-42 | filtering a list without repeats, where each kept image names the element it came from, yields no two images naming the same element |
| Filtering.FirstIndex | src/actions/api-keys.ts:100-102 | the index of the first element satisfying the predicate, -1 exactly when none does |
| Encoding.Utf8Char | src/actions/namespace.ts:72 | a character encodes to one to four bytes, and to the single byte of its own code exactly when it is below 0x80 |
| Encoding.Latin1 | src/lib/recall/api-auth.ts:22 | the one-byte-per-character encoding exists exactly when every code is below 0x100, and then it keeps every code |
| Encoding.Btoa | src/lib/recall/api-auth.ts:22 | the hash exists exactly when every character code is below 0x100 (elsewhere the call throws) |
| Encoding.AsciiBytesAgree | src/lib/recall/api-auth.ts:22 | on ASCII text the byte string hashed at authentication equals the UTF-8 bytes hashed at key creation |
| Encoding.AsciiHashesAgree | src/actions/namespace.ts:72 | on ASCII keys the authentication hash equals the stored hash |
| Encoding.AsciiHashInjective | src/actions/namespace.ts:72 | with an injective base64 encoder, two ASCII keys with the same stored hash are equal |
| Accounts.IndexOfName | src/actions/api-keys.ts:159-161 | the position of the first namespace with the name, -1 exactly when there is none |
| Accounts.FreshHashUnused | src/actions/namespace.ts:87-91 | when every namespace's hash is indexed to its owner, a hash missing from the index belongs to no namespace |
| ApiAuth.IndexOfKey | src/lib/recall/api-auth.ts:42-44 | the position of the first namespace holding the hash, -1 exactly when there is none |
| ApiAuth.HandleApiAuth | src/lib/recall/api-auth.ts:17-71 | 500 when the store fails or the key cannot be hashed; 401 exactly when the hash is unknown or maps to an empty owner; 500 "User data not found" when the owner's record is missing; 500 "Namespace not found" when the owner exists but none of the owner's namespaces holds the hash; success exactly when the owner's record holds a namespace with that hash, and then the owner and the first such namespace's name are returned |
| ApiAuth.IndexedStoreAuthenticates | src/lib/recall/api-auth.ts:42-62 | in an indexed store, a key whose hash is a namespace's authenticates as its owner, with that namespace or an earlier one holding the same hash |
| NamespaceData.GetCurrentNamespace | src/data/namespace.ts:6-34 | nothing when signed out or on a store failure; otherwise the stored selection when it is non-empty, else the first namespace's name, and nothing exactly when none is selected and the developer has no namespaces |
| NamespaceData.CurrentIsListed | src/data/namespace.ts:6-34 | in a store whose non-empty selections each name one of their developer's namespaces, the namespace read back is one of the developer's |
| NamespaceActions.ValidateName | src/types/namespace.ts:3-8 | a name is accepted exactly when present with 3 to 50 characters, and each rejection gives its own message |
| NamespaceActions.LowerChar | src/actions/namespace.ts:59 | the result is not an upper-case letter, other characters are unchanged, and white space is preserved both ways |
| NamespaceActions.Lower | src/actions/namespace.ts:59 | lower-casing maps every character and keeps the length |
| NamespaceActions.Hyphenate | src/actions/namespace.ts:59 | the result is no longer than the input, non-empty for non-empty input, has no white space, and adds no upper-case letter |
| NamespaceActions.HyphenateFrom | src/actions/namespace.ts:59 | the same facts for the scan that starts inside or outside a run of white space |
| NamespaceActions.HyphenateNoSpace | src/actions/namespace.ts:59 | text without white space passes through the hyphenation unchanged |
| NamespaceActions.HyphenateRun | src/actions/namespace.ts:59 | a maximal run of white space becomes exactly one hyphen between the hyphenated text on each side |
| NamespaceActions.RunFrom | src/actions/namespace.ts:59 | the same, for the scan in either starting state |
| NamespaceActions.SkipBlank | src/actions/namespace.ts:59 | inside a run, the rest of the run contributes nothing |
| NamespaceActions.Slug | src/actions/namespace.ts:59 | the slug is no longer than the name, non-empty for a non-empty name, and has neither white space nor upper-case letters |
| NamespaceActions.SlugIdempotent | src/actions/namespace.ts:59 | slugging a slug changes nothing |
| NamespaceActions.PlainKey | src/actions/namespace.ts:71 | the plain key is `key_` followed by the generated id, and for a 32-character id from the generator's alphabet it is 36 ASCII characters |
| NamespaceActions.CreateNamespace | src/actions/namespace.ts:35-112 | unauthorised, invalid-name, read-failure, duplicate-slug and transaction-failure errors leave the store unchanged; success happens exactly when creation is allowed and every store call works, and then the slug namespace is appended with the stored hash, selected when it is the first, the hash is indexed to the developer, the encrypted plain key is stored, and no other developer changes; a failing plain-key write after the transaction reports an unexpected error yet leaves the namespace, hash and index written and no plain key stored |
| NamespaceActions.CreateLateFailureBlocksRetry | src/actions/namespace.ts:87-106 | after a failing plain-key write, creating the same name again is refused as a duplicate |
| NamespaceActions.CreateKeepsSelectionListed | src/actions/namespace.ts:35-112 | creation, whatever step fails, keeps every non-empty selection naming one of its developer's namespaces |
| NamespaceActions.CreatePreservesDistinctNames | src/actions/namespace.ts:67-69 | creation keeps every developer's namespace names pairwise distinct |
| NamespaceActions.CreatePreservesIndexed | src/actions/namespace.ts:87-91 | creation with a hash not yet in use keeps every namespace's hash indexed to its owner |
| NamespaceActions.CreateThenAuthenticate | src/actions/namespace.ts:71-91 | the plain key returned by a successful creation authenticates, as its creator, for the new namespace |
| NamespaceActions.FirstCreatedIsCurrent | src/actions/namespace.ts:83-85 | a developer's first namespace becomes the current one |
| NamespaceActions.SetCurrentNamespace | src/actions/namespace.ts:160-194 | succeeds exactly when signed in, the store works and the namespace exists; a failure changes nothing; success changes only the developer's selection |
| NamespaceActions.SetKeepsSelectionListed | src/actions/namespace.ts:160-194 | selecting keeps every non-empty selection naming one of its developer's namespaces |
| NamespaceActions.SetThenGetCurrent | src/actions/namespace.ts:132-158 | after selecting a non-empty existing name, the current namespace is that name and the namespace list is unchanged |
| ApiKeyActions.Bullets | src/actions/api-keys.ts:67 | a run of exactly n mask bullets |
| ApiKeyActions.KeyIdOf | src/actions/api-keys.ts:65 | a key id is `key_` followed by the namespace name |
| ApiKeyActions.Entry | src/actions/api-keys.ts:64-73 | the listed key carries the namespace's id, name, hash and creation time, is active and unused, and shows the decrypted plain key when one is recovered, the placeholder otherwise |
| ApiKeyActions.GetApiKeys | src/actions/api-keys.ts:32-82 | nothing when signed out or on a store failure; otherwise one entry per namespace, in order |
| ApiKeyActions.RegenerateApiKey | src/actions/api-keys.ts:84-138 | unauthorised, read-failure, not-found and revoke-failure refusals leave the store unchanged; a failing transaction leaves only the old hash unindexed; a failing plain-key write leaves the new hash in the record and index, the old one unindexed, and the plain key unchanged; success exactly when signed in, the namespace exists and every store call works, and then only that namespace's hash changes, the old hash is unindexed, the new one indexed to the developer and the new encrypted plain key stored |
| ApiKeyActions.RegenerateCommitFailureRevokes | src/actions/api-keys.ts:109-123 | when the transaction fails after the old mapping is deleted, the record is unchanged and the old key is refused with a 401 |
| ApiKeyActions.RegeneratePlainKeyFailureRevokes | src/actions/api-keys.ts:109-134 | when the plain-key write fails after the transaction, the plain key is unchanged and the old key is refused with a 401 |
| ApiKeyActions.RegenerateKeepsSelectionListed | src/actions/api-keys.ts:84-138 | regeneration, whatever step fails, keeps every non-empty selection naming one of its developer's namespaces |
| ApiKeyActions.RegeneratePreservesDistinctNames | src/actions/api-keys.ts:115-116 | regeneration keeps namespace names pairwise distinct |
| ApiKeyActions.RegenerateRevokesOldKey | src/actions/api-keys.ts:107-109 | after regeneration the old plain key fails authentication with 401 |
| ApiKeyActions.RegenerateThenAuthenticate | src/actions/api-keys.ts:111-123 | in an indexed store, the new plain key authenticates as the developer for the namespace |
| ApiKeyActions.RegeneratedKeyIsListed | src/actions/api-keys.ts:125-127 | the key listing shows the new plain key at the namespace's position |
| ApiKeyActions.DeleteApiKey | src/actions/api-keys.ts:140-197 | unauthorised, read-failure and not-found refusals and a failing mapping delete leave the store unchanged; any failing step of a found namespace is refused with the delete error; success exactly when signed in, the id with its first `key_` removed names a namespace and every store call works; then that namespace is cut out, its hash and plain key removed, the selection moved to the first remaining namespace when it was the deleted one, and no other developer changes |
| ApiKeyActions.DeleteLateFailures | src/actions/api-keys.ts:168-185 | a failing plain-key delete leaves the hash unindexed; a failing record write leaves the hash unindexed and the plain key removed; neither writes the record |
| ApiKeyActions.DeleteUserWriteFailureKeepsNamespace | src/actions/api-keys.ts:168-197 | when the record write fails, the namespace stays listed while its key is refused with a 401 and its plain key is gone |
| ApiKeyActions.DeleteKeepsSelectionListed | src/actions/api-keys.ts:140-197 | deletion, whatever step fails, keeps every non-empty selection naming one of its developer's namespaces |
| ApiKeyActions.DeleteListedEntry | src/actions/api-keys.ts:149-174 | deleting by a listed entry's id succeeds and removes the first namespace of that name |
| ApiKeyActions.DeletePreservesDistinctNames | src/actions/api-keys.ts:174 | deletion keeps namespace names pairwise distinct |
| ApiKeyActions.DeleteRevokesKey | src/actions/api-keys.ts:166-168 | after deletion the namespace's plain key fails authentication with 401 |
| ApiKeyActions.DeleteCurrentMovesSelection | src/actions/api-keys.ts:176-182 | deleting the current namespace makes the first remaining one current, or none |
| MemoryStore.Run | src/lib/recall/memory-storage.ts:23-102 | one queued write changes only its own id's slot: a JSON write sets the document, a set add or remove sets membership, a key delete removes the document |
| MemoryStore.ApplyConcat | src/lib/recall/memory-storage.ts:118 | committing two command lists in a row is committing their concatenation |
| MemoryStore.ApplyOne | src/lib/recall/memory-storage.ts:118 | committing a single command is running it |
| MemoryStore.ApplyTwo | src/lib/recall/memory-storage.ts:118 | committing two commands runs them in order |
| MemoryStore.ApplyElsewhere | src/lib/recall/memory-storage.ts:118 | a committed list that names no command for an id leaves that id's slot untouched |
| MemoryStore.EnumerationSize | src/lib/recall/redis-utils.ts:22 | a duplicate-free enumeration of a member set has exactly as many entries as the set |
| MemoryStorage.QueueItem | src/lib/recall/memory-storage.ts:23-116 | each result names its item's id and event; a failed item queues nothing and carries an error; DELETE and NONE always succeed; an UPDATE whose existence check throws fails with that error; an UPDATE of a non-member fails with the not-found error and a successful UPDATE was of a member; an ADD, or an UPDATE of a member whose check works, succeeds exactly when the text embeds |
| MemoryStorage.StepEffect | src/lib/recall/memory-storage.ts:29-102 | committing one item's writes has exactly that item's effect on its id: ADD stores the full document with equal creation and update times and adds the id, UPDATE replaces the document without a creation time, DELETE removes document and id, NONE and failures change nothing |
| MemoryStorage.Queue | src/lib/recall/memory-storage.ts:23-116 | one result per plan item, each the result of queueing that item against the membership before the batch |
| MemoryStorage.PersistMemoryOperations | src/lib/recall/memory-storage.ts:15-137 | an empty plan returns no results and an unchanged store; the batch fails exactly when the plan is non-empty and the commit throws, with one of the two messages; otherwise one result per item, in order, with UPDATEs whose existence check throws failing with that error, UPDATEs of non-members failing with the not-found error and DELETE and NONE items succeeding |
| MemoryStorage.QueueEffect | src/lib/recall/memory-storage.ts:23-118 | for a plan with distinct ids, each item's committed effect is its own effect, and ids outside the plan are untouched |
| MemoryStorage.QueueEffectAt | src/lib/recall/memory-storage.ts:23-118 | for a plan with distinct ids, any one item's committed effect on its own id is that item's effect |
| MemoryStorage.QueueUntouched | src/lib/recall/memory-storage.ts:23-118 | the committed batch leaves every id the plan does not name as it was |
| MemoryStorage.ConsistencyPreserved | src/lib/recall/memory-storage.ts:23-118 | a batch with distinct ids keeps "a document exists exactly when its id is a member" |
| MemoryStorage.DistinctPlanEffect | src/lib/recall/memory-storage.ts:23-118 | the committed batch of a plan with distinct ids gives each item its own effect and leaves every other id alone |
| MemoryStorage.AddThenUpdateInOneBatch | src/lib/recall/memory-storage.ts:53-62 | an UPDATE of an id added earlier in the same batch fails as not found, and the stored document is the ADD's |
| MemoryStorage.DeleteThenUpdateOrphans | src/lib/recall/memory-storage.ts:53-93 | a DELETE then an UPDATE of the same member both succeed and leave a document whose id is not a member |
| MemoryStorage.DeleteIdempotent | src/lib/recall/memory-storage.ts:84-93 | a second identical DELETE batch leaves the store and the results as the first left them |
| MemoryStorage.NonePlanChangesNothing | src/lib/recall/memory-storage.ts:96-102 | a plan of NONE items succeeds item by item and leaves the store unchanged |
| MemoryStorage.NoneQueuesNothing | src/lib/recall/memory-storage.ts:96-102 | NONE items queue no writes |
| MemoryStorage.QueueTwo | src/lib/recall/memory-storage.ts:23-116 | the writes of a two-item plan are the first item's followed by the second's |
| MemoryStorage.QueueOne | src/lib/recall/memory-storage.ts:23-116 | a one-item plan queues that item's result and writes |
| RedisUtils.FetchUserMemories | src/lib/recall/redis-utils.ts:14-67 | fails exactly when the id set cannot be read, with the fixed message; otherwise returns at most one memory per member (no two share an id), each a member whose readable document has that non-empty text, and every member with a readable non-empty document is returned |
| ResultProcessor.Where | src/lib/recall/result-processor.ts:19-20 | the kept results all have the requested success flag and are no more than the input |
| ResultProcessor.WherePartitions | src/lib/recall/result-processor.ts:19-20 | the successes and the failures together are exactly the results, as a multiset |
| ResultProcessor.WhereLengths | src/lib/recall/result-processor.ts:19-20 | the success and failure counts add up to the number of results |
| ResultProcessor.AllSucceeded | src/lib/recall/result-processor.ts:19 | when every result succeeded, the success count is the number of results |
| ResultProcessor.KindCountsSum | src/lib/recall/result-processor.ts:21-24 | the four per-event counts add up to the number of results |
| ResultProcessor.TallyAllCounts | src/lib/recall/result-processor.ts:21-24 | folding results into a tally adds each event's occurrences to its count, and an event has an entry exactly when it had one or occurs |
| ResultProcessor.OperationCounts | src/lib/recall/result-processor.ts:21-24 | an event has an entry exactly when it occurs, and its count is its number of occurrences |
| ResultProcessor.TallyFromEmpty | src/lib/recall/result-processor.ts:21-24 | the tally started from the empty record holds exactly the occurring events with their counts |
| ResultProcessor.ProcessPersistenceResults | src/lib/recall/result-processor.ts:6-47 | the results are passed through; the total is their number; successes plus failures make the total; the per-event counts sum to the total, are all at least one, and exist exactly for the events that occur |
| ResultProcessor.KindsPresent | src/lib/recall/result-processor.ts:21-24 | an event's count is positive exactly when some result has that event |
| ResultProcessor.KindCountPositive | src/lib/recall/result-processor.ts:21-24 | the same, for one event |
| ResultProcessor.CreateProcessingResult | src/lib/recall/result-processor.ts:52-74 | the job result is complete, has no reason, and carries each argument unchanged |
| ResultProcessor.CreateNoFactsResult | src/lib/recall/result-processor.ts:79-86 | the early-exit result is complete, counts no facts and no changes, gives the no-facts reason and carries no summary or details |
| FactExtraction.RenderMessage | src/lib/recall/fact-extraction.ts:21 | a transcript line is the role name, a colon and a space, then exactly the content |
| FactExtraction.Lines | src/lib/recall/fact-extraction.ts:20-21 | one line per message, in order |
| FactExtraction.FullPrompt | src/lib/recall/fact-extraction.ts:24 | the prompt is the instruction text, a blank line, then the transcript |
| FactExtraction.ExtractFacts | src/lib/recall/fact-extraction.ts:9-39 | the facts are the model's validated answer to exactly the instruction text, a blank line and the transcript, passed on unchanged |
| FactExtraction.NoNewline | src/lib/recall/fact-extraction.ts:21 | a line of a message without a newline holds no newline |
| FactExtraction.ConversationRoundTrip | src/lib/recall/fact-extraction.ts:20-24 | when no content holds a newline, splitting the transcript at newlines gives back the lines, and each line after its role prefix is the message's content |
| MemoryProcessor.ValidateInputParameters | src/lib/recall/memory-processor.ts:20-30 | a job is accepted exactly when messages are present and non-empty and the namespace and user id are non-empty, with the fixed error otherwise |
| MemoryProcessor.Reconcile | src/lib/recall/memory-reconciliation.ts:11-34 | reconciliation fails with the fetch error when the memory set cannot be read, and otherwise hands the facts and the fetched memories to the reconciler |
| MemoryProcessor.ProcessMemory | src/lib/recall/memory-processor.ts:36-97 | invalid input fails; every completed job is complete and touches only its own user's memory scope; without details it is the no-facts result on an unchanged store; with details the facts count is positive, the changed count is the number of successful operations and the summary is the operation tally; once the input is valid, the job fails exactly when extraction fails, or when facts were found and either reconciliation (including its memory read) fails or a non-empty plan's commit fails, and then the job's error is that step's error |
| MemoryProcessor.ProcessMemoryReports | src/lib/recall/memory-processor.ts:71-95 | with facts found, a plan reconciled and the commit working, the job reports the facts, the plan size, the success count and the per-event tally of the persisted results, and the user's scope becomes the persisted scope |
| MemoryProcessor.NoFactsSkipsReconcile | src/lib/recall/memory-processor.ts:51-56 | with no facts the job returns the no-facts result, leaves the store alone, and never consults the reconciler |
| MemoryProcessor.AllNonePlanReportsEveryItem | src/lib/recall/memory-processor.ts:86-89 | a plan of NONE items reports every item as a changed memory while the store is unchanged |
| VectorSearch.Dot | src/lib/recall/vector-search.ts:44-52 | the dot product of a vector with itself is never negative |
| VectorSearch.Cosine | src/lib/recall/vector-search.ts:39-57 | fails exactly when the lengths differ, with the fixed message; is 0 when either vector has zero norm; otherwise has the sign of the dot product |
| VectorSearch.Accumulate | src/lib/recall/vector-search.ts:44-52 | the loop computes the dot product and both squared norms |
| VectorSearch.CosineSimilarity | src/lib/recall/vector-search.ts:39-57 | the loop-based computation agrees with the recursive definition |
| VectorSearch.DotSymmetric | src/lib/recall/vector-search.ts:49 | the dot product does not depend on argument order |
| VectorSearch.CosineSymmetric | src/lib/recall/vector-search.ts:39-57 | cosine similarity does not depend on argument order |
| VectorSearch.CosineSelf | src/lib/recall/vector-search.ts:54-56 | a non-zero vector has similarity 1 with itself when the square root is exact |
| VectorSearch.Insert | src/lib/recall/vector-search.ts:228 | inserting into a ranked list adds exactly that element and keeps it ranked |
| VectorSearch.Rank | src/lib/recall/vector-search.ts:228 | the ranking is a permutation of its input in descending similarity |
| VectorSearch.InsertWithScore | src/lib/recall/vector-search.ts:228 | insertion keeps the relative order of the elements of any one score, placing the new one first among them |
| VectorSearch.RankStable | src/lib/recall/vector-search.ts:228 | the ranking is stable: the elements of each score keep their input order |
| VectorSearch.Slice | src/lib/recall/vector-search.ts:230 | taking the first k keeps a prefix of length min(k, n), or n + k clamped at 0 for negative k |
| VectorSearch.SliceKeepsBest | src/lib/recall/vector-search.ts:228-230 | the kept prefix of a ranked list is ranked, the kept and dropped parts make up the list, and nothing dropped scores higher than anything kept |
| VectorSearch.CandidatesFromMembers | src/lib/recall/vector-search.ts:199-225 | every scored candidate is a member with a readable document that has non-empty text and an embedding of the query's length, scored by cosine similarity |
| VectorSearch.TopFromInput | src/lib/recall/vector-search.ts:228-230 | everything in the top k was an input |
| VectorSearch.WithScoreConcat | src/lib/recall/vector-search.ts:228 | the items of one score in a concatenation are those of the first part followed by those of the second |
| VectorSearch.CutIsBest | src/lib/recall/vector-search.ts:228-230 | a top-k cut of a ranked list, with the dropped part, makes up the list, and nothing dropped outscores anything kept |
| VectorSearch.CutKeepsTieOrder | src/lib/recall/vector-search.ts:228-230 | for every score, the kept items of that score are the first ones of the input with that score, in input order |
| VectorSearch.CutOfRankIsBest | src/lib/recall/vector-search.ts:228-230 | the top-k cut of the ranking is a best-scoring part of the input and keeps the input order among ties |
| VectorSearch.BestKeepsBetter | src/lib/recall/vector-search.ts:228-230 | an input item that outscores a kept item is kept too |
| VectorSearch.BestOfAll | src/lib/recall/vector-search.ts:228-230 | a best-scoring part as long as the input is all of the input |
| VectorSearch.FallbackRanked | src/lib/recall/vector-search.ts:176-241 | fails exactly when the id set cannot be read; no members gives nothing; otherwise a ranked list of candidates, each from a member, exactly min(topK, candidates) long for a non-negative topK (JavaScript `slice` lengths for a negative one), which with the dropped candidates makes up all candidates, is outscored by none of them, and keeps enumeration order among equal scores |
| VectorSearch.FallbackKeepsBetter | src/lib/recall/vector-search.ts:205-240 | a scored memory that outscores a returned one is returned too |
| VectorSearch.FallbackKeepsAll | src/lib/recall/vector-search.ts:205-240 | when topK is at least the number of scored memories, every one of them is returned |
| VectorSearch.Texts | src/lib/recall/vector-search.ts:240 | the texts of the ranked memories, one per entry, in order |
| VectorSearch.Fallback | src/lib/recall/vector-search.ts:176-241 | fails exactly when the id set cannot be read; otherwise at most min(topK, members) texts, each the non-empty text of a readable member document whose embedding matches the query's length, and they are the texts of the ranked list in order |
| VectorSearch.UsableText | src/lib/recall/vector-search.ts:317-325 | an index document's text is used trimmed, non-empty and without white space at either end, and is used whenever it is not all white space |
| VectorSearch.IndexTexts | src/lib/recall/vector-search.ts:313-334 | the kept index texts are trimmed non-empty texts of returned documents, and every returned document with non-blank text contributes its trimmed text |
| VectorSearch.RetrieveMemories | src/lib/recall/vector-search.ts:246-369 | a missing or blank query, or a failed embedding, gives nothing; otherwise the index texts when the index answers with some usable text, else the fallback's texts, else nothing |
| VectorSearch.DefaultTopKIsThree | src/lib/recall/vector-search.ts:250 | leaving topK out is asking for 3 |
| VectorSearch.RetrievedAreStoredOrIndexed | src/lib/recall/vector-search.ts:246-369 | every retrieved text is non-empty and is either a stored memory text of that user or a trimmed text the index returned for that query |
| VectorSearch.RetrievedFromIndexOrFew | src/lib/recall/vector-search.ts:230-358 | unless every retrieved text came from the index, no more than topK texts are retrieved |
| VectorSearch.DebugMemoryCount | src/lib/recall/vector-search.ts:374-387 | the number of members, 0 when the set cannot be read |
| VectorSearch.DebugListMemoryIds | src/lib/recall/vector-search.ts:392-405 | only members are listed, and every member is listed when the set can be read |
| VectorSearch.DebugCountMatchesList | src/lib/recall/vector-search.ts:374-405 | the debug count equals the length of the debug listing |
| MemoriesData.NoColonNotContained | src/data/memories.ts:40 | a string without a colon character does not contain the one-colon separator |
| MemoriesData.UserIdSegment | src/data/memories.ts:39-42 | the extraction as written yields a value exactly when the key has more than two colon-separated pieces, and then yields the third piece |
| MemoriesData.IdsKeySegments | src/data/memories.ts:39-42 | the id-set key of a colon-free namespace and user splits into the four pieces `memories`, namespace, user and `ids` |
| MemoriesData.UserIdSegmentRoundTrip | src/data/memories.ts:39-42 | for colon-free namespace and user, the extraction as written recovers the user id |
| MemoriesData.UserIdSegmentCutsAtColon | src/data/memories.ts:39-42 | for a user id holding a colon, the extraction as written returns only the part before the first colon, not the id |
| MemoriesData.UserIdOfKey | src/data/memories.ts:39-42 | the corrected extraction yields a value only for keys that are exactly the namespace prefix, that value, and the `:ids` suffix |
| MemoriesData.UserIdOfKeyRoundTrip | src/data/memories.ts:39-42 | the corrected extraction recovers every user id from its id-set key, colons included |
| MemoriesData.ExtractionsAgree | src/data/memories.ts:39-42 | on colon-free namespaces and user ids the corrected extraction agrees with the one as written |
| MemoriesData.UserIds | src/data/memories.ts:32-42 | one id per listed key, in listing order, each the third `:`-separated piece of its key as the source extracts it |
| MemoriesData.PatternKeyHasSegment | src/data/memories.ts:32-42 | every key the `memories:{ns}:*:ids` listing can return has a third piece, so the extraction never reads past the split |
| MemoriesData.UserIdsOfListing | src/data/memories.ts:32-42 | for a colon-free namespace and colon-free user ids, the ids read from the users' listed keys are exactly those users, in order |
| MemoriesData.UserIdsCutAtColon | src/data/memories.ts:32-42 | a listed user whose id holds a colon is read back as the part of the id before the colon |
| MemoriesData.GetUsersForNamespace | src/data/memories.ts:128-142 | nothing when the listing fails; otherwise one id per listed key, each the third `:`-separated piece of its key |
| MemoriesData.Project | src/data/memories.ts:95-100 | the dashboard record keeps a document's id, text and both timestamps |
| MemoriesData.Displayed | src/data/memories.ts:77-105 | a member is displayed exactly when its document can be read, and then as the projection of that document |
| MemoriesData.ShownExactly | src/data/memories.ts:76-109 | at most one record per member; every record is the projection of a readable member document; every readable member document is shown |
| MemoriesData.GetUserMemories | src/data/memories.ts:64-114 | fails exactly when the id set cannot be read, with the fixed message; otherwise at most one record per member, namely the readable members' records in enumeration order |
| MemoriesData.AllUserMemories | src/data/memories.ts:47-52 | a failing namespace listing carries the per-user fixed message |
| MemoriesData.AllUserMemoriesFails | src/data/memories.ts:47-52 | the namespace listing fails exactly when some listed user's id set cannot be read |
| MemoriesData.AllUserMemoriesCons | src/data/memories.ts:49-52 | the listing succeeds exactly when the first user's and the rest's do, and is then the first user's memories followed by the rest |
| MemoriesData.AllUserMemoriesConcat | src/data/memories.ts:47-52 | the listing of two user lists in a row is the two listings concatenated |
| MemoriesData.ListingSplit | src/data/memories.ts:47-52 | cutting the user list at any position cuts the successful listing at the same place |
| MemoriesData.AllUserMemoriesOne | src/data/memories.ts:49-51 | the listing of one user is that user's memories |
| MemoriesData.UserBlockInListing | src/data/memories.ts:47-52 | in a successful listing each listed user's memories appear as one contiguous block |
| MemoriesData.GetMemoriesByNamespace | src/data/memories.ts:19-62 | fails with the fixed message when signed out or without a current namespace; succeeds exactly when signed in with a current namespace whose key listing and every user's memories can be read, and then returns all users' memories in listing order with one user id per listed key, each the third `:`-separated piece of its key |
| RecallRoute.FormatMemoriesForPrompt | src/app/api/v1/recall/route.ts:30-35 | the block is empty exactly when there are no memories, and otherwise starts with the header and the first separator |
| RecallRoute.SeparatorUnbordered | src/app/api/v1/recall/route.ts:34 | the separator has no proper border, so its occurrences cannot overlap |
| RecallRoute.HeaderHasNoSeparator | src/app/api/v1/recall/route.ts:34 | the header does not contain the separator |
| RecallRoute.FormatIsJoin | src/app/api/v1/recall/route.ts:30-35 | a non-empty block is the header and the memories joined by the separator |
| RecallRoute.ParseFormattedRoundTrip | src/app/api/v1/recall/route.ts:30-35 | when no memory contains the separator, the memories can be read back from the block exactly |
| RecallRoute.BearerKey | src/app/api/v1/recall/route.ts:40-48 | a key is found exactly when the header is present and starts with `Bearer `, and the header is then that prefix followed by the key |
| RecallRoute.BearerRoundTrip | src/app/api/v1/recall/route.ts:40-48 | the key is recovered from the header built from it |
| RecallRoute.ParseRole | src/app/api/v1/recall/route.ts:13-23 | a role string is accepted exactly when it names a role, and then as that role |
| RecallRoute.ParseMessage | src/app/api/v1/recall/route.ts:13-23 | a message is accepted exactly when it has a valid role and a content string, and keeps both |
| RecallRoute.ParseMessages | src/app/api/v1/recall/route.ts:13-23 | a message list is accepted exactly when every message is, keeping each one in order |
| RecallRoute.EncodeAll | src/app/api/v1/recall/route.ts:13-23 | one wire message per message, in order |
| RecallRoute.ParseEncodedMessages | src/app/api/v1/recall/route.ts:13-23 | the wire form of any message list parses back to that list |
| RecallRoute.ValidateBody | src/app/api/v1/recall/route.ts:60-69 | a body is accepted exactly when it has a user id string and at least one message and every message parses, with the fixed 400 message otherwise |
| RecallRoute.ValidateEncodedBody | src/app/api/v1/recall/route.ts:60-69 | the wire form of a non-empty conversation with any user id validates to that request |
| RecallRoute.Authenticate | src/app/api/v1/recall/route.ts:40-56 | a missing or non-Bearer header is a 401 with the missing-key message; otherwise the authentication's namespace or its failure status and message |
| RecallRoute.Recall | src/app/api/v1/recall/route.ts:90-102 | a recall is the retrieval with the latest message as the query and at most 2 results for that namespace and end user: a blank latest message recalls nothing; every recalled text is a non-empty stored memory of that end user or an index text for that query; and unless all came from the index, at most 2 are recalled |
| RecallRoute.Post | src/app/api/v1/recall/route.ts:37-134 | a job is dispatched exactly when memories are returned; every failure is 400, 401 or 500; authentication failures pass through; memories are returned exactly when authentication succeeds, the body is valid and the dispatch works; an invalid body is a 400; a body that is not JSON or a failing dispatch is a 500 with the internal error and dispatches nothing; a success returns the formatted memories for the namespace and user and dispatches the conversation for them |
| RecallRoute.DispatchedJobValidates | src/app/api/v1/recall/route.ts:78-85 | a dispatched job passes the job's input validation exactly when the user id and the namespace are non-empty |
| RecallRoute.IndexedKeyRecalls | src/app/api/v1/recall/route.ts:37-118 | in an indexed store, a Bearer key of some namespace with a valid conversation returns memories for that user in that namespace or an earlier one holding the same hash, dispatches the conversation, and returns memories that read back exactly |
| RecallRoute.Get | src/app/api/v1/recall/route.ts:136-207 | authentication failures pass through; a missing or empty user id is a 400; the index is recreated exactly when asked and it works, and a failing recreation is a 500 with the recreate error; otherwise the status reports the namespace, the user and the member count, 0 when the set cannot be read |
| RecallRoute.HandlersShareAuthentication | src/app/api/v1/recall/route.ts:40-56 | when authentication fails both handlers give the same response |
| DemoChat.SanitizeText | src/app/api/demo/chat/route.ts:6-8 | the result is ASCII, no longer than the input, and holds exactly the input's ASCII characters |
| DemoChat.SanitizeIsSubsequence | src/app/api/demo/chat/route.ts:6-8 | sanitising only deletes characters: the result is a subsequence of the input |
| DemoChat.SanitizeConcat | src/app/api/demo/chat/route.ts:6-8 | sanitising a concatenation is concatenating the sanitised parts |
| DemoChat.SanitizeAscii | src/app/api/demo/chat/route.ts:6-8 | ASCII text is left unchanged |
| DemoChat.SanitizeIdempotent | src/app/api/demo/chat/route.ts:6-8 | sanitising twice is sanitising once |
| DemoChat.SanitizedKeyEncodes | src/app/api/demo/chat/route.ts:35 | a sanitised API key can always be hashed by the recall route's authentication |
| DemoChat.SanitizeContent | src/app/api/demo/chat/route.ts:6-20 | a falsy content becomes the empty string and a string is sanitised; a truthy content of another type throws |
| DemoChat.SanitizeMessages | src/app/api/demo/chat/route.ts:17-22 | throws exactly when some content is truthy but not a string; otherwise one message per message, each keeping its role and other fields, with the content sanitised to a string |
| DemoChat.MemoryCount | src/app/api/demo/chat/route.ts:74 | the logged count is the number of separator occurrences in the block |
| DemoChat.CountFormatted | src/app/api/demo/chat/route.ts:74 | on a block formatted by the recall route from separator-free memories, the count is the number of memories |
| DemoChat.AppendMemories | src/app/api/demo/chat/route.ts:99-124 | all messages but the last are kept; the last gets the sanitised memories appended in the context wrapper exactly when it is a user message and the memories are not blank |
| DemoChat.StripHttpStart | src/app/api/demo/chat/route.ts:57-67 | `fetch` drops a leading run of HTTP white space and nothing else |
| DemoChat.StripHttpEnd | src/app/api/demo/chat/route.ts:57-67 | `fetch` drops a trailing run of HTTP white space and nothing else |
| DemoChat.NormalizeHeader | src/app/api/demo/chat/route.ts:57-67 | the header value sent is the given one with HTTP white space cut off both ends, holding only characters of the given one |
| DemoChat.HeaderValue | src/app/api/demo/chat/route.ts:57-67 | `fetch` sends the value with HTTP white space cut off both ends, free of NUL, CR, LF and characters beyond a byte, and always sends a value holding none of them |
| DemoChat.HeaderRefusesOnlyForbidden | src/app/api/demo/chat/route.ts:57-67 | `fetch` throws only on a value holding NUL, CR, LF or a character beyond a byte |
| DemoChat.PlainKeyHeader | src/app/api/demo/chat/route.ts:63 | a key that ends in a visible character and holds no refused character is sent as `Bearer ` and the key, unchanged |
| DemoChat.LineBreakHeaderFails | src/app/api/demo/chat/route.ts:57-89 | a key with a line feed before a visible character makes `fetch` throw |
| DemoChat.FetchMemories | src/app/api/demo/chat/route.ts:47-97 | empty when the call fails or `fetch` refuses the header; otherwise the memories the recall route returns for the header `fetch` sends and the sanitised conversation, and empty when the route refuses |
| DemoChat.PlainKeyReachesRoute | src/app/api/demo/chat/route.ts:57-77 | for a key `fetch` sends unchanged, the memories are those the recall route returns for exactly that key |
| DemoChat.Chat | src/app/api/demo/chat/route.ts:24-153 | an unreadable request is a 500; missing messages, user id or key is a 400; with all present, a messages value that is not an array, a truthy non-string content, user id or key, or a failed stream is a 500; a reply is streamed exactly when the fields are present, readable and the stream starts; the messages sent are the system message followed by the sanitised messages with memories appended |
| DemoChat.AsciiByMembers | src/app/api/demo/chat/route.ts:107 | a string all of whose characters are below 0x80 is ASCII |
| DemoChat.LiteralsAscii | src/app/api/demo/chat/route.ts:107 | the context wrapper's opening and closing are ASCII |
| DemoChat.AsciiConcat | src/app/api/demo/chat/route.ts:107 | the concatenation of ASCII strings is ASCII |
| DemoChat.AppendKeepsAscii | src/app/api/demo/chat/route.ts:100-107 | appending memories keeps every message content ASCII |
| DemoChat.SentContentsAscii | src/app/api/demo/chat/route.ts:127-148 | a streamed request sends the system message first and only ASCII contents after it |
| DemoChat.ContextAppendedIff | src/app/api/demo/chat/route.ts:99-134 | a streamed request sends one more message than it received, the system message first, and the rest differ from the sanitised messages exactly when memories were appended to a last user message |
| ApiKeysClient.MaskApiKey | src/components/api-keys/api-keys-client.tsx:55-60 | a key shorter than 12 masks to 32 bullets; a longer one to 36 characters: its first 8, 24 bullets and its last 4 |
| ApiKeysClient.MaskEqualIff | src/components/api-keys/api-keys-client.tsx:55-60 | two keys of at least 12 characters mask alike exactly when their first 8 and last 4 characters agree |
| ApiKeysClient.MaskPlainKey | src/components/api-keys/api-keys-client.tsx:55-60 | a generated plain key masks to `key_`, the id's first 4 characters, 24 bullets and the id's last 4 |
| ApiKeysClient.MaskPlaceholder | src/components/api-keys/api-keys-client.tsx:55-60 | the placeholder shown for an unrecoverable key masks to itself |
| ApiKeysClient.Shown | src/components/api-keys/api-keys-client.tsx:162 | a revealed key is shown in full; a hidden key shows its mask, which for a key of at least 12 characters is 36 characters with 24 bullets in the middle |
| ApiKeysClient.HandleDelete | src/components/api-keys/api-keys-client.tsx:198-200 | the local list after deletion is no longer and holds no key with that id |
| ApiKeysClient.HandleDeleteKeeps | src/components/api-keys/api-keys-client.tsx:198-200 | a key remains exactly when it was listed and has another id |
| ApiKeysClient.HandleDeleteConcat | src/components/api-keys/api-keys-client.tsx:198-200 | deleting from a concatenation deletes from each part |
| ApiKeysClient.HandleDeleteAbsent | src/components/api-keys/api-keys-client.tsx:198-200 | deleting an id no key has leaves the list unchanged |
| ApiKeysClient.HandleDeleteOne | src/components/api-keys/api-keys-client.tsx:198-200 | deleting the id of the only key holding it removes exactly that position |
| ApiKeysClient.HandleRegenerate | src/components/api-keys/api-keys-client.tsx:202-208 | the list keeps its length and every field but the key; keys of the namespace become the new key, all others stay |
| ApiKeysClient.ListedIdsUnique | src/actions/api-keys.ts:48-75 | with distinct namespace names, the server listing's ids are distinct |
| ApiKeysClient.EntryUnaffected | src/actions/api-keys.ts:50-73 | removing another namespace's plain key does not change a namespace's listed entry |
| ApiKeysClient.ListingOfSpliced | src/actions/api-keys.ts:48-75 | cutting one namespace and its plain key out of a record with distinct names cuts exactly its entry out of the listing |
| ApiKeysClient.ServerListingAfterDelete | src/actions/api-keys.ts:140-197 | deleting a listed key succeeds, and the server then lists everything but that entry, in order |
| ApiKeysClient.LocalDeleteMatchesServer | src/components/api-keys/api-keys-client.tsx:198-200 | with distinct names, the list the dashboard keeps after a delete equals what the server lists afterwards |
| ApiKeysClient.LocalRegenerateMatchesServer | src/components/api-keys/api-keys-client.tsx:202-208 | with distinct names, the list the dashboard keeps after a regeneration equals the server's new listing except for the stored hash, which the dashboard does not refresh |

## Left out

- Language-model calls (fact extraction, reconciliation, the demo's chat stream) and the embedder: they are function parameters. Reconciliation's prompt text and the prompts module are not part of this model.
- The Redis search index (creating, recreating, KNN search, FLOAT32 query encoding): the index is an oracle returning a document list, and recreating it is a success-or-failure parameter.
- IEEE floating point: similarities are real numbers and the square root is a parameter that is positive on positive inputs. No bound on the cosine range is claimed, because the code promises none.
- Encryption and decryption of plain keys (src/lib/encryption.ts): these are parameters.
- The id generator and ISO timestamps: these are parameters.
- Publishing namespace updates, `revalidatePath`, the server-sent events route, the Redis connection, Inngest retries and step memoisation, and console logging: these have no effect on the modelled results.
- Concurrency: jobs for the same user and concurrent dashboard actions are not modelled, since the code takes no locks.
- Redis's flat key space: a memory id containing `:` or equal to `ids` would alias another key. Each scope is modelled as its own set and map instead.
- JSON parsing and zod's error details: a request body arrives decoded, and a rejected body carries only the route's fixed message.
- The React pages and components, apart from the key mask and the local key-list updates.
- `getMemoriesByUser`, `getNamespaces`, `getUserData`, the memories and check-namespace API routes, and src/actions/setNamespace.ts: these are thin wrappers over logic modelled elsewhere.
- The demo's `formatDate` and its sanitisation-length log: presentation only.
- NamespaceActions.Slug, NamespaceActions.LowerChar, NamespaceActions.Lower: lower-casing is modelled only on A to Z. JavaScript's `toLowerCase` also maps non-ASCII letters, and Unicode case tables are out of reach here.
- NamespaceActions.ValidateName: lengths count Unicode characters, not the UTF-16 code units JavaScript counts. The two differ only for characters outside the Basic Multilingual Plane.
- ApiKeysClient.MaskApiKey: the prefix and suffix are taken by character, not by UTF-16 code unit. The two agree on the ASCII keys the actions generate.
- RedisUtils.FetchUserMemories: the contract does not state that results follow the id set's enumeration order. The definition filters that order, and `Filtering.FilterMapConcat` gives the order structure.
- DemoChat.SentContentsAscii: it does not state that the fixed system prompt is ASCII, only that every later message content is. Proving a character-by-character property of a literal that long is beyond the solver's budget here.
- DemoChat.Chat: an array element of `messages` that is not an object is not modelled. Each element arrives as a message with a role, a content and other fields.
- The Redis transaction (`MULTI`/`EXEC`) is taken as all-or-nothing: the commit applies every queued command or none. Redis itself does not roll back a command that fails inside `EXEC`.
- MemoriesData.GetMemoriesByNamespace: it follows the user-id extraction as written (`MemoriesData.UserIds`), not the corrected `MemoriesData.UserIdOfKey`, so it keeps the defect under "## Findings".
- MemoriesData.UserIds: glob metacharacters (`*`, `?`, `[`) in a namespace name are read literally. The key listing is taken to return only keys that start with the namespace's literal prefix (`MemoriesData.ListsIdsKeys`).
- MemoryProcessor.Reconcile: the reconciler's answer is used unvalidated, as in the source. The model says nothing about which plan it returns.

## Findings

| source | as written | input that shows it | evidently intended | confidence | as-written member | corrected member |
|---|---|---|---|---|---|---|
| src/data/memories.ts:39-42 | the user id of each `memories:{ns}:{userId}:ids` key is taken as the third `:`-separated piece | an end user with id `org:42` (the recall API accepts any string): the key `memories:ns:org:42:ids` yields `org`, so the dashboard reads the memories of `memories:ns:org` and lists a user that does not exist | the whole text between the namespace prefix and the `:ids` suffix | not executed | MemoriesData.UserIdSegmentCutsAtColon | MemoriesData.UserIdOfKeyRoundTrip |

=== FILE: accounts.dfy ===
/** The account data the dashboard actions and API authentication share
    (src/types/namespace.ts): each developer's `UserData` record stored at
    `user:{id}`, the index from a hashed API key to its owner stored at
    `apikey:{hash}`, and the encrypted plain keys stored at
    `plainkey:{user}:{namespace}`. */
module Accounts {
  import opened Wrappers
  import opened Filtering

  /** A namespace and the hash of its single API key. */
  datatype Namespace = Namespace(name: string, apiKey: string, createdAt: string)

  /** A developer's record; `current` is the selected namespace name. */
  datatype UserData = UserData(namespaces: seq<Namespace>, current: Option<string>)

  /** The record an action starts from when none is stored. */
  const NoUserData := UserData([], None)

  datatype Store = Store(
    users: map<string, UserData>,
    apiKeys: map<string, string>,
    plainKeys: map<(string, string), string>)

  /** A developer's stored record, or the empty record when none is stored. */
  function UserDataOf(st: Store, user: string): (d: UserData)
    ensures user !in st.users ==> d == NoUserData
    ensures user in st.users ==> d == st.users[user]
  {
    if user in st.users then st.users[user] else NoUserData
  }

  /** Where the first namespace called `name` sits, or -1. */
  function IndexOfName(nss: seq<Namespace>, name: string): (i: int)
    ensures -1 <= i < |nss|
    ensures 0 <= i ==> nss[i].name == name && forall j :: 0 <= j < i ==> nss[j].name != name
    ensures i == -1 <==> forall j :: 0 <= j < |nss| ==> nss[j].name != name
  {
    FirstIndex(nss, (n: Namespace) => n.name == name)
  }

  predicate HasName(nss: seq<Namespace>, name: string) {
    exists j :: 0 <= j < |nss| && nss[j].name == name
  }

  /** No two namespaces of a record share a name. */
  predicate UniqueNames(nss: seq<Namespace>) {
    forall i, j :: 0 <= i < j < |nss| ==> nss[i].name != nss[j].name
  }

  /** Every developer's namespace names are unique. */
  ghost predicate DistinctNames(st: Store) {
    forall u :: u in st.users ==> UniqueNames(st.users[u].namespaces)
  }

  /** `userId` from the session is truthy: present and non-empty. */
  predicate SignedIn(user: Option<string>) {
    user.Some? && user.value != ""
  }

  /** The account index is complete: every namespace's key hash maps back
      to the namespace's owner. */
  ghost predicate Indexed(st: Store) {
    forall u, j :: u in st.users && 0 <= j < |st.users[u].namespaces| ==>
      st.users[u].namespaces[j].apiKey in st.apiKeys
      && st.apiKeys[st.users[u].namespaces[j].apiKey] == u
  }

  /** A hash the index does not know belongs to no namespace of an indexed
      store. */
  lemma FreshHashUnused(st: Store, user: string, h: string)
    requires Indexed(st) && h !in st.apiKeys
    ensures forall j :: 0 <= j < |UserDataOf(st, user).namespaces| ==> UserDataOf(st, user).namespaces[j].apiKey != h
  {
  }
}

=== FILE: api_auth.dfy ===
/** API-key authentication (src/lib/recall/api-auth.ts): hash the key the
    way `btoa` does, look up its owner, then the owner's namespace holding
    that hash. */
module ApiAuth {
  import opened Wrappers
  import opened Filtering
  import opened Encoding
  import opened Accounts

  const InvalidKeyError := "Invalid API Key."
  const MissingUserError := "User data not found for API key."
  const MissingNamespaceError := "Namespace not found for API key."
  const AuthInternalError := "Internal Server Error during authentication."

  datatype AuthResult =
    | AuthOk(namespace: string, developerUserId: string)
    | AuthFail(error: string, status: int)

  /** Where the first namespace holding hash `h` sits, or -1. */
  function IndexOfKey(nss: seq<Namespace>, h: string): (i: int)
    ensures -1 <= i < |nss|
    ensures 0 <= i ==> nss[i].apiKey == h && forall j :: 0 <= j < i ==> nss[j].apiKey != h
    ensures i == -1 <==> forall j :: 0 <= j < |nss| ==> nss[j].apiKey != h
  {
    FirstIndex(nss, (n: Namespace) => n.apiKey == h)
  }

  /** `handleApiAuth`. `storeFault` is a failure of the store client; it
      and a key `btoa` cannot encode end in the catch-all 500. */
  function HandleApiAuth(st: Store, enc: Base64, apiKey: string, storeFault: bool): (r: AuthResult)
    ensures r.AuthFail? ==> r.status == 401 || r.status == 500
    ensures storeFault || Btoa(enc, apiKey).None? ==> r == AuthFail(AuthInternalError, 500)
    ensures !storeFault && Btoa(enc, apiKey).Some? ==>
      var h := Btoa(enc, apiKey).value;
      && (h !in st.apiKeys || st.apiKeys[h] == "" <==> r == AuthFail(InvalidKeyError, 401))
      && (h in st.apiKeys && st.apiKeys[h] != "" && st.apiKeys[h] !in st.users ==> r == AuthFail(MissingUserError, 500))
      && (h in st.apiKeys && st.apiKeys[h] != "" && st.apiKeys[h] in st.users
          && (forall j :: 0 <= j < |st.users[st.apiKeys[h]].namespaces| ==> st.users[st.apiKeys[h]].namespaces[j].apiKey != h)
          ==> r == AuthFail(MissingNamespaceError, 500))
    ensures r.AuthOk? <==>
      && !storeFault && Btoa(enc, apiKey).Some?
      && var h := Btoa(enc, apiKey).value;
      && h in st.apiKeys && st.apiKeys[h] != "" && st.apiKeys[h] in st.users
      && exists j :: 0 <= j < |st.users[st.apiKeys[h]].namespaces| && st.users[st.apiKeys[h]].namespaces[j].apiKey == h
    ensures r.AuthOk? ==>
      var h := Btoa(enc, apiKey).value;
      var nss := st.users[st.apiKeys[h]].namespaces;
      && r.developerUserId == st.apiKeys[h]
      && (exists j :: 0 <= j < |nss| && nss[j].apiKey == h && nss[j].name == r.namespace
           && forall i :: 0 <= i < j ==> nss[i].apiKey != h)
  {
    if storeFault then AuthFail(AuthInternalError, 500)
    else
      match Btoa(enc, apiKey)
      case None => AuthFail(AuthInternalError, 500)
      case Some(h) =>
        if h !in st.apiKeys || st.apiKeys[h] == "" then AuthFail(InvalidKeyError, 401)
        else
          var user := st.apiKeys[h];
          if user !in st.users then AuthFail(MissingUserError, 500)
          else
            var nss := st.users[user].namespaces;
            var j := IndexOfKey(nss, h);
            if j < 0 then AuthFail(MissingNamespaceError, 500)
            else AuthOk(nss[j].name, user)
  }

  /** A key is accepted exactly when an indexed namespace holds its hash:
      in an indexed store the three lookups agree, so the only failures
      left are a missing mapping (401) and an internal error. */
  lemma IndexedStoreAuthenticates(st: Store, enc: Base64, apiKey: string, user: string, j: int)
    requires Indexed(st)
    requires user in st.users && 0 <= j < |st.users[user].namespaces|
    requires Btoa(enc, apiKey) == Some(st.users[user].namespaces[j].apiKey)
    requires user != ""
    ensures var r := HandleApiAuth(st, enc, apiKey, false);
      && r.AuthOk? && r.developerUserId == user
      && exists i :: 0 <= i <= j && st.users[user].namespaces[i].name == r.namespace
  {
    var h := st.users[user].namespaces[j].apiKey;
    assert st.apiKeys[h] == user;
  }
}

=== FILE: api_key_actions.dfy ===
/** The API-key actions of the dashboard (src/actions/api-keys.ts): listing
    one key per namespace, regenerating a namespace's key and deleting a
    key together with its namespace. The cipher, the random key id and a
    failing store are parameters. */
module ApiKeyActions {
  import opened Wrappers
  import opened Text
  import opened Encoding
  import opened Accounts
  import opened ApiAuth
  import opened NamespaceData
  import opened NamespaceActions

  const Unauthorized := "Unauthorized"
  const NamespaceNotFound := "Namespace not found"
  const RegenerateFailed := "Failed to regenerate API key"
  const DeleteFailed := "Failed to delete API key"

  /** The masking character U+2022. */
  const Bullet: char := '•'

  function Bullets(n: nat): (r: string)
    ensures |r| == n && forall i :: 0 <= i < n ==> r[i] == Bullet
  {
    seq(n, i => Bullet)
  }

  /** The key shown when the plain key cannot be recovered. */
  const Placeholder := "key_" + Bullets(32)

  /** `ApiKey` (src/types/api-key.ts). */
  datatype ApiKey = ApiKey(
    id: string,
    name: string,
    key: string,
    hashedKey: string,
    created: string,
    lastUsed: Option<string>,
    status: string,
    namespace: string)

  /** The id under which a namespace's key is listed. */
  function KeyIdOf(name: string): (id: string)
    ensures StartsWith(id, "key_") && id[4..] == name
  {
    "key_" + name
  }

  /** The plain key recovered for a namespace: the stored ciphertext, when
      there is a non-empty one, decrypted; `decrypt` is `None` where the
      cipher throws. */
  function RecoveredKey(st: Store, user: string, name: string, decrypt: string -> Option<string>): Option<string> {
    if (user, name) in st.plainKeys && st.plainKeys[(user, name)] != "" then decrypt(st.plainKeys[(user, name)])
    else None
  }

  /** The listing entry of one namespace. */
  function Entry(st: Store, user: string, n: Namespace, decrypt: string -> Option<string>): (k: ApiKey)
    ensures k.id == KeyIdOf(n.name) && k.name == n.name + " API Key" && k.namespace == n.name
    ensures k.hashedKey == n.apiKey && k.created == n.createdAt
    ensures k.lastUsed.None? && k.status == "active"
    ensures var p := RecoveredKey(st, user, n.name, decrypt);
      k.key == if p.Some? && p.value != "" then p.value else Placeholder
  {
    var p := RecoveredKey(st, user, n.name, decrypt);
    ApiKey(KeyIdOf(n.name), n.name + " API Key", if p.Some? && p.value != "" then p.value else Placeholder,
           n.apiKey, n.createdAt, None, "active", n.name)
  }

  /** `getApiKeys`: one entry per namespace, in the record's order; none
      when nobody is signed in or the store fails. */
  function GetApiKeys(st: Store, user: Option<string>, decrypt: string -> Option<string>, fault: bool): (r: seq<ApiKey>)
    ensures !SignedIn(user) || fault ==> r == []
    ensures SignedIn(user) && !fault ==>
      var nss := UserDataOf(st, user.value).namespaces;
      |r| == |nss| && forall i :: 0 <= i < |nss| ==> r[i] == Entry(st, user.value, nss[i], decrypt)
  {
    if !SignedIn(user) || fault then []
    else
      var nss := UserDataOf(st, user.value).namespaces;
      seq(|nss|, i requires 0 <= i < |nss| => Entry(st, user.value, nss[i], decrypt))
  }

  /** What a key action reports. */
  datatype KeyResult = KeyResult(success: bool, apiKey: Option<string>, error: Option<string>)

  function Refused(e: string): KeyResult {
    KeyResult(false, None, Some(e))
  }

  datatype Changed = Changed(result: KeyResult, store: Store)

  /** A key action's checks pass: a signed-in user who has a namespace of
      that name. */
  predicate Found(st: Store, user: Option<string>, name: string) {
    SignedIn(user) && HasName(UserDataOf(st, user.value).namespaces, name)
  }

  /** Where the store and cipher calls of `regenerateApiKey` break off: the
      read of the user record, the removal of the old key's mapping, the
      transaction that writes the record and the new mapping (taken as all
      or nothing), or the encryption and write of the plain key that follow
      it. */
  datatype RegenerateFault = RegenerateRuns | RegenerateReadFails | RevokeFails | RegenerateCommitFails | RegeneratePlainKeyFails

  /** `after` is `st` with the old mapping of the first namespace called
      `namespace` removed and the transaction of `regenerateApiKey`
      committed: that namespace holds the hash `h`, which is indexed under
      the user; nothing else in the records changes. */
  ghost predicate RegenerateCommitted(st: Store, after: Store, u: string, namespace: string, h: string) {
    var d := UserDataOf(st, u);
    var i := IndexOfName(d.namespaces, namespace);
    && 0 <= i < |d.namespaces|
    && u in after.users
    && after.users[u].current == d.current
    && |after.users[u].namespaces| == |d.namespaces|
    && after.users[u].namespaces[i] == d.namespaces[i].(apiKey := h)
    && (forall j :: 0 <= j < |d.namespaces| && j != i ==> after.users[u].namespaces[j] == d.namespaces[j])
    && after.apiKeys == (st.apiKeys - {d.namespaces[i].apiKey})[h := u]
    && (forall v :: v in st.users && v != u ==> v in after.users && after.users[v] == st.users[v])
  }

  /** `regenerateApiKey`: give the first namespace called `namespace` a
      fresh key, revoke the old key's mapping and store the new one. A call
      that throws leaves the writes before it in place. */
  function RegenerateApiKey(st: Store, user: Option<string>, namespace: string, keyId: string,
                            enc: Base64, encrypt: string -> string, fault: RegenerateFault): (r: Changed)
    ensures !SignedIn(user) ==> r == Changed(Refused(Unauthorized), st)
    ensures SignedIn(user) && fault == RegenerateReadFails ==> r == Changed(Refused(RegenerateFailed), st)
    ensures SignedIn(user) && fault != RegenerateReadFails && !HasName(UserDataOf(st, user.value).namespaces, namespace) ==>
      r == Changed(Refused(NamespaceNotFound), st)
    ensures Found(st, user, namespace) && fault == RevokeFails ==> r == Changed(Refused(RegenerateFailed), st)
    ensures Found(st, user, namespace) && fault == RegenerateCommitFails ==>
      var d := UserDataOf(st, user.value);
      r == Changed(Refused(RegenerateFailed), st.(apiKeys := st.apiKeys - {d.namespaces[IndexOfName(d.namespaces, namespace)].apiKey}))
    ensures Found(st, user, namespace) && fault == RegeneratePlainKeyFails ==>
      && r.result == Refused(RegenerateFailed)
      && RegenerateCommitted(st, r.store, user.value, namespace, BufferHash(enc, PlainKey(keyId)))
      && r.store.plainKeys == st.plainKeys
    ensures r.result.success <==> Found(st, user, namespace) && fault == RegenerateRuns
    ensures r.result.success ==>
      var u, plain := user.value, PlainKey(keyId);
      && r.result == KeyResult(true, Some(plain), None)
      && RegenerateCommitted(st, r.store, u, namespace, BufferHash(enc, plain))
      && r.store.plainKeys == st.plainKeys[(u, namespace) := encrypt(plain)]
    ensures !Found(st, user, namespace) || fault == RegenerateReadFails || fault == RevokeFails ==> r.store == st
  {
    if !SignedIn(user) then Changed(Refused(Unauthorized), st)
    else if fault == RegenerateReadFails then Changed(Refused(RegenerateFailed), st)
    else
      var u := user.value;
      var d := UserDataOf(st, u);
      var i := IndexOfName(d.namespaces, namespace);
      if i == -1 then Changed(Refused(NamespaceNotFound), st)
      else if fault == RevokeFails then Changed(Refused(RegenerateFailed), st)
      else
        var oldHash := d.namespaces[i].apiKey;
        var revoked := st.(apiKeys := st.apiKeys - {oldHash});
        if fault == RegenerateCommitFails then Changed(Refused(RegenerateFailed), revoked)
        else
          var plain := PlainKey(keyId);
          var h := BufferHash(enc, plain);
          var d' := d.(namespaces := d.namespaces[i := d.namespaces[i].(apiKey := h)]);
          var committed := revoked.(users := st.users[u := d'], apiKeys := revoked.apiKeys[h := u]);
          if fault == RegeneratePlainKeyFails then Changed(Refused(RegenerateFailed), committed)
          else assert fault.RegenerateRuns?; Changed(KeyResult(true, Some(plain), None), committed.(plainKeys := st.plainKeys[(u, namespace) := encrypt(plain)]))
  }

  /** A failing transaction after the old mapping is gone leaves the
      namespace without a working key: the record still holds the old hash,
      and the old key is refused. */
  lemma RegenerateCommitFailureRevokes(st: Store, user: Option<string>, namespace: string, keyId: string,
                                       enc: Base64, encrypt: string -> string, oldKey: string)
    requires Found(st, user, namespace)
    requires var d := UserDataOf(st, user.value);
      Btoa(enc, oldKey) == Some(d.namespaces[IndexOfName(d.namespaces, namespace)].apiKey)
    ensures var r := RegenerateApiKey(st, user, namespace, keyId, enc, encrypt, RegenerateCommitFails);
      && !r.result.success
      && UserDataOf(r.store, user.value) == UserDataOf(st, user.value)
      && HandleApiAuth(r.store, enc, oldKey, false) == AuthFail(InvalidKeyError, 401)
  {
  }

  /** A failure after the transaction reports an error, yet the new key is
      in force and the old one is refused; the stored plain key is still
      the old one. */
  lemma RegeneratePlainKeyFailureRevokes(st: Store, user: Option<string>, namespace: string, keyId: string,
                                         enc: Base64, encrypt: string -> string, oldKey: string)
    requires Found(st, user, namespace)
    requires var d := UserDataOf(st, user.value);
      Btoa(enc, oldKey) == Some(d.namespaces[IndexOfName(d.namespaces, namespace)].apiKey)
    requires Btoa(enc, oldKey) != Some(BufferHash(enc, PlainKey(keyId)))
    ensures var r := RegenerateApiKey(st, user, namespace, keyId, enc, encrypt, RegeneratePlainKeyFails);
      && !r.result.success
      && r.store.plainKeys == st.plainKeys
      && HandleApiAuth(r.store, enc, oldKey, false) == AuthFail(InvalidKeyError, 401)
  {
  }

  /** Regeneration renames nothing, so names stay unique. */
  lemma RegeneratePreservesDistinctNames(st: Store, user: Option<string>, namespace: string, keyId: string,
                                         enc: Base64, encrypt: string -> string, fault: RegenerateFault)
    requires DistinctNames(st)
    ensures DistinctNames(RegenerateApiKey(st, user, namespace, keyId, enc, encrypt, fault).store)
  {
    var r := RegenerateApiKey(st, user, namespace, keyId, enc, encrypt, fault);
    if Found(st, user, namespace) && (fault == RegenerateRuns || fault == RegeneratePlainKeyFails) {
      var nss := UserDataOf(st, user.value).namespaces;
      var nss' := r.store.users[user.value].namespaces;
      assert forall j :: 0 <= j < |nss| ==> nss'[j].name == nss[j].name;
      assert UniqueNames(nss);
    }
  }

  /** After regeneration the old key is refused, provided the new hash
      differs from the old one. */
  lemma RegenerateRevokesOldKey(st: Store, user: Option<string>, namespace: string, keyId: string,
                                enc: Base64, encrypt: string -> string, oldKey: string)
    requires RegenerateApiKey(st, user, namespace, keyId, enc, encrypt, RegenerateRuns).result.success
    requires var d := UserDataOf(st, user.value);
      Btoa(enc, oldKey) == Some(d.namespaces[IndexOfName(d.namespaces, namespace)].apiKey)
    requires Btoa(enc, oldKey) != Some(BufferHash(enc, PlainKey(keyId)))
    ensures var r := RegenerateApiKey(st, user, namespace, keyId, enc, encrypt, RegenerateRuns);
      HandleApiAuth(r.store, enc, oldKey, false) == AuthFail(InvalidKeyError, 401)
  {
  }

  /** The regenerated key authenticates for that namespace and its owner
      when the index did not know its hash. */
  lemma RegenerateThenAuthenticate(st: Store, user: Option<string>, namespace: string, keyId: string,
                                   enc: Base64, encrypt: string -> string)
    requires Indexed(st) && IsKeyId(keyId)
    requires BufferHash(enc, PlainKey(keyId)) !in st.apiKeys
    requires RegenerateApiKey(st, user, namespace, keyId, enc, encrypt, RegenerateRuns).result.success
    ensures var r := RegenerateApiKey(st, user, namespace, keyId, enc, encrypt, RegenerateRuns);
      HandleApiAuth(r.store, enc, r.result.apiKey.value, false) == AuthOk(namespace, user.value)
  {
    var r := RegenerateApiKey(st, user, namespace, keyId, enc, encrypt, RegenerateRuns);
    var u, plain := user.value, PlainKey(keyId);
    var h := BufferHash(enc, plain);
    var d := UserDataOf(st, u);
    var i := IndexOfName(d.namespaces, namespace);
    AsciiHashesAgree(enc, plain);
    FreshHashUnused(st, u, h);
    var nss := r.store.users[u].namespaces;
    assert forall j :: 0 <= j < i ==> nss[j].apiKey != h;
    assert IndexOfKey(nss, h) == i;
  }

  /** A namespace whose stored key was not replaced lists as before. */
  lemma EntryOther(st: Store, st2: Store, u: string, n: Namespace, namespace: string, c: string,
                   decrypt: string -> Option<string>)
    requires n.name != namespace && st2.plainKeys == st.plainKeys[(u, namespace) := c]
    ensures Entry(st2, u, n, decrypt) == Entry(st, u, n, decrypt)
  {
    assert RecoveredKey(st2, u, n.name, decrypt) == RecoveredKey(st, u, n.name, decrypt);
  }

  /** The regenerated namespace lists its new hash and the recovered new
      key. */
  lemma EntryRegenerated(st: Store, st2: Store, u: string, n: Namespace, h: string, plain: string, c: string,
                         decrypt: string -> Option<string>)
    requires st2.plainKeys == st.plainKeys[(u, n.name) := c]
    requires c != "" && decrypt(c) == Some(plain) && plain != ""
    ensures Entry(st2, u, n.(apiKey := h), decrypt) == Entry(st, u, n, decrypt).(key := plain, hashedKey := h)
  {
    assert RecoveredKey(st2, u, n.name, decrypt) == Some(plain);
  }

  /** The listing shows the regenerated key whenever the cipher gives back
      what it was given. */
  lemma RegeneratedKeyIsListed(st: Store, user: Option<string>, namespace: string, keyId: string,
                               enc: Base64, encrypt: string -> string, decrypt: string -> Option<string>)
    requires RegenerateApiKey(st, user, namespace, keyId, enc, encrypt, RegenerateRuns).result.success
    requires encrypt(PlainKey(keyId)) != "" && decrypt(encrypt(PlainKey(keyId))) == Some(PlainKey(keyId))
    ensures var r := RegenerateApiKey(st, user, namespace, keyId, enc, encrypt, RegenerateRuns);
      var listed := GetApiKeys(r.store, user, decrypt, false);
      var i := IndexOfName(UserDataOf(st, user.value).namespaces, namespace);
      0 <= i < |listed| && listed[i].key == PlainKey(keyId) && listed[i].namespace == namespace
  {
    var r := RegenerateApiKey(st, user, namespace, keyId, enc, encrypt, RegenerateRuns);
    var u, plain := user.value, PlainKey(keyId);
    var nss := UserDataOf(st, u).namespaces;
    var i := IndexOfName(nss, namespace);
    var h := UserDataOf(r.store, u).namespaces[i].apiKey;
    assert plain != "" by { assert StartsWith(plain, "key_"); }
    EntryRegenerated(st, r.store, u, nss[i], h, plain, encrypt(plain), decrypt);
  }

  /** Where the store calls of `deleteApiKey` break off: the read of the
      user record, the removal of the key's mapping, the removal of the
      stored plain key, or the write of the record that follows them. */
  datatype DeleteFault = DeleteRuns | DeleteReadFails | MappingDeleteFails | PlainKeyDeleteFails | UserWriteFails

  /** The namespace a key id names: the id with its first `key_` cut out. */
  function NamespaceOfKeyId(apiKeyId: string): string {
    ReplaceFirst(apiKeyId, "key_", "")
  }

  /** The key hash of the first namespace called `name`. */
  function HashOfName(d: UserData, name: string): string
    requires HasName(d.namespaces, name)
  {
    d.namespaces[IndexOfName(d.namespaces, name)].apiKey
  }

  /** `deleteApiKey`: delete the key mapping, the stored plain key and the
      first namespace of the name the id gives, and move the selection off
      it. A call that throws leaves the deletions before it in place. */
  function DeleteApiKey(st: Store, user: Option<string>, apiKeyId: string, fault: DeleteFault): (r: Changed)
    ensures !SignedIn(user) ==> r == Changed(Refused(Unauthorized), st)
    ensures SignedIn(user) && fault == DeleteReadFails ==> r == Changed(Refused(DeleteFailed), st)
    ensures SignedIn(user) && fault != DeleteReadFails && !HasName(UserDataOf(st, user.value).namespaces, NamespaceOfKeyId(apiKeyId)) ==>
      r == Changed(Refused(NamespaceNotFound), st)
    ensures Found(st, user, NamespaceOfKeyId(apiKeyId)) && fault != DeleteRuns ==> r.result == Refused(DeleteFailed)
    ensures !Found(st, user, NamespaceOfKeyId(apiKeyId)) || fault == DeleteReadFails || fault == MappingDeleteFails ==> r.store == st
    ensures r.result.success <==> Found(st, user, NamespaceOfKeyId(apiKeyId)) && fault == DeleteRuns
    ensures r.result.success ==>
      var u, ns := user.value, NamespaceOfKeyId(apiKeyId);
      var d := UserDataOf(st, u);
      var i := IndexOfName(d.namespaces, ns);
      && r.result == KeyResult(true, None, None)
      && u in r.store.users
      && var rest := r.store.users[u].namespaces;
      && rest == d.namespaces[..i] + d.namespaces[i + 1..]
      && (d.current == Some(ns) ==> r.store.users[u].current == (if |rest| > 0 then Some(rest[0].name) else None))
      && (d.current != Some(ns) ==> r.store.users[u].current == d.current)
      && r.store.apiKeys == st.apiKeys - {d.namespaces[i].apiKey}
      && r.store.plainKeys == st.plainKeys - {(u, ns)}
      && r.store.users.Keys == st.users.Keys + {u}
      && (forall v :: v in st.users && v != u ==> v in r.store.users && r.store.users[v] == st.users[v])
  {
    if !SignedIn(user) then Changed(Refused(Unauthorized), st)
    else if fault == DeleteReadFails then Changed(Refused(DeleteFailed), st)
    else
      var u := user.value;
      var ns := NamespaceOfKeyId(apiKeyId);
      var d := UserDataOf(st, u);
      var i := IndexOfName(d.namespaces, ns);
      if i == -1 then Changed(Refused(NamespaceNotFound), st)
      else if fault == MappingDeleteFails then Changed(Refused(DeleteFailed), st)
      else
        var unmapped := st.(apiKeys := st.apiKeys - {d.namespaces[i].apiKey});
        if fault == PlainKeyDeleteFails then Changed(Refused(DeleteFailed), unmapped)
        else
          var cleared := unmapped.(plainKeys := st.plainKeys - {(u, ns)});
          if fault == UserWriteFails then Changed(Refused(DeleteFailed), cleared)
          else
            var rest := d.namespaces[..i] + d.namespaces[i + 1..];
            var current := if d.current == Some(ns) then (if |rest| > 0 then Some(rest[0].name) else None) else d.current;
            assert fault.DeleteRuns?; Changed(KeyResult(true, None, None), cleared.(users := st.users[u := UserData(rest, current)]))
  }

  /** A failure after the key's mapping is removed leaves it removed, and
      one after the plain key is removed leaves that removed too; the record
      is not written. */
  lemma DeleteLateFailures(st: Store, user: Option<string>, apiKeyId: string)
    requires Found(st, user, NamespaceOfKeyId(apiKeyId))
    ensures var u, ns := user.value, NamespaceOfKeyId(apiKeyId);
      var h := HashOfName(UserDataOf(st, u), ns);
      && DeleteApiKey(st, user, apiKeyId, PlainKeyDeleteFails).store == st.(apiKeys := st.apiKeys - {h})
      && DeleteApiKey(st, user, apiKeyId, UserWriteFails).store
         == st.(apiKeys := st.apiKeys - {h}, plainKeys := st.plainKeys - {(u, ns)})
  {
  }

  /** A failing write of the record after the deletions leaves the
      namespace listed, while its key is refused and its plain key is
      gone. */
  lemma DeleteUserWriteFailureKeepsNamespace(st: Store, user: Option<string>, apiKeyId: string, enc: Base64, key: string)
    requires Found(st, user, NamespaceOfKeyId(apiKeyId))
    requires Btoa(enc, key) == Some(HashOfName(UserDataOf(st, user.value), NamespaceOfKeyId(apiKeyId)))
    ensures var r := DeleteApiKey(st, user, apiKeyId, UserWriteFails);
      && !r.result.success
      && UserDataOf(r.store, user.value) == UserDataOf(st, user.value)
      && (user.value, NamespaceOfKeyId(apiKeyId)) !in r.store.plainKeys
      && HandleApiAuth(r.store, enc, key, false) == AuthFail(InvalidKeyError, 401)
  {
  }

  /** Deleting the entry listed for a namespace deletes that namespace:
      the id gives back the name, and the namespace removed is the first of
      that name. */
  lemma DeleteListedEntry(st: Store, user: Option<string>, decrypt: string -> Option<string>, k: int)
    requires SignedIn(user) && 0 <= k < |GetApiKeys(st, user, decrypt, false)|
    ensures var nss := UserDataOf(st, user.value).namespaces;
      var r := DeleteApiKey(st, user, GetApiKeys(st, user, decrypt, false)[k].id, DeleteRuns);
      var i := IndexOfName(nss, nss[k].name);
      && r.result.success && i <= k
      && r.store.users[user.value].namespaces == nss[..i] + nss[i + 1..]
  {
    var nss := UserDataOf(st, user.value).namespaces;
    ReplaceFirstAtFront("key_", nss[k].name);
  }

  /** Removing a namespace keeps the remaining names unique. */
  lemma DeletePreservesDistinctNames(st: Store, user: Option<string>, apiKeyId: string, fault: DeleteFault)
    requires DistinctNames(st)
    ensures DistinctNames(DeleteApiKey(st, user, apiKeyId, fault).store)
  {
    var r := DeleteApiKey(st, user, apiKeyId, fault);
    if r.result.success {
      var u := user.value;
      var nss := UserDataOf(st, u).namespaces;
      var i := IndexOfName(nss, NamespaceOfKeyId(apiKeyId));
      assert UniqueNames(nss);
      UniqueNamesWithout(nss, i);
      forall v | v in r.store.users
        ensures UniqueNames(r.store.users[v].namespaces)
      {
        if v != u {
          assert v in st.users;
        }
      }
    }
  }

  /** Removing one namespace from a list of unique names keeps them
      unique. */
  lemma UniqueNamesWithout(nss: seq<Namespace>, i: int)
    requires UniqueNames(nss) && 0 <= i < |nss|
    ensures UniqueNames(nss[..i] + nss[i + 1..])
  {
    var rest := nss[..i] + nss[i + 1..];
    assert forall j :: 0 <= j < |rest| ==> rest[j] == nss[if j < i then j else j + 1];
  }

  /** Regeneration renames nothing, so stored selections stay listed. */
  lemma RegenerateKeepsSelectionListed(st: Store, user: Option<string>, namespace: string, keyId: string,
                                       enc: Base64, encrypt: string -> string, fault: RegenerateFault)
    requires SelectionListed(st)
    ensures SelectionListed(RegenerateApiKey(st, user, namespace, keyId, enc, encrypt, fault).store)
  {
    var r := RegenerateApiKey(st, user, namespace, keyId, enc, encrypt, fault);
    if Found(st, user, namespace) && (fault == RegenerateRuns || fault == RegeneratePlainKeyFails) {
      var u := user.value;
      forall v | v in r.store.users && r.store.users[v].current.Some? && r.store.users[v].current.value != ""
        ensures HasName(r.store.users[v].namespaces, r.store.users[v].current.value)
      {
        if v == u {
          var nss := UserDataOf(st, u).namespaces;
          assert u in st.users;
          var j :| 0 <= j < |nss| && nss[j].name == r.store.users[u].current.value;
          assert r.store.users[u].namespaces[j].name == nss[j].name;
        } else {
          assert v in st.users;
        }
      }
    }
  }

  /** Deleting moves a selection that named the deleted namespace, so
      stored selections stay listed. */
  lemma DeleteKeepsSelectionListed(st: Store, user: Option<string>, apiKeyId: string, fault: DeleteFault)
    requires SelectionListed(st)
    ensures SelectionListed(DeleteApiKey(st, user, apiKeyId, fault).store)
  {
    var r := DeleteApiKey(st, user, apiKeyId, fault);
    if r.result.success {
      var u, ns := user.value, NamespaceOfKeyId(apiKeyId);
      var d := UserDataOf(st, u);
      var i := IndexOfName(d.namespaces, ns);
      var rest := r.store.users[u].namespaces;
      var c := r.store.users[u].current;
      if c.Some? && c.value != "" {
        if d.current == Some(ns) {
          assert rest[0].name == c.value;
        } else {
          assert u in st.users;
          var j :| 0 <= j < |d.namespaces| && d.namespaces[j].name == c.value;
          assert j != i;
          if j < i { assert rest[j] == d.namespaces[j]; } else { assert rest[j - 1] == d.namespaces[j]; }
        }
      }
      forall v | v in r.store.users && r.store.users[v].current.Some? && r.store.users[v].current.value != ""
        ensures HasName(r.store.users[v].namespaces, r.store.users[v].current.value)
      {
        if v != u { assert v in st.users; }
      }
    } else if Found(st, user, NamespaceOfKeyId(apiKeyId)) {
      DeleteLateFailures(st, user, apiKeyId);
    }
  }

  /** A deleted key is refused afterwards. */
  lemma DeleteRevokesKey(st: Store, user: Option<string>, apiKeyId: string, enc: Base64, key: string)
    requires DeleteApiKey(st, user, apiKeyId, DeleteRuns).result.success
    requires var d := UserDataOf(st, user.value);
      Btoa(enc, key) == Some(d.namespaces[IndexOfName(d.namespaces, NamespaceOfKeyId(apiKeyId))].apiKey)
    ensures HandleApiAuth(DeleteApiKey(st, user, apiKeyId, DeleteRuns).store, enc, key, false) == AuthFail(InvalidKeyError, 401)
  {
  }

  /** Deleting the selected namespace hands the selection to the first
      namespace left, as the reading of the selection sees it. */
  lemma DeleteCurrentMovesSelection(st: Store, user: Option<string>, apiKeyId: string)
    requires DeleteApiKey(st, user, apiKeyId, DeleteRuns).result.success
    requires UserDataOf(st, user.value).current == Some(NamespaceOfKeyId(apiKeyId))
    ensures var st' := DeleteApiKey(st, user, apiKeyId, DeleteRuns).store;
      var rest := UserDataOf(st', user.value).namespaces;
      GetCurrentNamespace(st', user, false) == if |rest| > 0 then Some(rest[0].name) else None
  {
  }
}

=== FILE: api_keys_client.dfy ===
/** The dashboard's API-key list (src/components/api-keys/api-keys-client.tsx):
    how a key is masked and shown, and how the local list follows a
    deletion or a regeneration without asking the server again. */
module ApiKeysClient {
  import opened Wrappers
  import opened Text
  import opened Encoding
  import opened Accounts
  import opened NamespaceActions
  import opened ApiKeyActions

  /** `maskApiKey`: a short key (the empty one included) shows 32 bullets;
      a longer one keeps its first eight and last four characters around 24
      bullets. */
  function MaskApiKey(key: string): (r: string)
    ensures |key| < 12 ==> r == Bullets(32)
    ensures |key| >= 12 ==>
      && |r| == 36
      && r[..8] == key[..8]
      && r[8..32] == Bullets(24)
      && r[32..] == key[|key| - 4..]
  {
    if |key| < 12 then Bullets(32)
    else
      var r := key[..8] + Bullets(24) + key[|key| - 4..];
      assert r[..8] == key[..8];
      assert r[8..32] == Bullets(24);
      r
  }

  /** Two long keys look the same masked exactly when they agree on the
      eight characters in front and the four at the end. */
  lemma MaskEqualIff(a: string, b: string)
    requires |a| >= 12 && |b| >= 12
    ensures MaskApiKey(a) == MaskApiKey(b) <==> a[..8] == b[..8] && a[|a| - 4..] == b[|b| - 4..]
  {
    var ma, mb := MaskApiKey(a), MaskApiKey(b);
    if ma == mb {
      assert a[..8] == ma[..8] == b[..8];
      assert a[|a| - 4..] == ma[32..] == b[|b| - 4..];
    }
  }

  /** A generated key shows its `key_` prefix, four characters of its id,
      bullets, and the id's last four characters. */
  lemma MaskPlainKey(id: string)
    requires IsKeyId(id)
    ensures MaskApiKey(PlainKey(id)) == "key_" + id[..4] + Bullets(24) + id[28..]
  {
    var k := PlainKey(id);
    var m := MaskApiKey(k);
    assert k[..8] == "key_" + id[..4];
    assert k[32..] == id[28..];
    assert m == m[..8] + m[8..32] + m[32..];
  }

  /** The placeholder listed for an unrecoverable key masks to itself. */
  lemma MaskPlaceholder()
    ensures MaskApiKey(Placeholder) == Placeholder
  {
    var m := MaskApiKey(Placeholder);
    assert Placeholder[..8] == "key_" + Bullets(4);
    assert Placeholder[32..] == Bullets(4);
    assert m == m[..8] + m[8..32] + m[32..];
    assert Placeholder == "key_" + Bullets(4) + Bullets(24) + Bullets(4);
  }

  /** What the key field shows, and what the copy button copies. */
  function Shown(k: ApiKey, revealed: bool): (r: string)
    ensures revealed ==> r == k.key
    ensures !revealed ==> r == MaskApiKey(k.key)
    ensures !revealed && |k.key| >= 12 ==> |r| == 36 && r[8..32] == Bullets(24)
  {
    if revealed then k.key else MaskApiKey(k.key)
  }

  // ---------------------------------------------------------------------
  // The local list

  /** `handleDeleteApiKey`: drop every entry with that id. */
  function HandleDelete(keys: seq<ApiKey>, id: string): (r: seq<ApiKey>)
    ensures |r| <= |keys|
    ensures forall i :: 0 <= i < |r| ==> r[i].id != id
    decreases |keys|
  {
    if |keys| == 0 then []
    else
      var rest := HandleDelete(keys[1..], id);
      if keys[0].id == id then rest else [keys[0]] + rest
  }

  /** Deletion keeps exactly the entries with another id. */
  lemma {:induction false} HandleDeleteKeeps(keys: seq<ApiKey>, id: string)
    ensures forall k :: k in HandleDelete(keys, id) <==> k in keys && k.id != id
    decreases |keys|
  {
    if |keys| > 0 {
      HandleDeleteKeeps(keys[1..], id);
      assert forall k :: k in keys <==> k == keys[0] || k in keys[1..] by {
        assert keys == [keys[0]] + keys[1..];
      }
    }
  }

  /** Deletion works entry by entry, so the entries left keep their order. */
  lemma {:induction false} HandleDeleteConcat(a: seq<ApiKey>, b: seq<ApiKey>, id: string)
    ensures HandleDelete(a + b, id) == HandleDelete(a, id) + HandleDelete(b, id)
    decreases |a|
  {
    if |a| == 0 {
      assert a + b == b;
    } else {
      assert (a + b)[0] == a[0];
      assert (a + b)[1..] == a[1..] + b;
      HandleDeleteConcat(a[1..], b, id);
    }
  }

  /** A list without the id is left as it is. */
  lemma {:induction false} HandleDeleteAbsent(keys: seq<ApiKey>, id: string)
    requires forall i :: 0 <= i < |keys| ==> keys[i].id != id
    ensures HandleDelete(keys, id) == keys
    decreases |keys|
  {
    if |keys| > 0 {
      HandleDeleteAbsent(keys[1..], id);
      assert keys == [keys[0]] + keys[1..];
    }
  }

  /** `handleRegenerateApiKey`: every entry of that namespace gets the new
      key; nothing else of any entry changes. */
  function HandleRegenerate(keys: seq<ApiKey>, namespace: string, newKey: string): (r: seq<ApiKey>)
    ensures |r| == |keys|
    ensures forall i :: 0 <= i < |keys| ==>
      && r[i].(key := keys[i].key) == keys[i]
      && r[i].key == (if keys[i].namespace == namespace then newKey else keys[i].key)
  {
    seq(|keys|, i requires 0 <= i < |keys| => if keys[i].namespace == namespace then keys[i].(key := newKey) else keys[i])
  }

  /** Deleting an id only one entry carries splices that entry out. */
  lemma HandleDeleteOne(keys: seq<ApiKey>, k: int)
    requires 0 <= k < |keys|
    requires forall j :: 0 <= j < |keys| && j != k ==> keys[j].id != keys[k].id
    ensures HandleDelete(keys, keys[k].id) == keys[..k] + keys[k + 1..]
  {
    SpliceAround(keys, k, keys[..k], keys[k + 1..]);
    HandleDeleteSplice(keys[..k], keys[k], keys[k + 1..]);
  }

  /** The entries before and after position `k`, when no other entry has
      its id. */
  lemma SpliceAround(keys: seq<ApiKey>, k: int, p: seq<ApiKey>, q: seq<ApiKey>)
    requires 0 <= k < |keys| && p == keys[..k] && q == keys[k + 1..]
    requires forall j :: 0 <= j < |keys| && j != k ==> keys[j].id != keys[k].id
    ensures keys == p + [keys[k]] + q
    ensures forall j :: 0 <= j < |p| ==> p[j].id != keys[k].id
    ensures forall j :: 0 <= j < |q| ==> q[j].id != keys[k].id
  {
    assert keys[k..] == [keys[k]] + q;
    assert keys == p + keys[k..];
    assert forall j :: 0 <= j < |q| ==> q[j] == keys[k + 1 + j];
  }

  lemma {:induction false} HandleDeleteSplice(p: seq<ApiKey>, x: ApiKey, q: seq<ApiKey>)
    requires forall j :: 0 <= j < |p| ==> p[j].id != x.id
    requires forall j :: 0 <= j < |q| ==> q[j].id != x.id
    ensures HandleDelete(p + [x] + q, x.id) == p + q
    decreases |p|
  {
    if |p| == 0 {
      assert p + [x] + q == [x] + q;
      HandleDeleteCons(x, q, x.id);
      HandleDeleteAbsent(q, x.id);
    } else {
      assert p + [x] + q == [p[0]] + (p[1..] + [x] + q);
      HandleDeleteCons(p[0], p[1..] + [x] + q, x.id);
      HandleDeleteSplice(p[1..], x, q);
      assert p + q == [p[0]] + (p[1..] + q);
    }
  }

  /** `HandleDelete` of a list with a given head. */
  lemma HandleDeleteCons(h: ApiKey, t: seq<ApiKey>, id: string)
    ensures HandleDelete([h] + t, id) == if h.id == id then HandleDelete(t, id) else [h] + HandleDelete(t, id)
  {
    assert ([h] + t)[0] == h && ([h] + t)[1..] == t;
  }

  /** Unique names give unique listed ids. */
  lemma ListedIdsUnique(st: Store, user: Option<string>, decrypt: string -> Option<string>, k: int)
    requires DistinctNames(st) && SignedIn(user)
    requires 0 <= k < |GetApiKeys(st, user, decrypt, false)|
    ensures var before := GetApiKeys(st, user, decrypt, false);
      forall j :: 0 <= j < |before| && j != k ==> before[j].id != before[k].id
  {
    var before := GetApiKeys(st, user, decrypt, false);
    var nss := UserDataOf(st, user.value).namespaces;
    assert UniqueNames(nss);
    forall j | 0 <= j < |before| && j != k
      ensures before[j].id != before[k].id
    {
      assert before[j].id[4..] == nss[j].name;
      assert before[k].id[4..] == nss[k].name;
    }
  }

  /** An entry whose plain key was not the one removed is listed as
      before. */
  lemma EntryUnaffected(st: Store, st': Store, u: string, x: string, n: Namespace, decrypt: string -> Option<string>)
    requires st'.plainKeys == st.plainKeys - {(u, x)} && n.name != x
    ensures Entry(st', u, n, decrypt) == Entry(st, u, n, decrypt)
  {
    assert RecoveredKey(st', u, n.name, decrypt) == RecoveredKey(st, u, n.name, decrypt);
  }

  /** Listing a record with its `k`-th namespace and that namespace's
      plain key removed gives the old listing without its `k`-th entry. */
  lemma ListingOfSpliced(st: Store, st': Store, user: Option<string>, decrypt: string -> Option<string>, k: int)
    requires SignedIn(user)
    requires var nss := UserDataOf(st, user.value).namespaces;
      && UniqueNames(nss) && 0 <= k < |nss|
      && UserDataOf(st', user.value).namespaces == nss[..k] + nss[k + 1..]
      && st'.plainKeys == st.plainKeys - {(user.value, nss[k].name)}
    ensures var before := GetApiKeys(st, user, decrypt, false);
      GetApiKeys(st', user, decrypt, false) == before[..k] + before[k + 1..]
  {
    var u := user.value;
    var nss := UserDataOf(st, u).namespaces;
    var x := nss[k].name;
    var rest := nss[..k] + nss[k + 1..];
    var before := GetApiKeys(st, user, decrypt, false);
    var after := GetApiKeys(st', user, decrypt, false);
    var spliced := before[..k] + before[k + 1..];
    forall j | 0 <= j < |rest|
      ensures after[j] == spliced[j]
    {
      var jj := if j < k then j else j + 1;
      assert rest[j] == nss[jj] && nss[jj].name != x;
      EntryUnaffected(st, st', u, x, nss[jj], decrypt);
      assert spliced[j] == before[jj];
    }
  }

  /** With unique names, the server's listing after deleting the `k`-th
      listed entry is the old listing without it. */
  lemma ServerListingAfterDelete(st: Store, user: Option<string>, decrypt: string -> Option<string>, k: int)
    requires DistinctNames(st) && SignedIn(user)
    requires 0 <= k < |GetApiKeys(st, user, decrypt, false)|
    ensures var before := GetApiKeys(st, user, decrypt, false);
      var r := DeleteApiKey(st, user, before[k].id, DeleteRuns);
      r.result.success && GetApiKeys(r.store, user, decrypt, false) == before[..k] + before[k + 1..]
  {
    var u := user.value;
    var nss := UserDataOf(st, u).namespaces;
    var id := KeyIdOf(nss[k].name);
    assert GetApiKeys(st, user, decrypt, false)[k].id == id;
    DeleteListedEntry(st, user, decrypt, k);
    assert UniqueNames(nss);
    assert IndexOfName(nss, nss[k].name) == k;
    ReplaceFirstAtFront("key_", nss[k].name);
    ListingOfSpliced(st, DeleteApiKey(st, user, id, DeleteRuns).store, user, decrypt, k);
  }

  /** With unique names, dropping the deleted entry locally gives the list
      the server would now return. */
  lemma LocalDeleteMatchesServer(st: Store, user: Option<string>, decrypt: string -> Option<string>, k: int)
    requires DistinctNames(st) && SignedIn(user)
    requires 0 <= k < |GetApiKeys(st, user, decrypt, false)|
    ensures var before := GetApiKeys(st, user, decrypt, false);
      var r := DeleteApiKey(st, user, before[k].id, DeleteRuns);
      r.result.success && GetApiKeys(r.store, user, decrypt, false) == HandleDelete(before, before[k].id)
  {
    ListedIdsUnique(st, user, decrypt, k);
    HandleDeleteOne(GetApiKeys(st, user, decrypt, false), k);
    ServerListingAfterDelete(st, user, decrypt, k);
  }

  /** With unique names, updating the regenerated entry locally gives the
      list the server would now return, except for the stored hash, which
      the local entry keeps. */
  lemma LocalRegenerateMatchesServer(st: Store, user: Option<string>, namespace: string, keyId: string,
                                     enc: Base64, encrypt: string -> string, decrypt: string -> Option<string>)
    requires DistinctNames(st)
    requires RegenerateApiKey(st, user, namespace, keyId, enc, encrypt, RegenerateRuns).result.success
    requires encrypt(PlainKey(keyId)) != "" && decrypt(encrypt(PlainKey(keyId))) == Some(PlainKey(keyId))
    ensures var r := RegenerateApiKey(st, user, namespace, keyId, enc, encrypt, RegenerateRuns);
      var local := HandleRegenerate(GetApiKeys(st, user, decrypt, false), namespace, r.result.apiKey.value);
      var after := GetApiKeys(r.store, user, decrypt, false);
      |after| == |local| && forall j :: 0 <= j < |after| ==> after[j] == local[j].(hashedKey := after[j].hashedKey)
  {
    var r := RegenerateApiKey(st, user, namespace, keyId, enc, encrypt, RegenerateRuns);
    var u, plain := user.value, PlainKey(keyId);
    var c := encrypt(plain);
    var nss := UserDataOf(st, u).namespaces;
    var nss2 := UserDataOf(r.store, u).namespaces;
    var i := IndexOfName(nss, namespace);
    var before := GetApiKeys(st, user, decrypt, false);
    var local := HandleRegenerate(before, namespace, plain);
    var after := GetApiKeys(r.store, user, decrypt, false);
    assert UniqueNames(nss);
    assert plain != "" by { assert StartsWith(plain, "key_"); }
    forall j | 0 <= j < |after|
      ensures after[j] == local[j].(hashedKey := after[j].hashedKey)
    {
      if j != i {
        assert nss[j].name != namespace;
        assert nss2[j] == nss[j];
        EntryOther(st, r.store, u, nss[j], namespace, c, decrypt);
      } else {
        EntryRegenerated(st, r.store, u, nss[i], nss2[i].apiKey, plain, c, decrypt);
      }
    }
  }
}

=== FILE: demo_chat.dfy ===
/** The demo chat endpoint (src/app/api/demo/chat/route.ts): strip the
    conversation, the end-user id and the API key down to ASCII, ask the
    recall API for memories, append them to a trailing user message, put a
    system message first and hand the list to the chat model. The recall
    call goes to the route modelled in `RecallRoute`; a failure to reach it
    is a parameter, and so is a failure of the model's stream. */
module DemoChat {
  import opened Wrappers
  import opened Text
  import opened Encoding
  import opened RecallRoute

  const MissingFieldsError := "Missing required fields"
  const ChatInternalError := "Internal Server Error"
  const ContextOpening := OpeningStart + OpeningEnd
  const OpeningStart := "\n\n[Context from "
  const OpeningEnd := "your previous conversations: "
  const ContextClosing := "]"
  const SystemPrompt := "You are a helpful AI assistant. If the user's message includes context from previous conversations, use it to provide more personalized responses."

  // ---------------------------------------------------------------------
  // Sanitising

  /** `sanitizeText`: remove every character outside U+0000..U+007F. */
  function SanitizeText(s: string): (r: string)
    ensures IsAscii(r) && |r| <= |s|
    ensures forall c :: c in r <==> c in s && c as int < 0x80
    decreases |s|
  {
    if |s| == 0 then ""
    else
      var rest := SanitizeText(s[1..]);
      assert forall c :: c in s <==> c == s[0] || c in s[1..] by {
        assert s == [s[0]] + s[1..];
      }
      if s[0] as int < 0x80 then [s[0]] + rest else rest
  }

  /** `a` can be read off `b` left to right, skipping characters of `b`. */
  predicate IsSubsequence(a: string, b: string)
    decreases |b|
  {
    |a| == 0 || (|b| > 0 && if a[0] == b[0] then IsSubsequence(a[1..], b[1..]) else IsSubsequence(a, b[1..]))
  }

  /** Sanitising only deletes characters: what is left keeps its order. */
  lemma {:induction false} SanitizeIsSubsequence(s: string)
    ensures IsSubsequence(SanitizeText(s), s)
    decreases |s|
  {
    if |s| > 0 {
      SanitizeIsSubsequence(s[1..]);
      if s[0] as int >= 0x80 {
        var r := SanitizeText(s);
        if |r| > 0 {
          assert r[0] in r;
          assert r[0] != s[0];
        }
      }
    }
  }

  /** Sanitising distributes over concatenation. */
  lemma {:induction false} SanitizeConcat(a: string, b: string)
    ensures SanitizeText(a + b) == SanitizeText(a) + SanitizeText(b)
    decreases |a|
  {
    if |a| == 0 {
      assert a + b == b;
    } else {
      assert (a + b)[0] == a[0];
      assert (a + b)[1..] == a[1..] + b;
      SanitizeConcat(a[1..], b);
    }
  }

  /** ASCII text passes through unchanged. */
  lemma {:induction false} SanitizeAscii(s: string)
    requires IsAscii(s)
    ensures SanitizeText(s) == s
    decreases |s|
  {
    if |s| > 0 {
      assert IsAscii(s[1..]) by {
        forall i | 0 <= i < |s[1..]|
          ensures s[1..][i] as int < 0x80
        {
          assert s[1..][i] == s[i + 1];
        }
      }
      SanitizeAscii(s[1..]);
      assert s == [s[0]] + s[1..];
    }
  }

  /** Sanitising twice is sanitising once. */
  lemma SanitizeIdempotent(s: string)
    ensures SanitizeText(SanitizeText(s)) == SanitizeText(s)
  {
    SanitizeAscii(SanitizeText(s));
  }

  /** A sanitised key can always be hashed by `btoa`, so the demo never
      reaches the authentication's encoding failure. */
  lemma SanitizedKeyEncodes(enc: Base64, key: string)
    ensures Btoa(enc, SanitizeText(key)).Some?
  {
    var k := SanitizeText(key);
    assert forall i :: 0 <= i < |k| ==> k[i] as int < 0x100 by {
      assert IsAscii(k);
    }
  }

  /** A JSON field as the demo reads it: falsy (missing, `null`, `false`,
      `0`), a string, or a truthy value of another type. */
  datatype Field = Falsy | Str(value: string) | Truthy

  /** The field passes the route's `!field` test. */
  predicate Present(f: Field) {
    f.Truthy? || (f.Str? && f.value != "")
  }

  /** One message as the demo client sends it: a role, a content and any
      other fields. */
  datatype DemoMessage = DemoMessage(role: Option<string>, content: Field, extra: map<string, string>)

  /** `sanitizeText(msg.content || "")`: a falsy content becomes the empty
      string and a string is sanitised; any other truthy content makes
      `sanitizeText` throw (`None`). */
  function SanitizeContent(content: Field): (r: Option<string>)
    ensures r.None? <==> content.Truthy?
    ensures content.Falsy? ==> r == Some("")
    ensures content.Str? ==> r == Some(SanitizeText(content.value))
  {
    match content
    case Falsy => Some("")
    case Str(c) => Some(SanitizeText(c))
    case Truthy => None
  }

  /** Every content of the conversation can be sanitised. */
  predicate Sanitizable(ms: seq<DemoMessage>) {
    forall i :: 0 <= i < |ms| ==> !ms[i].content.Truthy?
  }

  function SanitizeMessage(m: DemoMessage): DemoMessage
    requires !m.content.Truthy?
  {
    m.(content := Str(SanitizeContent(m.content).value))
  }

  /** `sanitizeMessages`: it throws (`None`) when some content is truthy but
      not a string; otherwise the same messages in the same order, every
      field but the content kept, the content sanitised and a string. */
  function SanitizeMessages(ms: seq<DemoMessage>): (r: Option<seq<DemoMessage>>)
    ensures r.Some? <==> Sanitizable(ms)
    ensures r.Some? ==> |r.value| == |ms|
    ensures r.Some? ==> forall i :: 0 <= i < |ms| ==>
      && r.value[i].role == ms[i].role && r.value[i].extra == ms[i].extra
      && r.value[i].content.Str? && Some(r.value[i].content.value) == SanitizeContent(ms[i].content)
  {
    if Sanitizable(ms) then Some(seq(|ms|, i requires 0 <= i < |ms| => SanitizeMessage(ms[i])))
    else None
  }

  /** Every content of a sanitised conversation is ASCII. */
  ghost predicate AsciiContents(ms: seq<DemoMessage>) {
    forall i :: 0 <= i < |ms| ==> ms[i].content.Str? && IsAscii(ms[i].content.value)
  }

  // ---------------------------------------------------------------------
  // Memories

  /** The memory count the chat route logs: the number of pieces the
      block splits into at the separator, less one for the header. */
  function MemoryCount(memories: string): (n: int)
    ensures n == Occurrences(memories, Separator)
  {
    SplitCountsOccurrences(memories, Separator);
    |Split(memories, Separator)| - 1
  }

  /** The count the demo logs is the number of memories the recall API
      formatted, as long as none holds a bullet of its own. */
  lemma CountFormatted(ms: seq<string>)
    requires forall i :: 0 <= i < |ms| ==> !Contains(ms[i], Separator)
    ensures MemoryCount(FormatMemoriesForPrompt(ms)) == |ms|
  {
    ParseFormattedRoundTrip(ms);
    if |ms| == 0 {
      assert Split("", Separator) == [""];
    }
  }

  /** The user's content followed by the bracketed context. */
  function WithContext(content: string, memories: string): string {
    content + ContextOpening + SanitizeText(memories) + ContextClosing
  }

  /** Step 2: the last message receives the memories when it is the user's
      and the memories are not blank; nothing else changes. */
  function AppendMemories(ms: seq<DemoMessage>, memories: string): (r: seq<DemoMessage>)
    ensures |r| == |ms|
    ensures forall i :: 0 <= i < |ms| - 1 ==> r[i] == ms[i]
    ensures |ms| > 0 ==>
      var last := ms[|ms| - 1];
      if last.role == Some("user") && Trim(memories) != "" then
        r[|ms| - 1] == last.(content := Str(WithContext(if last.content.Str? then last.content.value else "", memories)))
      else r[|ms| - 1] == last
  {
    if |ms| == 0 then ms
    else
      var last := ms[|ms| - 1];
      if last.role == Some("user") && Trim(memories) != "" then
        var content := if last.content.Str? then last.content.value else "";
        ms[..|ms| - 1] + [last.(content := Str(WithContext(content, memories)))]
      else ms
  }

  const SystemMessage := DemoMessage(Some("system"), Str(SystemPrompt), map[])

  /** The `messages` field: falsy, an array, or a truthy value that is not
      an array (on which `map` throws). */
  datatype MessagesField = NoMessages | MessageList(list: seq<DemoMessage>) | NotAList

  /** The demo request once decoded. */
  datatype ChatRequest = ChatRequest(messages: MessagesField, userId: Field, apiKey: Field)

  datatype ChatOutcome =
    | Streamed(sent: seq<DemoMessage>)
    | Rejected(status: int, text: string)

  /** Every field passes the route's presence test. */
  predicate FieldsPresent(q: ChatRequest) {
    !q.messages.NoMessages? && Present(q.userId) && Present(q.apiKey)
  }

  /** Sanitising the request does not throw: the messages are an array
      whose contents are falsy or strings, and the user id and key are
      strings. */
  predicate Readable(q: ChatRequest) {
    q.messages.MessageList? && Sanitizable(q.messages.list) && q.userId.Str? && q.apiKey.Str?
  }

  /** The body the demo posts to the recall API. */
  function RecallBody(userId: string, ms: seq<DemoMessage>): RawBody {
    RawBody(Some(userId), Some(seq(|ms|, i requires 0 <= i < |ms| =>
      RawMessage(ms[i].role, if ms[i].content.Str? then Some(ms[i].content.value) else None))))
  }

  // ---------------------------------------------------------------------
  // The request header

  /** HTTP white space, which `fetch` strips from both ends of a header
      value. */
  predicate IsHttpSpace(c: char) {
    c == ' ' || c == '\t' || c == '\r' || c == '\n'
  }

  /** A character `fetch` refuses in a header value: NUL, CR, LF, or one
      beyond a byte. */
  predicate ForbiddenInHeader(c: char) {
    c == '\0' || c == '\r' || c == '\n' || c as int > 0xFF
  }

  predicate IsHttpBlank(s: string) {
    forall k :: 0 <= k < |s| ==> IsHttpSpace(s[k])
  }

  function StripHttpStart(s: string): (r: string)
    ensures |r| <= |s| && r == s[|s| - |r|..]
    ensures |r| > 0 ==> !IsHttpSpace(r[0])
    ensures IsHttpBlank(s[..|s| - |r|])
    decreases |s|
  {
    if |s| > 0 && IsHttpSpace(s[0]) then StripHttpStart(s[1..]) else s
  }

  function StripHttpEnd(s: string): (r: string)
    ensures |r| <= |s| && r == s[..|r|]
    ensures |r| > 0 ==> !IsHttpSpace(r[|r| - 1])
    ensures IsHttpBlank(s[|r|..])
    decreases |s|
  {
    if |s| > 0 && IsHttpSpace(s[|s| - 1]) then StripHttpEnd(s[..|s| - 1]) else s
  }

  /** `r` is `v` with HTTP white space cut off both ends. */
  ghost predicate HttpTrimsTo(v: string, r: string) {
    exists i, j :: 0 <= i <= j <= |v| && r == v[i..j] && IsHttpBlank(v[..i]) && IsHttpBlank(v[j..])
  }

  /** A slice of `v` between two HTTP-blank ends is an HTTP trim of it. */
  lemma HttpTrimBetween(v: string, i: int, j: int)
    requires 0 <= i <= j <= |v| && IsHttpBlank(v[..i]) && IsHttpBlank(v[j..])
    ensures HttpTrimsTo(v, v[i..j])
    ensures forall c :: c in v[i..j] ==> c in v
  {
  }

  /** The two strips together cut HTTP-blank ends off `v`. */
  lemma StripsTrim(v: string)
    ensures HttpTrimsTo(v, StripHttpEnd(StripHttpStart(v)))
    ensures forall c :: c in StripHttpEnd(StripHttpStart(v)) ==> c in v
  {
    var a := StripHttpStart(v);
    var n := StripHttpEnd(a);
    var i := |v| - |a|;
    var j := i + |n|;
    assert a == v[i..];
    assert n == v[i..j];
    assert v[j..] == a[|n|..];
    HttpTrimBetween(v, i, j);
  }

  /** `v` with the HTTP white space at both ends removed. */
  function NormalizeHeader(v: string): (n: string)
    ensures HttpTrimsTo(v, n)
    ensures |n| > 0 ==> !IsHttpSpace(n[0]) && !IsHttpSpace(n[|n| - 1])
    ensures forall c :: c in n ==> c in v
  {
    StripsTrim(v);
    StripHttpEnd(StripHttpStart(v))
  }

  /** `fetch` accepts every character of `s` in a header value. */
  predicate HeaderSafe(s: string) {
    forall c :: c in s ==> !ForbiddenInHeader(c)
  }

  /** The value `fetch` sends for header value `v`: `v` without the HTTP
      white space at its ends, or `None` when `fetch` throws on it. */
  function HeaderValue(v: string): (r: Option<string>)
    ensures r.Some? ==> HttpTrimsTo(v, r.value) && HeaderSafe(r.value)
    ensures r.Some? ==> |r.value| > 0 ==> !IsHttpSpace(r.value[0]) && !IsHttpSpace(r.value[|r.value| - 1])
    ensures HeaderSafe(v) ==> r.Some?
  {
    var n := NormalizeHeader(v);
    if HeaderSafe(n) then Some(n) else None
  }

  /** `fetch` throws only on a value holding a refused character. */
  lemma HeaderRefusesOnlyForbidden(v: string)
    ensures HeaderValue(v).None? ==> exists k :: 0 <= k < |v| && ForbiddenInHeader(v[k])
  {
    if HeaderValue(v).None? {
      var c :| c in v && ForbiddenInHeader(c);
      var k :| 0 <= k < |v| && v[k] == c;
    }
  }

  /** A key ending in a visible character and holding no refused one is
      sent as it is. */
  lemma PlainKeyHeader(key: string)
    requires |key| > 0 && !IsHttpSpace(key[|key| - 1])
    requires HeaderSafe(key)
    ensures HeaderValue(BearerPrefix + key) == Some(BearerPrefix + key)
  {
    var v := BearerPrefix + key;
    assert StripHttpStart(v) == v by {
      assert v[0] == 'B';
    }
    assert StripHttpEnd(v) == v by {
      assert v[|v| - 1] == key[|key| - 1];
    }
    PrefixAllowed();
    assert HeaderSafe(v) by {
      assert forall c :: c in v ==> c in BearerPrefix || c in key;
    }
  }

  /** `fetch` accepts every character of the `Bearer ` prefix. */
  lemma PrefixAllowed()
    ensures HeaderSafe(BearerPrefix)
  {
    forall c | c in BearerPrefix
      ensures !ForbiddenInHeader(c)
    {
      var k :| 0 <= k < |BearerPrefix| && BearerPrefix[k] == c;
    }
  }

  /** A line break inside the key, with a visible character after it,
      makes `fetch` throw. */
  lemma LineBreakHeaderFails(key: string, i: int, j: int)
    requires 0 <= i < j < |key| && key[i] == '\n' && !IsHttpSpace(key[j])
    ensures HeaderValue(BearerPrefix + key).None?
  {
    var v := BearerPrefix + key;
    var a := StripHttpStart(v);
    assert !IsHttpSpace(v[0]);
    assert a == v;
    var n := StripHttpEnd(a);
    assert v[7 + j] == key[j];
    assert |n| > 7 + j;
    assert n[7 + i] == key[i];
    assert '\n' in NormalizeHeader(v);
  }

  // ---------------------------------------------------------------------
  // The chat

  /** The memories the demo gets back: the `memories` of a successful
      recall, and the empty string for any failure, including one to reach
      the API at all (`fetchFault`) and a header value `fetch` refuses. */
  function FetchMemories(key: string, userId: string, ms: seq<DemoMessage>,
                         a: Auth, sendFault: bool, m: Memories, fetchFault: bool): (r: string)
    requires Sound(m)
    ensures fetchFault || HeaderValue(BearerPrefix + key).None? ==> r == ""
    ensures !fetchFault && HeaderValue(BearerPrefix + key).Some? ==>
      var resp := Post(HeaderValue(BearerPrefix + key), Some(RecallBody(userId, ms)), a, sendFault, m).response;
      r == (if resp.Recalled? then resp.memories else "")
  {
    var header := HeaderValue(BearerPrefix + key);
    if fetchFault || header.None? then ""
    else
      match Post(header, Some(RecallBody(userId, ms)), a, sendFault, m).response
      case Recalled(memories, _, _) => memories
      case _ => ""
  }

  /** For a key `fetch` sends unchanged, the recall route reads back the
      key the demo holds. */
  lemma PlainKeyReachesRoute(key: string, userId: string, ms: seq<DemoMessage>,
                             a: Auth, sendFault: bool, m: Memories)
    requires Sound(m)
    requires |key| > 0 && !IsHttpSpace(key[|key| - 1])
    requires HeaderSafe(key)
    ensures var resp := Post(Some(BearerPrefix + key), Some(RecallBody(userId, ms)), a, sendFault, m).response;
      FetchMemories(key, userId, ms, a, sendFault, m, false) == (if resp.Recalled? then resp.memories else "")
  {
    PlainKeyHeader(key);
  }

  /** `POST`. `req` is `None` when the body is not valid JSON, which ends in
      the catch-all 500, as does a sanitising step that throws and a failure
      of the model's stream. */
  function Chat(req: Option<ChatRequest>, a: Auth, sendFault: bool, m: Memories, fetchFault: bool, streamFault: bool)
    : (r: ChatOutcome)
    requires Sound(m)
    ensures req.None? ==> r == Rejected(500, ChatInternalError)
    ensures req.Some? && !FieldsPresent(req.value) ==> r == Rejected(400, MissingFieldsError)
    ensures req.Some? && FieldsPresent(req.value) && (!Readable(req.value) || streamFault) ==>
      r == Rejected(500, ChatInternalError)
    ensures r.Streamed? <==> req.Some? && FieldsPresent(req.value) && Readable(req.value) && !streamFault
    ensures r.Streamed? ==>
      var ms := SanitizeMessages(req.value.messages.list).value;
      var memories := FetchMemories(SanitizeText(req.value.apiKey.value), SanitizeText(req.value.userId.value),
                                    ms, a, sendFault, m, fetchFault);
      r.sent == [SystemMessage] + AppendMemories(ms, memories)
  {
    match req
    case None => Rejected(500, ChatInternalError)
    case Some(q) =>
      if !FieldsPresent(q) then Rejected(400, MissingFieldsError)
      else if !Readable(q) then Rejected(500, ChatInternalError)
      else
        var ms := SanitizeMessages(q.messages.list).value;
        var memories := FetchMemories(SanitizeText(q.apiKey.value), SanitizeText(q.userId.value), ms, a, sendFault, m, fetchFault);
        if streamFault then Rejected(500, ChatInternalError)
        else Streamed([SystemMessage] + AppendMemories(ms, memories))
  }

  /** A string is ASCII when each character it holds is. */
  lemma AsciiByMembers(s: string)
    requires forall c :: c in s ==> c as int < 0x80
    ensures IsAscii(s)
  {
    assert forall i :: 0 <= i < |s| ==> s[i] in s;
  }

  /** The literal parts of the context are ASCII. */
  lemma LiteralsAscii()
    ensures IsAscii(ContextOpening) && IsAscii(ContextClosing)
  {
    AsciiByMembers(OpeningStart);
    AsciiByMembers(OpeningEnd);
    AsciiByMembers(ContextClosing);
    AsciiConcat(OpeningStart, OpeningEnd);
  }

  lemma AsciiConcat(a: string, b: string)
    requires IsAscii(a) && IsAscii(b)
    ensures IsAscii(a + b)
  {
    forall i | 0 <= i < |a + b|
      ensures (a + b)[i] as int < 0x80
    {
      if i >= |a| { assert (a + b)[i] == b[i - |a|]; }
    }
  }

  /** Appending the context keeps every content ASCII. */
  lemma AppendKeepsAscii(ms: seq<DemoMessage>, memories: string)
    requires AsciiContents(ms)
    ensures AsciiContents(AppendMemories(ms, memories))
  {
    if |ms| > 0 {
      LiteralsAscii();
      var c := ms[|ms| - 1].content.value;
      AsciiConcat(c, ContextOpening);
      AsciiConcat(c + ContextOpening, SanitizeText(memories));
      AsciiConcat(c + ContextOpening + SanitizeText(memories), ContextClosing);
    }
  }

  /** Everything of the client's that the model is sent is ASCII text:
      the sanitised contents and the sanitised memories, behind the fixed
      system message. */
  lemma SentContentsAscii(req: Option<ChatRequest>, a: Auth, sendFault: bool, m: Memories, fetchFault: bool, streamFault: bool)
    requires Sound(m)
    ensures var r := Chat(req, a, sendFault, m, fetchFault, streamFault);
      r.Streamed? ==> |r.sent| >= 1 && r.sent[0] == SystemMessage && AsciiContents(r.sent[1..])
  {
    var r := Chat(req, a, sendFault, m, fetchFault, streamFault);
    if r.Streamed? {
      var ms := SanitizeMessages(req.value.messages.list).value;
      var memories := FetchMemories(SanitizeText(req.value.apiKey.value), SanitizeText(req.value.userId.value),
                                    ms, a, sendFault, m, fetchFault);
      assert AsciiContents(ms);
      AppendKeepsAscii(ms, memories);
      assert r.sent[1..] == AppendMemories(ms, memories);
    }
  }

  /** The context is added exactly when a trailing user message meets
      non-blank memories, and it is then the only change besides the
      system message in front. */
  lemma ContextAppendedIff(req: Option<ChatRequest>, a: Auth, sendFault: bool, m: Memories, fetchFault: bool, streamFault: bool)
    requires Sound(m)
    ensures var r := Chat(req, a, sendFault, m, fetchFault, streamFault);
      r.Streamed? ==>
        var ms := SanitizeMessages(req.value.messages.list).value;
        var memories := FetchMemories(SanitizeText(req.value.apiKey.value), SanitizeText(req.value.userId.value),
                                      ms, a, sendFault, m, fetchFault);
        && |r.sent| == |ms| + 1 && r.sent[0] == SystemMessage
        && (r.sent[1..] == ms <==>
              |ms| == 0 || ms[|ms| - 1].role != Some("user") || Trim(memories) == "")
  {
    var r := Chat(req, a, sendFault, m, fetchFault, streamFault);
    if r.Streamed? {
      var ms := SanitizeMessages(req.value.messages.list).value;
      var memories := FetchMemories(SanitizeText(req.value.apiKey.value), SanitizeText(req.value.userId.value),
                                    ms, a, sendFault, m, fetchFault);
      assert r.sent[1..] == AppendMemories(ms, memories);
      if |ms| > 0 && ms[|ms| - 1].role == Some("user") && Trim(memories) != "" {
        var last := ms[|ms| - 1];
        var c := last.content.value;
        assert |WithContext(c, memories)| > |c|;
        assert r.sent[1..][|ms| - 1] != ms[|ms| - 1];
      }
    }
  }
}

=== FILE: encoding.dfy ===
/** The two ways the source turns an API key into its stored "hash": the
    account actions base64-encode the key's UTF-8 bytes
    (`Buffer.from(key).toString("base64")`), while authentication calls
    `btoa`, which base64-encodes one byte per character and throws on a
    character above U+00FF. Base64 itself (section 4 of RFC 4648) is an
    injective function parameter. */
module Encoding {
  import opened Wrappers

  type Byte = x: int | 0 <= x < 256

  predicate IsAscii(s: string) {
    forall i :: 0 <= i < |s| ==> s[i] as int < 0x80
  }

  /** The UTF-8 encoding of one Unicode scalar value. */
  function Utf8Char(c: char): (bs: seq<Byte>)
    ensures 1 <= |bs| <= 4
    ensures c as int < 0x80 <==> bs == [c as int]
  {
    var n := c as int;
    if n < 0x80 then [n]
    else if n < 0x800 then [0xC0 + n / 64, 0x80 + n % 64]
    else if n < 0x10000 then [0xE0 + n / 4096, 0x80 + (n / 64) % 64, 0x80 + n % 64]
    else [0xF0 + n / 262144, 0x80 + (n / 4096) % 64, 0x80 + (n / 64) % 64, 0x80 + n % 64]
  }

  function Utf8(s: string): seq<Byte>
    decreases |s|
  {
    if |s| == 0 then [] else Utf8Char(s[0]) + Utf8(s[1..])
  }

  /** One byte per character, or `None` when a character does not fit in
      a byte (where `btoa` throws). */
  function Latin1(s: string): (r: Option<seq<Byte>>)
    ensures r.Some? <==> forall i :: 0 <= i < |s| ==> s[i] as int < 0x100
    ensures r.Some? ==> |r.value| == |s| && forall i :: 0 <= i < |s| ==> r.value[i] == s[i] as int
    decreases |s|
  {
    if |s| == 0 then Some([])
    else if s[0] as int >= 0x100 then None
    else
      match Latin1(s[1..])
      case None => None
      case Some(rest) => Some([s[0] as int] + rest)
  }

  /** The base64 encoder. */
  type Base64 = seq<Byte> -> string

  ghost predicate Injective(enc: Base64) {
    forall a, b :: enc(a) == enc(b) ==> a == b
  }

  /** The hash the account actions store: `Buffer.from(s).toString("base64")`. */
  function BufferHash(enc: Base64, s: string): string {
    enc(Utf8(s))
  }

  /** The hash authentication looks up: `btoa(s)`, `None` where it throws. */
  function Btoa(enc: Base64, s: string): (r: Option<string>)
    ensures r.Some? <==> forall i :: 0 <= i < |s| ==> s[i] as int < 0x100
  {
    match Latin1(s)
    case None => None
    case Some(bs) => Some(enc(bs))
  }

  /** On ASCII text both encodings produce the same bytes. */
  lemma {:induction false} AsciiBytesAgree(s: string)
    requires IsAscii(s)
    ensures Latin1(s) == Some(Utf8(s))
    decreases |s|
  {
    if |s| > 0 {
      assert IsAscii(s[1..]) by {
        forall i | 0 <= i < |s[1..]|
          ensures s[1..][i] as int < 0x80
        {
          assert s[1..][i] == s[i + 1];
        }
      }
      AsciiBytesAgree(s[1..]);
    }
  }

  /** So an ASCII key authenticates against the hash the actions stored. */
  lemma AsciiHashesAgree(enc: Base64, s: string)
    requires IsAscii(s)
    ensures Btoa(enc, s) == Some(BufferHash(enc, s))
  {
    AsciiBytesAgree(s);
  }

  /** Distinct ASCII keys have distinct stored hashes. */
  lemma AsciiHashInjective(enc: Base64, a: string, b: string)
    requires Injective(enc) && IsAscii(a) && IsAscii(b)
    requires BufferHash(enc, a) == BufferHash(enc, b)
    ensures a == b
  {
    AsciiBytesAgree(a);
    AsciiBytesAgree(b);
    var x, y := Latin1(a).value, Latin1(b).value;
    assert x == y;
    assert |a| == |b|;
    forall i | 0 <= i < |a|
      ensures a[i] == b[i]
    {
      assert x[i] == a[i] as int && y[i] == b[i] as int;
    }
  }
}

=== FILE: fact_extraction.dfy ===
/** The transcript and prompt handed to the fact-extraction model
    (src/lib/recall/fact-extraction.ts). The fact-retrieval prompt text and
    the model call are parameters. */
module FactExtraction {
  import opened Wrappers
  import opened Text
  import opened RecallTypes

  /** One transcript line: `role: content`. */
  function RenderMessage(m: Message): (line: string)
    ensures StartsWith(line, RoleName(m.role) + ": ")
    ensures line[|RoleName(m.role)| + 2..] == m.content
  {
    RoleName(m.role) + ": " + m.content
  }

  function Lines(ms: seq<Message>): (lines: seq<string>)
    ensures |lines| == |ms|
    ensures forall i :: 0 <= i < |ms| ==> lines[i] == RenderMessage(ms[i])
  {
    seq(|ms|, i requires 0 <= i < |ms| => RenderMessage(ms[i]))
  }

  /** The conversation string: the lines joined with newlines, in message
      order. */
  function Conversation(ms: seq<Message>): string {
    Join(Lines(ms), "\n")
  }

  /** The full prompt: the fact-retrieval prompt, a blank line, and the
      conversation. */
  function FullPrompt(factPrompt: string, ms: seq<Message>): (p: string)
    ensures StartsWith(p, factPrompt + "\n\n")
    ensures p[|factPrompt| + 2..] == Conversation(ms)
  {
    factPrompt + "\n\n" + Conversation(ms)
  }

  /** The structured completion the model returns for a prompt: the list of
      facts, or an error when the call or its validation fails. */
  type FactModel = string -> Result<seq<string>, string>

  /** `extractFactsFromConversation`: the model's validated answer to the
      full prompt, returned as it is. */
  function ExtractFacts(factPrompt: string, ms: seq<Message>, model: FactModel): (r: Result<seq<string>, string>)
    ensures r == model(factPrompt + "\n\n" + Join(Lines(ms), "\n"))
  {
    model(FullPrompt(factPrompt, ms))
  }

  lemma NoNewline(m: Message)
    requires '\n' !in m.content
    ensures !Contains(RenderMessage(m), "\n")
  {
    var line := RenderMessage(m);
    ContainsChar(line, '\n');
    assert '\n' !in RoleName(m.role);
    assert line == RoleName(m.role) + ": " + m.content;
  }

  /** When no message content holds a newline, the conversation string
      splits back into its lines, and each line gives back its content. */
  lemma ConversationRoundTrip(ms: seq<Message>)
    requires |ms| > 0
    requires forall i :: 0 <= i < |ms| ==> '\n' !in ms[i].content
    ensures Split(Conversation(ms), "\n") == Lines(ms)
    ensures forall i :: 0 <= i < |ms| ==>
      Split(Conversation(ms), "\n")[i][|RoleName(ms[i].role)| + 2..] == ms[i].content
  {
    var lines := Lines(ms);
    forall i | 0 <= i < |lines|
      ensures !Contains(lines[i], "\n")
    {
      NoNewline(ms[i]);
    }
    SplitJoin(lines, "\n");
  }
}

=== FILE: filtering.dfy ===
/** The "walk a list, keep what can be read, in order" pattern the source
    repeats for every listing of stored memories: a loop over an enumeration
    that pushes a projection of each usable element and skips the rest. */
module Filtering {
  import opened Wrappers

  /** Keep `f(x)` for every `x` where it is present, in the order of `xs`. */
  function FilterMap<A, B>(xs: seq<A>, f: A -> Option<B>): (r: seq<B>)
    ensures |r| <= |xs|
    ensures forall i :: 0 <= i < |r| ==> exists k :: 0 <= k < |xs| && f(xs[k]) == Some(r[i])
    ensures forall k :: 0 <= k < |xs| && f(xs[k]).Some? ==> f(xs[k]).value in r
    decreases |xs|
  {
    if |xs| == 0 then []
    else
      var rest := FilterMap(xs[1..], f);
      assert forall k :: 1 <= k < |xs| ==> xs[k] == xs[1..][k - 1];
      match f(xs[0])
      case Some(y) => [y] + rest
      case None => rest
  }

  /** Filtering distributes over concatenation: whatever is kept from an
      earlier part of the input comes before whatever is kept from a later
      part, so `FilterMap` preserves the order of its input. */
  lemma {:induction false} FilterMapConcat<A, B>(a: seq<A>, b: seq<A>, f: A -> Option<B>)
    ensures FilterMap(a + b, f) == FilterMap(a, f) + FilterMap(b, f)
    decreases |a|
  {
    if |a| == 0 {
      assert a + b == b;
    } else {
      assert (a + b)[0] == a[0];
      assert (a + b)[1..] == a[1..] + b;
      FilterMapConcat(a[1..], b, f);
    }
  }

  /** When every kept image remembers the element it came from, filtering a
      list without repeats keeps no repeats either. */
  lemma {:induction false} FilterMapKeepsDistinct<A, B>(xs: seq<A>, f: A -> Option<B>, source: B -> A)
    requires forall i, j :: 0 <= i < j < |xs| ==> xs[i] != xs[j]
    requires forall k :: 0 <= k < |xs| && f(xs[k]).Some? ==> source(f(xs[k]).value) == xs[k]
    ensures forall i, j :: 0 <= i < j < |FilterMap(xs, f)| ==> source(FilterMap(xs, f)[i]) != source(FilterMap(xs, f)[j])
    decreases |xs|
  {
    if |xs| > 0 {
      var rest := xs[1..];
      assert forall k :: 0 <= k < |rest| ==> rest[k] == xs[k + 1];
      FilterMapKeepsDistinct(rest, f, source);
      var rr := FilterMap(rest, f);
      assert forall i, j :: 0 <= i < j < |rr| ==> source(rr[i]) != source(rr[j]);
      forall i | 0 <= i < |rr|
        ensures source(rr[i]) != xs[0]
      {
        var k :| 0 <= k < |rest| && f(rest[k]) == Some(rr[i]);
        assert source(rr[i]) == xs[k + 1];
      }
      var r := FilterMap(xs, f);
      match f(xs[0])
      case Some(y) =>
        assert r == [y] + rr;
        forall i, j | 0 <= i < j < |r|
          ensures source(r[i]) != source(r[j])
        {
          assert r[j] == rr[j - 1];
          if i > 0 {
            assert r[i] == rr[i - 1];
          } else {
            assert source(r[i]) == xs[0];
          }
        }
      case None =>
        assert r == rr;
    }
  }

  /** `xs.findIndex(p)`: the position of the first element satisfying `p`,
      or -1 when there is none. */
  function FirstIndex<A>(xs: seq<A>, p: A -> bool): (i: int)
    ensures -1 <= i < |xs|
    ensures 0 <= i ==> p(xs[i]) && forall j :: 0 <= j < i ==> !p(xs[j])
    ensures i == -1 <==> forall j :: 0 <= j < |xs| ==> !p(xs[j])
    decreases |xs|
  {
    if |xs| == 0 then -1
    else if p(xs[0]) then 0
    else
      var k := FirstIndex(xs[1..], p);
      assert forall j :: 1 <= j < |xs| ==> xs[j] == xs[1..][j - 1];
      if k < 0 then -1 else k + 1
  }
}

=== FILE: memories_data.dfy ===
/** The dashboard's reading of stored memories (src/data/memories.ts): the
    user ids of a namespace recovered from the keys of their membership
    sets, each user's memories projected for display, and the listing of a
    whole namespace. The key listing (`KEYS memories:{ns}:*:ids`) is a
    parameter. */
module MemoriesData {
  import opened Wrappers
  import opened Text
  import opened MemoryStore
  import opened RedisUtils
  import opened Filtering
  import opened Accounts
  import opened NamespaceData

  const UserMemoriesError := "Failed to fetch user memories"
  const NamespaceMemoriesError := "Failed to fetch memories"

  /** A memory as the dashboard shows it. `createdAt` is absent on a
      document an update rewrote. */
  datatype Memory = Memory(id: string, text: string, createdAt: Option<string>, updatedAt: string)

  datatype MemoriesResponse = MemoriesResponse(memories: seq<Memory>, userIds: seq<string>)

  predicate NoColon(s: string) {
    ':' !in s
  }

  lemma NoColonNotContained(s: string)
    requires NoColon(s)
    ensures !Contains(s, ":")
  {
    ContainsChar(s, ':');
  }

  // ---------------------------------------------------------------------
  // User ids from keys

  /** The extraction as the source writes it: the third `:`-separated
      segment of the key, absent when there are fewer than three. */
  function UserIdSegment(key: string): (r: Option<string>)
    ensures r.Some? <==> |Split(key, ":")| > 2
    ensures r.Some? ==> r.value == Split(key, ":")[2]
  {
    var parts := Split(key, ":");
    if |parts| > 2 then Some(parts[2]) else None
  }

  /** The membership-set key of a user splits into its four segments when
      neither the namespace nor the user id holds a colon. */
  lemma IdsKeySegments(ns: string, u: string)
    requires NoColon(ns) && NoColon(u)
    ensures Split(IdsKey(ns, u), ":") == ["memories", ns, u, "ids"]
  {
    var parts := ["memories", ns, u, "ids"];
    assert IdsKey(ns, u) == Join(parts, ":") by {
      assert Join(parts[3..], ":") == "ids";
      assert Join(parts[2..], ":") == u + ":" + "ids";
      assert Join(parts[1..], ":") == ns + ":" + (u + ":" + "ids");
    }
    forall i | 0 <= i < |parts|
      ensures !Contains(parts[i], ":")
    {
      assert NoColon(parts[i]);
      NoColonNotContained(parts[i]);
    }
    SplitJoin(parts, ":");
  }

  /** The round trip the extraction relies on holds for colon-free names. */
  lemma UserIdSegmentRoundTrip(ns: string, u: string)
    requires NoColon(ns) && NoColon(u)
    ensures UserIdSegment(IdsKey(ns, u)) == Some(u)
  {
    IdsKeySegments(ns, u);
  }

  /** The membership-set key with its separators spelled out. */
  lemma IdsKeyShape(ns: string, u: string, b: string)
    ensures IdsKey(ns, u + ":" + b) == "memories" + ":" + (ns + ":" + (u + ":" + (b + ":ids")))
  {
    assert "memories:" == "memories" + ":";
    assert ":ids" == ":" + "ids";
  }

  /** The third `:`-separated segment of a key whose first three segments
      are colon-free. */
  lemma ThirdSegment(m1: string, m2: string, m3: string, tail: string)
    requires NoColon(m1) && NoColon(m2) && NoColon(m3)
    ensures |Split(m1 + ":" + (m2 + ":" + (m3 + ":" + tail)), ":")| > 2
    ensures Split(m1 + ":" + (m2 + ":" + (m3 + ":" + tail)), ":")[2] == m3
  {
    assert Unbordered(":");
    NoColonNotContained(m1);
    NoColonNotContained(m2);
    NoColonNotContained(m3);
    SplitAtFirst(m3, ":", tail);
    SplitAtFirst(m2, ":", m3 + ":" + tail);
    SplitAtFirst(m1, ":", m2 + ":" + (m3 + ":" + tail));
  }

  /** It fails for a user id holding a colon: the id `a:b` of an end user is
      read back as `a`. */
  lemma UserIdSegmentCutsAtColon(ns: string, a: string, b: string)
    requires NoColon(ns) && NoColon(a)
    ensures UserIdSegment(IdsKey(ns, a + ":" + b)) == Some(a)
    ensures UserIdSegment(IdsKey(ns, a + ":" + b)) != Some(a + ":" + b)
  {
    IdsKeyShape(ns, a, b);
    assert NoColon("memories");
    ThirdSegment("memories", ns, a, b + ":ids");
    assert |a + ":" + b| > |a|;
  }

  /** The prefix every key of a namespace's listing starts with. */
  function KeyPrefix(ns: string): string {
    "memories:" + ns + ":"
  }

  /** A key the listing `KEYS memories:{ns}:*:ids` returns: the namespace's
      prefix, any text, then `:ids`. */
  predicate MatchesIdsPattern(ns: string, key: string) {
    var pre := KeyPrefix(ns);
    |key| >= |pre| + 4 && key[..|pre|] == pre && key[|key| - 4..] == ":ids"
  }

  /** The key listing answers with keys of the pattern it was asked for. */
  ghost predicate ListsIdsKeys(listKeys: string -> Result<seq<string>, string>) {
    forall ns :: listKeys(ns).Ok? ==> forall k :: k in listKeys(ns).value ==> MatchesIdsPattern(ns, k)
  }

  /** Every user's membership-set key matches the pattern. */
  lemma IdsKeyMatches(ns: string, u: string)
    ensures MatchesIdsPattern(ns, IdsKey(ns, u))
  {
    var key := IdsKey(ns, u);
    var pre := KeyPrefix(ns);
    assert key == pre + u + ":ids";
    assert key[..|pre|] == pre;
    assert key[|key| - 4..] == ":ids";
  }

  /** A key of the pattern holds at least two colons, so it has a third
      segment. */
  lemma PatternKeyHasSegment(ns: string, key: string)
    requires MatchesIdsPattern(ns, key)
    ensures UserIdSegment(key).Some?
  {
    var rest := key[|KeyPrefix(ns)|..];
    var tail := ":" + rest;
    var mid := ns + tail;
    var after := ":" + mid;
    assert key == "memories" + after by {
      assert key == key[..|KeyPrefix(ns)|] + rest;
    }
    OccurrencesConcat("memories", after, ':');
    OccurrencesConcat(":", mid, ':');
    OccurrencesConcat(ns, tail, ':');
    OccurrencesConcat(":", rest, ':');
    assert Occurrences(":", [':']) == 1;
    assert Occurrences(key, [':']) >= 2;
    SplitCountsOccurrences(key, ":");
  }

  /** The extraction corrected: the user id is what lies between the
      namespace's prefix and the `:ids` suffix, colons included. */
  function UserIdOfKey(ns: string, key: string): (r: Option<string>)
    ensures r.Some? <==> MatchesIdsPattern(ns, key)
    ensures r.Some? ==> key == KeyPrefix(ns) + r.value + ":ids"
  {
    var pre := KeyPrefix(ns);
    if MatchesIdsPattern(ns, key) then
      assert key == pre + key[|pre|..|key| - 4] + ":ids";
      Some(key[|pre|..|key| - 4])
    else None
  }

  /** The corrected extraction gives back every user id. */
  lemma UserIdOfKeyRoundTrip(ns: string, u: string)
    ensures UserIdOfKey(ns, IdsKey(ns, u)) == Some(u)
  {
    var key := IdsKey(ns, u);
    var pre := KeyPrefix(ns);
    IdsKeyMatches(ns, u);
    assert key == pre + u + ":ids";
    assert key[|pre|..|key| - 4] == u;
  }

  /** Where the source's extraction is right, the two agree. */
  lemma ExtractionsAgree(ns: string, u: string)
    requires NoColon(ns) && NoColon(u)
    ensures UserIdSegment(IdsKey(ns, u)) == UserIdOfKey(ns, IdsKey(ns, u))
  {
    UserIdSegmentRoundTrip(ns, u);
    UserIdOfKeyRoundTrip(ns, u);
  }

  /** The user ids of a key listing as the source extracts them: the third
      `:`-separated segment of every listed key, in the listing's order. */
  function UserIds(ns: string, keys: seq<string>): (ids: seq<string>)
    requires forall k :: k in keys ==> MatchesIdsPattern(ns, k)
    ensures |ids| == |keys|
    ensures forall i :: 0 <= i < |keys| ==> UserIdSegment(keys[i]) == Some(ids[i])
    decreases |keys|
  {
    if |keys| == 0 then []
    else
      PatternKeyHasSegment(ns, keys[0]);
      [UserIdSegment(keys[0]).value] + UserIds(ns, keys[1..])
  }

  /** The membership-set keys of a list of users, as the listing returns
      them. */
  function IdsKeys(ns: string, users: seq<string>): (keys: seq<string>)
    ensures |keys| == |users| && forall i :: 0 <= i < |users| ==> keys[i] == IdsKey(ns, users[i])
    ensures forall k :: k in keys ==> MatchesIdsPattern(ns, k)
  {
    forall u | u in users
      ensures MatchesIdsPattern(ns, IdsKey(ns, u))
    {
      IdsKeyMatches(ns, u);
    }
    seq(|users|, i requires 0 <= i < |users| => IdsKey(ns, users[i]))
  }

  /** For colon-free names the extraction gives back exactly the listed
      users. */
  lemma UserIdsOfListing(ns: string, users: seq<string>)
    requires NoColon(ns) && forall i :: 0 <= i < |users| ==> NoColon(users[i])
    ensures UserIds(ns, IdsKeys(ns, users)) == users
  {
    var ids := UserIds(ns, IdsKeys(ns, users));
    forall i | 0 <= i < |users|
      ensures ids[i] == users[i]
    {
      UserIdSegmentRoundTrip(ns, users[i]);
    }
  }

  /** A listed user whose id holds a colon is listed, and then read, under
      the id's part before the colon. */
  lemma UserIdsCutAtColon(ns: string, a: string, b: string)
    requires NoColon(ns) && NoColon(a)
    ensures UserIds(ns, IdsKeys(ns, [a + ":" + b])) == [a]
  {
    UserIdSegmentCutsAtColon(ns, a, b);
  }

  /** `getUsersForNamespace`: the user ids, `[]` when the listing fails. */
  function GetUsersForNamespace(ns: string, keys: Result<seq<string>, string>): (r: seq<string>)
    requires keys.Ok? ==> forall k :: k in keys.value ==> MatchesIdsPattern(ns, k)
    ensures keys.Err? ==> r == []
    ensures keys.Ok? ==> |r| == |keys.value| && forall i :: 0 <= i < |r| ==> UserIdSegment(keys.value[i]) == Some(r[i])
  {
    match keys
    case Err(_) => []
    case Ok(ks) => UserIds(ns, ks)
  }

  // ---------------------------------------------------------------------
  // Memories

  /** The display projection of a document; the id is the document's. */
  function Project(d: Doc): (m: Memory)
    ensures m.id == d.id && m.text == d.text && m.createdAt == d.createdAt && m.updatedAt == d.updatedAt
  {
    Memory(d.id, d.text, d.createdAt, d.updatedAt)
  }

  /** The display record of a member whose document can be read. */
  function Displayed(s: Scope, env: Env, id: string): (r: Option<Memory>)
    ensures r.Some? <==> ReadDoc(s, env, id).Some?
    ensures r.Some? ==> id in s.docs && id !in env.docFaults && r.value == Project(s.docs[id])
  {
    if id in env.docFaults || id !in s.docs then None else Some(Project(s.docs[id]))
  }

  /** `m` is the record of a member whose document can be read. */
  ghost predicate ReadableRecord(s: Scope, env: Env, m: Memory) {
    exists id :: id in s.members && id in s.docs && id !in env.docFaults && m == Project(s.docs[id])
  }

  /** The readable members' records, in enumeration order. */
  function Shown(s: Scope, env: Env): seq<Memory> {
    FilterMap(env.order, (id: string) => Displayed(s, env, id))
  }

  /** Every shown record is a readable member's, and every readable member
      is shown. */
  lemma ShownExactly(s: Scope, env: Env)
    requires Enumerates(env.order, s.members)
    ensures |Shown(s, env)| <= |s.members|
    ensures forall i :: 0 <= i < |Shown(s, env)| ==> ReadableRecord(s, env, Shown(s, env)[i])
    ensures forall id :: id in s.members && ReadDoc(s, env, id).Some? ==> Project(s.docs[id]) in Shown(s, env)
  {
    EnumerationSize(env.order, s.members);
    var f := (id: string) => Displayed(s, env, id);
    var ms := Shown(s, env);
    assert ms == FilterMap(env.order, f);
    forall i | 0 <= i < |ms|
      ensures ReadableRecord(s, env, ms[i])
    {
      var k :| 0 <= k < |env.order| && f(env.order[k]) == Some(ms[i]);
      var id := env.order[k];
      assert id in env.order;
    }
    forall id | id in s.members && ReadDoc(s, env, id).Some?
      ensures Project(s.docs[id]) in ms
    {
      var k :| 0 <= k < |env.order| && env.order[k] == id;
      assert f(env.order[k]).Some?;
    }
  }

  /** `getUserMemories`: one record per member whose document can be read,
      in enumeration order (see `ShownExactly`); a failure to read the set
      is thrown. */
  function GetUserMemories(s: Scope, env: Env): (r: Result<seq<Memory>, string>)
    requires Enumerates(env.order, s.members)
    ensures r.Err? <==> env.setFault
    ensures r.Err? ==> r.error == UserMemoriesError
    ensures r.Ok? ==> |r.value| <= |s.members| && r.value == Shown(s, env)
  {
    ShownExactly(s, env);
    if env.setFault then Err(UserMemoriesError) else Ok(Shown(s, env))
  }

  /** Reading the set of some listed user's scope fails. */
  ghost predicate SomeScopeFails(ns: string, ids: seq<string>, envAt: string -> Env) {
    exists i :: 0 <= i < |ids| && envAt(MemoryKey(ns, ids[i])).setFault
  }

  /** The memories of a list of users of one namespace, concatenated in
      list order. */
  function AllUserMemories(ns: string, ids: seq<string>, db: Db, envAt: string -> Env): (r: Result<seq<Memory>, string>)
    requires AnswersReads(db, envAt)
    ensures r.Err? ==> r.error == UserMemoriesError
    decreases |ids|
  {
    if |ids| == 0 then Ok([])
    else
      var key := MemoryKey(ns, ids[0]);
      match GetUserMemories(ScopeAt(db, key), envAt(key))
      case Err(e) => Err(e)
      case Ok(ms) =>
        match AllUserMemories(ns, ids[1..], db, envAt)
        case Err(e) => Err(e)
        case Ok(more) => Ok(ms + more)
  }

  /** The namespace listing fails exactly when reading some listed user's
      id set fails. */
  lemma {:induction false} AllUserMemoriesFails(ns: string, ids: seq<string>, db: Db, envAt: string -> Env)
    requires AnswersReads(db, envAt)
    ensures AllUserMemories(ns, ids, db, envAt).Err? <==> SomeScopeFails(ns, ids, envAt)
    decreases |ids|
  {
    if |ids| > 0 {
      AllUserMemoriesFails(ns, ids[1..], db, envAt);
      assert forall i :: 1 <= i < |ids| ==> ids[i] == ids[1..][i - 1];
      if SomeScopeFails(ns, ids[1..], envAt) {
        var i :| 0 <= i < |ids[1..]| && envAt(MemoryKey(ns, ids[1..][i])).setFault;
        assert ids[i + 1] == ids[1..][i];
      }
    }
  }

  /** A non-empty listing succeeds exactly when the first user's memories
      and the rest's listing do, and is then the one followed by the other. */
  lemma AllUserMemoriesCons(ns: string, ids: seq<string>, db: Db, envAt: string -> Env)
    requires AnswersReads(db, envAt)
    requires |ids| > 0
    ensures var key := MemoryKey(ns, ids[0]);
      var first := GetUserMemories(ScopeAt(db, key), envAt(key));
      var rest := AllUserMemories(ns, ids[1..], db, envAt);
      && (AllUserMemories(ns, ids, db, envAt).Ok? <==> first.Ok? && rest.Ok?)
      && (first.Ok? && rest.Ok? ==> AllUserMemories(ns, ids, db, envAt).value == first.value + rest.value)
  {
  }

  /** The listing of consecutive groups of users is the concatenation of
      their listings. */
  lemma {:induction false} AllUserMemoriesConcat(ns: string, a: seq<string>, b: seq<string>, db: Db, envAt: string -> Env)
    requires AnswersReads(db, envAt)
    requires AllUserMemories(ns, a + b, db, envAt).Ok?
    ensures AllUserMemories(ns, a, db, envAt).Ok? && AllUserMemories(ns, b, db, envAt).Ok?
    ensures AllUserMemories(ns, a + b, db, envAt).value
         == AllUserMemories(ns, a, db, envAt).value + AllUserMemories(ns, b, db, envAt).value
    decreases |a|
  {
    if |a| == 0 {
      assert a + b == b;
    } else {
      ConcatTail(ns, a, b, db, envAt);
      AllUserMemoriesConcat(ns, a[1..], b, db, envAt);
      ConcatStep(ns, a, b, db, envAt);
    }
  }

  /** The listing of `a + b` succeeding, so does that of its tail. */
  lemma ConcatTail(ns: string, a: seq<string>, b: seq<string>, db: Db, envAt: string -> Env)
    requires AnswersReads(db, envAt)
    requires |a| > 0 && AllUserMemories(ns, a + b, db, envAt).Ok?
    ensures AllUserMemories(ns, a[1..] + b, db, envAt).Ok?
  {
    assert (a + b)[1..] == a[1..] + b;
    AllUserMemoriesCons(ns, a + b, db, envAt);
  }

  /** The inductive step of `AllUserMemoriesConcat`: the statement for the
      tail of `a` gives it for `a`. */
  lemma ConcatStep(ns: string, a: seq<string>, b: seq<string>, db: Db, envAt: string -> Env)
    requires AnswersReads(db, envAt)
    requires |a| > 0 && AllUserMemories(ns, a + b, db, envAt).Ok?
    requires AllUserMemories(ns, a[1..] + b, db, envAt).Ok?
    requires AllUserMemories(ns, a[1..], db, envAt).Ok? && AllUserMemories(ns, b, db, envAt).Ok?
    requires AllUserMemories(ns, a[1..] + b, db, envAt).value
          == AllUserMemories(ns, a[1..], db, envAt).value + AllUserMemories(ns, b, db, envAt).value
    ensures AllUserMemories(ns, a, db, envAt).Ok?
    ensures AllUserMemories(ns, a + b, db, envAt).value
         == AllUserMemories(ns, a, db, envAt).value + AllUserMemories(ns, b, db, envAt).value
  {
    var key := MemoryKey(ns, a[0]);
    var first := GetUserMemories(ScopeAt(db, key), envAt(key));
    assert first.Ok? && AllUserMemories(ns, a + b, db, envAt).value
        == first.value + AllUserMemories(ns, a[1..] + b, db, envAt).value by {
      assert (a + b)[0] == a[0] && (a + b)[1..] == a[1..] + b;
      AllUserMemoriesCons(ns, a + b, db, envAt);
    }
    assert AllUserMemories(ns, a, db, envAt).Ok? && AllUserMemories(ns, a, db, envAt).value
        == first.value + AllUserMemories(ns, a[1..], db, envAt).value by {
      AllUserMemoriesCons(ns, a, db, envAt);
    }
    SeqAssoc(first.value, AllUserMemories(ns, a[1..], db, envAt).value, AllUserMemories(ns, b, db, envAt).value);
  }

  lemma SeqAssoc<T>(x: seq<T>, y: seq<T>, z: seq<T>)
    ensures x + (y + z) == (x + y) + z
  {
  }

  /** One user's listing is that user's memories. */
  lemma AllUserMemoriesOne(ns: string, u: string, db: Db, envAt: string -> Env)
    requires AnswersReads(db, envAt)
    ensures var key := MemoryKey(ns, u);
      AllUserMemories(ns, [u], db, envAt) == GetUserMemories(ScopeAt(db, key), envAt(key))
  {
    var key := MemoryKey(ns, u);
    assert [u][1..] == [];
    assert AllUserMemories(ns, [], db, envAt) == Ok([]);
    match GetUserMemories(ScopeAt(db, key), envAt(key))
    case Ok(ms) => assert ms + [] == ms;
    case Err(_) =>
  }

  /** Cutting the user list at any position cuts the listing there. */
  lemma ListingSplit(ns: string, ids: seq<string>, i: int, db: Db, envAt: string -> Env)
    requires AnswersReads(db, envAt)
    requires AllUserMemories(ns, ids, db, envAt).Ok? && 0 <= i <= |ids|
    ensures AllUserMemories(ns, ids[..i], db, envAt).Ok? && AllUserMemories(ns, ids[i..], db, envAt).Ok?
    ensures AllUserMemories(ns, ids, db, envAt).value
         == AllUserMemories(ns, ids[..i], db, envAt).value + AllUserMemories(ns, ids[i..], db, envAt).value
  {
    assert ids == ids[..i] + ids[i..];
    AllUserMemoriesConcat(ns, ids[..i], ids[i..], db, envAt);
  }

  /** `part` occurs in `whole` as one contiguous block. */
  ghost predicate Block(whole: seq<Memory>, part: seq<Memory>) {
    exists p, q :: whole == p + part + q
  }

  /** A middle part of a three-way split is a block. */
  lemma MiddleIsBlock(whole: seq<Memory>, p: seq<Memory>, m: seq<Memory>, q: seq<Memory>)
    requires whole == p + (m + q)
    ensures Block(whole, m)
  {
    assert whole == p + m + q;
  }

  /** The listing starting at a listed user: that user's memories first. */
  lemma ListingFrom(ns: string, ids: seq<string>, i: int, db: Db, envAt: string -> Env)
    requires AnswersReads(db, envAt)
    requires 0 <= i < |ids| && AllUserMemories(ns, ids[i..], db, envAt).Ok?
    ensures var key := MemoryKey(ns, ids[i]);
      && GetUserMemories(ScopeAt(db, key), envAt(key)).Ok?
      && AllUserMemories(ns, ids[i + 1..], db, envAt).Ok?
      && AllUserMemories(ns, ids[i..], db, envAt).value
         == GetUserMemories(ScopeAt(db, key), envAt(key)).value + AllUserMemories(ns, ids[i + 1..], db, envAt).value
  {
    var rest := ids[i..];
    assert rest[0] == ids[i] && rest[1..] == ids[i + 1..];
    AllUserMemoriesCons(ns, rest, db, envAt);
  }

  /** Each listed user's memories appear in the listing as one contiguous
      block. */
  lemma UserBlockInListing(ns: string, ids: seq<string>, i: int, db: Db, envAt: string -> Env)
    requires AnswersReads(db, envAt)
    requires AllUserMemories(ns, ids, db, envAt).Ok? && 0 <= i < |ids|
    ensures var key := MemoryKey(ns, ids[i]);
      && GetUserMemories(ScopeAt(db, key), envAt(key)).Ok?
      && Block(AllUserMemories(ns, ids, db, envAt).value, GetUserMemories(ScopeAt(db, key), envAt(key)).value)
  {
    var key := MemoryKey(ns, ids[i]);
    ListingSplit(ns, ids, i, db, envAt);
    ListingFrom(ns, ids, i, db, envAt);
    MiddleIsBlock(AllUserMemories(ns, ids, db, envAt).value, AllUserMemories(ns, ids[..i], db, envAt).value,
                  GetUserMemories(ScopeAt(db, key), envAt(key)).value, AllUserMemories(ns, ids[i + 1..], db, envAt).value);
  }

  /** `getMemoriesByNamespace`: every user's memories of the selected
      namespace. Being signed out, having no namespace, a failing key
      listing and a failing user listing all end in one error. `nsFault`
      is a failure while reading the selection. */
  function GetMemoriesByNamespace(st: Store, user: Option<string>, nsFault: bool,
                                  listKeys: string -> Result<seq<string>, string>,
                                  db: Db, envAt: string -> Env): (r: Result<MemoriesResponse, string>)
    requires AnswersReads(db, envAt) && ListsIdsKeys(listKeys)
    ensures r.Err? ==> r.error == NamespaceMemoriesError
    ensures !SignedIn(user) || GetCurrentNamespace(st, user, nsFault).None? ==> r.Err?
    ensures r.Ok? <==>
      && SignedIn(user)
      && GetCurrentNamespace(st, user, nsFault).Some?
      && var ns := GetCurrentNamespace(st, user, nsFault).value;
      && listKeys(ns).Ok?
      && AllUserMemories(ns, UserIds(ns, listKeys(ns).value), db, envAt).Ok?
    ensures r.Ok? ==>
      var ns := GetCurrentNamespace(st, user, nsFault).value;
      var ids := UserIds(ns, listKeys(ns).value);
      r.value == MemoriesResponse(AllUserMemories(ns, ids, db, envAt).value, ids)
    ensures r.Ok? ==>
      var keys := listKeys(GetCurrentNamespace(st, user, nsFault).value).value;
      |r.value.userIds| == |keys| &&
      forall i :: 0 <= i < |keys| ==> UserIdSegment(keys[i]) == Some(r.value.userIds[i])
  {
    if !SignedIn(user) then Err(NamespaceMemoriesError)
    else
      match GetCurrentNamespace(st, user, nsFault)
      case None => Err(NamespaceMemoriesError)
      case Some(ns) =>
        match listKeys(ns)
        case Err(_) => Err(NamespaceMemoriesError)
        case Ok(keys) =>
          var ids := UserIds(ns, keys);
          match AllUserMemories(ns, ids, db, envAt)
          case Err(_) => Err(NamespaceMemoriesError)
          case Ok(ms) => Ok(MemoriesResponse(ms, ids))
  }
}

=== FILE: memory_processor.dfy ===
/** The memory-processing job (src/lib/recall/memory-processor.ts): validate
    the event, extract facts, reconcile them with the stored memories,
    persist the plan and summarise. The two language-model steps are
    parameters; step memoisation and retries of the scheduler are not part
    of this model. */
module MemoryProcessor {
  import opened Wrappers
  import opened RecallTypes
  import opened MemoryStore
  import opened RedisUtils
  import opened MemoryStorage
  import opened ResultProcessor
  import opened FactExtraction

  const InvalidInputError := "Invalid input parameters: messages, namespace, and userId are required"

  /** The event payload as it arrives: any field may be missing. */
  datatype EventData = EventData(messages: Option<seq<Message>>, namespace: Option<string>, userId: Option<string>)

  /** The payload once validated. */
  datatype Job = Job(messages: seq<Message>, namespace: string, userId: string)

  /** `validateInputParameters`: the messages must be present and non-empty,
      and so must the namespace and the user id. */
  function ValidateInputParameters(data: EventData): (r: Result<Job, string>)
    ensures r.Ok? <==>
      && data.messages.Some? && |data.messages.value| > 0
      && data.namespace.Some? && data.namespace.value != ""
      && data.userId.Some? && data.userId.value != ""
    ensures r.Ok? ==> r.value == Job(data.messages.value, data.namespace.value, data.userId.value)
    ensures r.Err? ==> r.error == InvalidInputError
  {
    match (data.messages, data.namespace, data.userId)
    case (Some(ms), Some(ns), Some(u)) =>
      if |ms| == 0 || ns == "" || u == "" then Err(InvalidInputError) else Ok(Job(ms, ns, u))
    case _ => Err(InvalidInputError)
  }

  /** The reconciliation model: given the new facts and the stored memories
      it proposes a plan, or fails. */
  type ReconcileModel = (seq<string>, seq<SimpleMemory>) -> Result<seq<MemoryUpdateItem>, string>

  /** Everything the job consults besides the event: the two models, the
      fact prompt, the embedder, the clock, how the store answers reads,
      which existence checks of the batch throw, and whether its commit
      throws. */
  datatype World = World(
    factPrompt: string,
    factModel: FactModel,
    reconcile: ReconcileModel,
    embed: Embedder,
    clock: nat -> string,
    checkFaults: nat -> Option<string>,
    env: Env,
    commitFault: Option<string>)

  /** The job's outcome: its result record and the store afterwards. */
  datatype Outcome = Outcome(result: ProcessMemoryResult, db: Db)

  /** `reconcileMemoriesWithFacts`: read the user's memories, then ask the
      model. */
  function Reconcile(facts: seq<string>, s: Scope, w: World): (r: Result<seq<MemoryUpdateItem>, string>)
    requires Enumerates(w.env.order, s.members)
    ensures w.env.setFault ==> r == Err(FetchError)
    ensures !w.env.setFault ==> r == w.reconcile(facts, FetchUserMemories(s, w.env).value)
  {
    match FetchUserMemories(s, w.env)
    case Err(e) => Err(e)
    case Ok(existing) => w.reconcile(facts, existing)
  }

  /** The scope the job works on is the one at the user's memory key. */
  ghost predicate WellFormed(data: EventData, db: Db, w: World) {
    data.namespace.Some? && data.userId.Some? ==>
      Enumerates(w.env.order, ScopeAt(db, MemoryKey(data.namespace.value, data.userId.value)).members)
  }

  /** The handler body of `processMemory`. */
  function ProcessMemory(data: EventData, db: Db, w: World): (r: Result<Outcome, string>)
    requires WellFormed(data, db, w)
    ensures ValidateInputParameters(data).Err? ==> r == Err(InvalidInputError)
    ensures r.Ok? ==> r.value.result.status == Complete
    ensures r.Ok? ==> forall k :: k != MemoryKey(data.namespace.value, data.userId.value) ==>
      ScopeAt(r.value.db, k) == ScopeAt(db, k)
    ensures r.Ok? && r.value.result.details.None? ==> r.value == Outcome(CreateNoFactsResult(), db)
    ensures r.Ok? && r.value.result.details.Some? ==>
      var d := r.value.result.details.value;
      && r.value.result.factsProcessed == |d.extractedFacts| > 0
      && r.value.result.memoriesChanged == d.persistenceResults.successful
      && r.value.result.operationsSummary == Some(d.persistenceResults.operations)
    ensures
      && ValidateInputParameters(data).Ok? && w.env.setFault
      && ExtractFacts(w.factPrompt, data.messages.value, w.factModel).Ok?
      && ExtractFacts(w.factPrompt, data.messages.value, w.factModel).value != []
      ==> r == Err(FetchError)
    ensures ValidateInputParameters(data).Ok? ==>
      var job := ValidateInputParameters(data).value;
      var extracted := ExtractFacts(w.factPrompt, job.messages, w.factModel);
      var s := ScopeAt(db, MemoryKey(job.namespace, job.userId));
      && (extracted.Err? ==> r == Err(extracted.error))
      && (extracted.Ok? && extracted.value != [] ==>
            var plan := Reconcile(extracted.value, s, w);
            && (plan.Err? ==> r == Err(plan.error))
            && (plan.Ok? ==>
                  var persisted := PersistMemoryOperations(s, job.namespace, job.userId, plan.value,
                                                           w.embed, w.clock, w.checkFaults, w.commitFault);
                  persisted.Err? ==> r == Err(persisted.error)))
    ensures r.Err? <==>
      || ValidateInputParameters(data).Err?
      || var job := ValidateInputParameters(data).value;
         var extracted := ExtractFacts(w.factPrompt, job.messages, w.factModel);
         var s := ScopeAt(db, MemoryKey(job.namespace, job.userId));
         || extracted.Err?
         || (extracted.value != [] &&
               var plan := Reconcile(extracted.value, s, w);
               || plan.Err?
               || (|plan.value| > 0 && w.commitFault.Some?))
  {
    match ValidateInputParameters(data)
    case Err(e) => Err(e)
    case Ok(job) =>
      match ExtractFacts(w.factPrompt, job.messages, w.factModel)
      case Err(e) => Err(e)
      case Ok(facts) =>
        if |facts| == 0 then Ok(Outcome(CreateNoFactsResult(), db))
        else
          var key := MemoryKey(job.namespace, job.userId);
          var s := ScopeAt(db, key);
          match Reconcile(facts, s, w)
          case Err(e) => Err(e)
          case Ok(plan) =>
            match PersistMemoryOperations(s, job.namespace, job.userId, plan, w.embed, w.clock, w.checkFaults, w.commitFault)
            case Err(e) => Err(e)
            case Ok(persisted) =>
              var processed := ProcessPersistenceResults(persisted.results);
              var summary := processed.summary;
              var result := CreateProcessingResult(|facts|, summary.successful, summary.operations,
                                                   Details(facts, |plan|, summary));
              Ok(Outcome(result, db[key := persisted.scope]))
  }

  /** A batch that went through: the counts describe the plan and the
      persistence results exactly, and the user's scope is the committed
      one. */
  lemma ProcessMemoryReports(data: EventData, db: Db, w: World, facts: seq<string>, plan: seq<MemoryUpdateItem>)
    requires WellFormed(data, db, w)
    requires ValidateInputParameters(data).Ok?
    requires ExtractFacts(w.factPrompt, data.messages.value, w.factModel) == Ok(facts) && |facts| > 0
    requires var s := ScopeAt(db, MemoryKey(data.namespace.value, data.userId.value));
      Reconcile(facts, s, w) == Ok(plan)
    requires w.commitFault.None?
    ensures var ns, u := data.namespace.value, data.userId.value;
      var s := ScopeAt(db, MemoryKey(ns, u));
      var persisted := PersistMemoryOperations(s, ns, u, plan, w.embed, w.clock, w.checkFaults, None).value;
      var r := ProcessMemory(data, db, w);
      && r.Ok?
      && r.value.result.factsProcessed == |facts|
      && r.value.result.details == Some(Details(facts, |plan|, r.value.result.details.value.persistenceResults))
      && r.value.result.memoriesChanged == |Where(persisted.results, true)|
      && r.value.result.details.value.persistenceResults.total == |plan|
      && (forall e :: CountOf(r.value.result.operationsSummary.value, e) == KindCount(persisted.results, e))
      && ScopeAt(r.value.db, MemoryKey(ns, u)) == persisted.scope
  {
  }

  /** Zero extracted facts end the job with the no-facts result and leave
      the store alone, whatever reconciliation would have said. */
  lemma NoFactsSkipsReconcile(data: EventData, db: Db, w: World, other: ReconcileModel)
    requires WellFormed(data, db, w)
    requires ValidateInputParameters(data).Ok?
    requires ExtractFacts(w.factPrompt, data.messages.value, w.factModel) == Ok([])
    ensures ProcessMemory(data, db, w) == Ok(Outcome(CreateNoFactsResult(), db))
    ensures ProcessMemory(data, db, w) == ProcessMemory(data, db, w.(reconcile := other))
  {
  }

  /** `memoriesChanged` counts successes, not changes: a plan of `n` NONE
      items reports `n` memories changed while leaving the store as it
      was. */
  lemma AllNonePlanReportsEveryItem(data: EventData, db: Db, w: World, facts: seq<string>, plan: seq<MemoryUpdateItem>)
    requires WellFormed(data, db, w)
    requires ValidateInputParameters(data).Ok?
    requires ExtractFacts(w.factPrompt, data.messages.value, w.factModel) == Ok(facts) && |facts| > 0
    requires var s := ScopeAt(db, MemoryKey(data.namespace.value, data.userId.value));
      Reconcile(facts, s, w) == Ok(plan)
    requires w.commitFault.None?
    requires forall j :: 0 <= j < |plan| ==> plan[j].event == NONE
    ensures var r := ProcessMemory(data, db, w);
      && r.Ok?
      && r.value.result.memoriesChanged == |plan|
      && ScopeAt(r.value.db, MemoryKey(data.namespace.value, data.userId.value))
         == ScopeAt(db, MemoryKey(data.namespace.value, data.userId.value))
  {
    var ns, u := data.namespace.value, data.userId.value;
    var s := ScopeAt(db, MemoryKey(ns, u));
    NonePlanChangesNothing(s, ns, u, plan, w.embed, w.clock, w.checkFaults);
    var persisted := PersistMemoryOperations(s, ns, u, plan, w.embed, w.clock, w.checkFaults, None).value;
    AllSucceeded(persisted.results);
    ProcessMemoryReports(data, db, w, facts, plan);
  }
}

=== FILE: memory_storage.dfy ===
/** Persistence of a reconciliation plan (src/lib/recall/memory-storage.ts).

    The source walks the plan once, deciding each item's result and queueing
    its writes on a transaction, and then executes the transaction. Both
    phases are modelled: `Queue` yields the per-item results and the command
    list, and the commit folds the commands over the user's scope. The
    existence check of an UPDATE reads the committed store, so it sees the
    scope as it was before the batch. */
module MemoryStorage {
  import opened Wrappers
  import opened Text
  import opened RecallTypes
  import opened MemoryStore

  const NotFoundError := "Memory not found for update"
  const EmbeddingError := "Failed to generate embedding for text"
  const JsonModuleError := "A command in the Redis pipeline failed. Check Redis client compatibility with JSON module."
  const PersistError := "Failed to persist memory changes to Redis"

  function Succeeded(item: MemoryUpdateItem): OperationResult {
    OperationResult(true, item.event, item.id, None)
  }

  function Failed(item: MemoryUpdateItem, message: string): OperationResult {
    OperationResult(false, item.event, item.id, Some(message))
  }

  /** The result of examining one item, and the writes it queues. */
  datatype Step = Step(result: OperationResult, cmds: seq<Command>)

  /** The queue phase for one item. `pre` is the committed membership set,
      `now` the timestamp taken for this item, and `checkFault` the message
      the existence check of an UPDATE throws, if it does. */
  function QueueItem(item: MemoryUpdateItem, pre: set<string>, namespace: string, userId: string,
                     embed: Embedder, now: string, checkFault: Option<string>): (st: Step)
    ensures st.result.memoryId == item.id && st.result.operation == item.event
    ensures forall k :: 0 <= k < |st.cmds| ==> st.cmds[k].id == item.id
    ensures !st.result.success ==> st.cmds == [] && st.result.error.Some?
    ensures st.result.success ==> st.result.error.None?
    ensures item.event == DELETE || item.event == NONE ==> st.result.success
    ensures item.event == UPDATE && checkFault.Some? ==> st.result == Failed(item, checkFault.value)
    ensures item.event == UPDATE && checkFault.None? && item.id !in pre ==> st.result == Failed(item, NotFoundError)
    ensures item.event == UPDATE && st.result.success ==> item.id in pre && checkFault.None?
    ensures (item.event == ADD || item.event == UPDATE) && (item.event == ADD || (item.id in pre && checkFault.None?)) ==>
      (st.result.success <==> embed(item.text).Some?)
  {
    match item.event
    case ADD =>
      (match embed(item.text)
       case None => Step(Failed(item, EmbeddingError), [])
       case Some(v) =>
         var doc := Doc(item.id, item.text, v, namespace, userId, Some(now), now);
         Step(Succeeded(item), [JsonSet(item.id, doc), SAdd(item.id)]))
    case UPDATE =>
      if checkFault.Some? then Step(Failed(item, checkFault.value), [])
      else if item.id !in pre then Step(Failed(item, NotFoundError), [])
      else
        (match embed(item.text)
         case None => Step(Failed(item, EmbeddingError), [])
         case Some(v) =>
           var doc := Doc(item.id, item.text, v, namespace, userId, None, now);
           Step(Succeeded(item), [JsonSet(item.id, doc)]))
    case DELETE =>
      Step(Succeeded(item), [SRem(item.id), Del(item.id)])
    case NONE =>
      Step(Succeeded(item), [])
  }

  /** What committing one item's writes does to the slot of its id. An ADD
      stores a full document whose `createdAt` equals `updatedAt` and makes
      the id a member; an UPDATE replaces the document by one without
      `createdAt` and leaves membership alone; a DELETE removes both; NONE
      and every failed item change nothing. */
  predicate Effect(item: MemoryUpdateItem, res: OperationResult, before: Slot, after: Slot,
                   namespace: string, userId: string, embed: Embedder, now: string)
  {
    if !res.success then after == before
    else
      match item.event
      case ADD =>
        embed(item.text).Some? &&
        after == Slot(true, Some(Doc(item.id, item.text, embed(item.text).value, namespace, userId, Some(now), now)))
      case UPDATE =>
        embed(item.text).Some? &&
        after == Slot(before.member, Some(Doc(item.id, item.text, embed(item.text).value, namespace, userId, None, now)))
      case DELETE => after == Slot(false, None)
      case NONE => after == before
  }

  lemma StepEffect(item: MemoryUpdateItem, pre: set<string>, namespace: string, userId: string,
                   embed: Embedder, now: string, checkFault: Option<string>, s: Scope)
    ensures var st := QueueItem(item, pre, namespace, userId, embed, now, checkFault);
      Effect(item, st.result, SlotOf(s, item.id), SlotOf(Apply(s, st.cmds), item.id), namespace, userId, embed, now)
  {
    var st := QueueItem(item, pre, namespace, userId, embed, now, checkFault);
    if |st.cmds| == 1 {
      ApplyOne(s, st.cmds[0]);
      assert st.cmds == [st.cmds[0]];
    } else if |st.cmds| == 2 {
      ApplyTwo(s, st.cmds[0], st.cmds[1]);
      assert st.cmds == [st.cmds[0], st.cmds[1]];
    }
  }

  /** The outcome of the queue phase over a whole plan. */
  datatype Queued = Queued(results: seq<OperationResult>, cmds: seq<Command>)

  /** The queue phase: items examined in plan order, item `j` stamped with
      `clock(j)`; every existence check reads `pre`, and that of item `j`
      throws `checkFaults(j)` when it is a message. */
  function Queue(plan: seq<MemoryUpdateItem>, pre: set<string>, namespace: string, userId: string,
                 embed: Embedder, clock: nat -> string, checkFaults: nat -> Option<string>): (q: Queued)
    ensures |q.results| == |plan|
    ensures forall j :: 0 <= j < |plan| ==>
      q.results[j] == QueueItem(plan[j], pre, namespace, userId, embed, clock(j), checkFaults(j)).result
    decreases |plan|
  {
    if |plan| == 0 then Queued([], [])
    else
      var n := |plan| - 1;
      var q := Queue(plan[..n], pre, namespace, userId, embed, clock, checkFaults);
      var st := QueueItem(plan[n], pre, namespace, userId, embed, clock(n), checkFaults(n));
      Queued(q.results + [st.result], q.cmds + st.cmds)
  }

  /** The outcome of a committed batch: one result per item and the new
      scope. */
  datatype Persisted = Persisted(results: seq<OperationResult>, scope: Scope)

  /** `persistMemoryOperations`. `commitFault` is the error message the
      transaction's `exec` throws, if it does; the store is then in an
      unknown state and only the error is reported. */
  function PersistMemoryOperations(s: Scope, namespace: string, userId: string, plan: seq<MemoryUpdateItem>,
                                   embed: Embedder, clock: nat -> string, checkFaults: nat -> Option<string>, commitFault: Option<string>)
    : (r: Result<Persisted, string>)
    ensures |plan| == 0 ==> r == Ok(Persisted([], s))
    ensures r.Err? <==> |plan| > 0 && commitFault.Some?
    ensures r.Err? ==> r.error == JsonModuleError || r.error == PersistError
    ensures r.Ok? ==> |r.value.results| == |plan|
    ensures r.Ok? ==> forall j :: 0 <= j < |plan| ==>
      r.value.results[j].memoryId == plan[j].id && r.value.results[j].operation == plan[j].event
    ensures r.Ok? ==> forall j :: 0 <= j < |plan| && plan[j].event == UPDATE && checkFaults(j).Some? ==>
      r.value.results[j] == OperationResult(false, UPDATE, plan[j].id, checkFaults(j))
    ensures r.Ok? ==> forall j :: 0 <= j < |plan| && plan[j].event == UPDATE && checkFaults(j).None? && plan[j].id !in s.members ==>
      r.value.results[j] == OperationResult(false, UPDATE, plan[j].id, Some(NotFoundError))
    ensures r.Ok? ==> forall j :: 0 <= j < |plan| && (plan[j].event == DELETE || plan[j].event == NONE) ==>
      r.value.results[j] == OperationResult(true, plan[j].event, plan[j].id, None)
  {
    if |plan| == 0 then Ok(Persisted([], s))
    else
      var q := Queue(plan, s.members, namespace, userId, embed, clock, checkFaults);
      match commitFault
      case Some(message) =>
        Err(if Contains(message, "pipeline.json.set") then JsonModuleError else PersistError)
      case None => Ok(Persisted(q.results, Apply(s, q.cmds)))
  }

  /** No two plan items name the same memory. */
  predicate DistinctIds(plan: seq<MemoryUpdateItem>) {
    forall i, j :: 0 <= i < j < |plan| ==> plan[i].id != plan[j].id
  }

  /** The queue phase of a non-empty plan: that of all items but the last,
      followed by the last item's. */
  lemma QueueSnoc(plan: seq<MemoryUpdateItem>, pre: set<string>, namespace: string, userId: string,
                  embed: Embedder, clock: nat -> string, checkFaults: nat -> Option<string>)
    requires |plan| > 0
    ensures var n := |plan| - 1;
      var q := Queue(plan, pre, namespace, userId, embed, clock, checkFaults);
      var q0 := Queue(plan[..n], pre, namespace, userId, embed, clock, checkFaults);
      var st := QueueItem(plan[n], pre, namespace, userId, embed, clock(n), checkFaults(n));
      q.results == q0.results + [st.result] && q.cmds == q0.cmds + st.cmds
  {
  }

  /** The committed batch leaves every id the plan does not name as it
      was. */
  lemma {:induction false} QueueUntouched(s: Scope, namespace: string, userId: string, plan: seq<MemoryUpdateItem>,
                                          embed: Embedder, clock: nat -> string, checkFaults: nat -> Option<string>, x: string)
    requires forall j :: 0 <= j < |plan| ==> plan[j].id != x
    ensures SlotOf(Apply(s, Queue(plan, s.members, namespace, userId, embed, clock, checkFaults).cmds), x) == SlotOf(s, x)
    decreases |plan|
  {
    if |plan| > 0 {
      var n := |plan| - 1;
      var prefix := plan[..n];
      assert forall j :: 0 <= j < n ==> prefix[j] == plan[j];
      QueueUntouched(s, namespace, userId, prefix, embed, clock, checkFaults, x);
      QueueSnoc(plan, s.members, namespace, userId, embed, clock, checkFaults);
      var q0 := Queue(prefix, s.members, namespace, userId, embed, clock, checkFaults);
      var st := QueueItem(plan[n], s.members, namespace, userId, embed, clock(n), checkFaults(n));
      ApplyConcat(s, q0.cmds, st.cmds);
      ApplyElsewhere(Apply(s, q0.cmds), st.cmds, x);
    }
  }

  /** For a plan whose ids are pairwise distinct, item `j`'s committed
      effect on its id is its own. */
  lemma {:induction false} QueueEffectAt(s: Scope, namespace: string, userId: string, plan: seq<MemoryUpdateItem>,
                                         embed: Embedder, clock: nat -> string, checkFaults: nat -> Option<string>, j: int)
    requires DistinctIds(plan) && 0 <= j < |plan|
    ensures var q := Queue(plan, s.members, namespace, userId, embed, clock, checkFaults);
      Effect(plan[j], q.results[j], SlotOf(s, plan[j].id), SlotOf(Apply(s, q.cmds), plan[j].id),
             namespace, userId, embed, clock(j))
    decreases |plan|
  {
    if j == |plan| - 1 {
      QueueEffectLast(s, namespace, userId, plan, embed, clock, checkFaults);
    } else {
      var prefix := plan[..|plan| - 1];
      assert DistinctIds(prefix);
      QueueEffectAt(s, namespace, userId, prefix, embed, clock, checkFaults, j);
      QueueEffectEarlier(s, namespace, userId, plan, embed, clock, checkFaults, j);
    }
  }

  /** The last item's committed effect is its own: no earlier item touched
      its id. */
  lemma QueueEffectLast(s: Scope, namespace: string, userId: string, plan: seq<MemoryUpdateItem>,
                        embed: Embedder, clock: nat -> string, checkFaults: nat -> Option<string>)
    requires DistinctIds(plan) && |plan| > 0
    ensures var n := |plan| - 1;
      var q := Queue(plan, s.members, namespace, userId, embed, clock, checkFaults);
      Effect(plan[n], q.results[n], SlotOf(s, plan[n].id), SlotOf(Apply(s, q.cmds), plan[n].id),
             namespace, userId, embed, clock(n))
  {
    var n := |plan| - 1;
    var prefix := plan[..n];
    assert forall i :: 0 <= i < n ==> prefix[i].id != plan[n].id;
    QueueSnoc(plan, s.members, namespace, userId, embed, clock, checkFaults);
    var q0 := Queue(prefix, s.members, namespace, userId, embed, clock, checkFaults);
    var st := QueueItem(plan[n], s.members, namespace, userId, embed, clock(n), checkFaults(n));
    ApplyConcat(s, q0.cmds, st.cmds);
    QueueUntouched(s, namespace, userId, prefix, embed, clock, checkFaults, plan[n].id);
    StepEffect(plan[n], s.members, namespace, userId, embed, clock(n), checkFaults(n), Apply(s, q0.cmds));
  }

  /** An earlier item's effect, committed by all items but the last, is not
      disturbed by the last, which writes another id. */
  lemma QueueEffectEarlier(s: Scope, namespace: string, userId: string, plan: seq<MemoryUpdateItem>,
                           embed: Embedder, clock: nat -> string, checkFaults: nat -> Option<string>, j: int)
    requires DistinctIds(plan) && 0 <= j < |plan| - 1
    requires var prefix := plan[..|plan| - 1];
      var q0 := Queue(prefix, s.members, namespace, userId, embed, clock, checkFaults);
      Effect(prefix[j], q0.results[j], SlotOf(s, prefix[j].id), SlotOf(Apply(s, q0.cmds), prefix[j].id),
             namespace, userId, embed, clock(j))
    ensures var q := Queue(plan, s.members, namespace, userId, embed, clock, checkFaults);
      Effect(plan[j], q.results[j], SlotOf(s, plan[j].id), SlotOf(Apply(s, q.cmds), plan[j].id),
             namespace, userId, embed, clock(j))
  {
    var n := |plan| - 1;
    var prefix := plan[..n];
    assert prefix[j] == plan[j] && plan[j].id != plan[n].id;
    QueueSnoc(plan, s.members, namespace, userId, embed, clock, checkFaults);
    var q0 := Queue(prefix, s.members, namespace, userId, embed, clock, checkFaults);
    var st := QueueItem(plan[n], s.members, namespace, userId, embed, clock(n), checkFaults(n));
    ApplyConcat(s, q0.cmds, st.cmds);
    ApplyElsewhere(Apply(s, q0.cmds), st.cmds, plan[j].id);
  }

  /** The committed effect of the queue phase on every id of a plan whose
      ids are pairwise distinct, and on every other id. */
  lemma QueueEffect(s: Scope, namespace: string, userId: string, plan: seq<MemoryUpdateItem>,
                    embed: Embedder, clock: nat -> string, checkFaults: nat -> Option<string>)
    requires DistinctIds(plan)
    ensures var q := Queue(plan, s.members, namespace, userId, embed, clock, checkFaults);
      var t := Apply(s, q.cmds);
      && (forall j :: 0 <= j < |plan| ==>
            Effect(plan[j], q.results[j], SlotOf(s, plan[j].id), SlotOf(t, plan[j].id), namespace, userId, embed, clock(j)))
      && (forall x :: (forall j :: 0 <= j < |plan| ==> plan[j].id != x) ==> SlotOf(t, x) == SlotOf(s, x))
  {
    forall j | 0 <= j < |plan|
      ensures var q := Queue(plan, s.members, namespace, userId, embed, clock, checkFaults);
        Effect(plan[j], q.results[j], SlotOf(s, plan[j].id), SlotOf(Apply(s, q.cmds), plan[j].id),
               namespace, userId, embed, clock(j))
    {
      QueueEffectAt(s, namespace, userId, plan, embed, clock, checkFaults, j);
    }
    forall x | forall j :: 0 <= j < |plan| ==> plan[j].id != x
      ensures SlotOf(Apply(s, Queue(plan, s.members, namespace, userId, embed, clock, checkFaults).cmds), x) == SlotOf(s, x)
    {
      QueueUntouched(s, namespace, userId, plan, embed, clock, checkFaults, x);
    }
  }

  /** For a plan whose ids are pairwise distinct, the committed batch keeps
      "a document exists exactly when its id is a member". */
  lemma ConsistencyPreserved(s: Scope, namespace: string, userId: string, plan: seq<MemoryUpdateItem>,
                             embed: Embedder, clock: nat -> string, checkFaults: nat -> Option<string>)
    requires Consistent(s) && DistinctIds(plan)
    ensures var r := PersistMemoryOperations(s, namespace, userId, plan, embed, clock, checkFaults, None);
      r.Ok? && Consistent(r.value.scope)
  {
    if |plan| > 0 {
      var q := Queue(plan, s.members, namespace, userId, embed, clock, checkFaults);
      var t := Apply(s, q.cmds);
      QueueEffect(s, namespace, userId, plan, embed, clock, checkFaults);
      forall x
        ensures x in t.docs <==> x in t.members
      {
        if j :| 0 <= j < |plan| && plan[j].id == x {
          assert Effect(plan[j], q.results[j], SlotOf(s, x), SlotOf(t, x), namespace, userId, embed, clock(j));
          assert SlotOf(s, x).member == SlotOf(s, x).doc.Some?;
        } else {
          assert SlotOf(t, x) == SlotOf(s, x);
          assert SlotOf(s, x).member == SlotOf(s, x).doc.Some?;
        }
      }
    }
  }

  /** For a plan whose ids are pairwise distinct, each item's effect is
      exactly its own; every id the plan does not name is untouched. */
  lemma DistinctPlanEffect(s: Scope, namespace: string, userId: string, plan: seq<MemoryUpdateItem>,
                           embed: Embedder, clock: nat -> string, checkFaults: nat -> Option<string>)
    requires DistinctIds(plan)
    ensures var r := PersistMemoryOperations(s, namespace, userId, plan, embed, clock, checkFaults, None);
      && r.Ok?
      && (forall j :: 0 <= j < |plan| ==>
            Effect(plan[j], r.value.results[j], SlotOf(s, plan[j].id), SlotOf(r.value.scope, plan[j].id),
                   namespace, userId, embed, clock(j)))
      && (forall x :: (forall j :: 0 <= j < |plan| ==> plan[j].id != x) ==> SlotOf(r.value.scope, x) == SlotOf(s, x))
  {
    if |plan| > 0 {
      QueueEffect(s, namespace, userId, plan, embed, clock, checkFaults);
    }
  }

  /** An ADD earlier in the batch does not make a later UPDATE of the same
      new id succeed; the stored document is the ADD's, with its
      `createdAt`, and the UPDATE's text is lost. */
  lemma AddThenUpdateInOneBatch(s: Scope, namespace: string, userId: string, id: string, first: string, second: string,
                                embed: Embedder, clock: nat -> string, checkFaults: nat -> Option<string>)
    requires id !in s.members && embed(first).Some? && checkFaults(1).None?
    ensures var plan := [MemoryUpdateItem(id, first, ADD, None), MemoryUpdateItem(id, second, UPDATE, None)];
      var r := PersistMemoryOperations(s, namespace, userId, plan, embed, clock, checkFaults, None);
      && r.Ok?
      && r.value.results == [OperationResult(true, ADD, id, None), OperationResult(false, UPDATE, id, Some(NotFoundError))]
      && id in r.value.scope.members
      && id in r.value.scope.docs
      && r.value.scope.docs[id] == Doc(id, first, embed(first).value, namespace, userId, Some(clock(0)), clock(0))
  {
    var plan := [MemoryUpdateItem(id, first, ADD, None), MemoryUpdateItem(id, second, UPDATE, None)];
    var add := QueueItem(plan[0], s.members, namespace, userId, embed, clock(0), checkFaults(0));
    var upd := QueueItem(plan[1], s.members, namespace, userId, embed, clock(1), checkFaults(1));
    QueueTwo(plan[0], plan[1], s.members, namespace, userId, embed, clock, checkFaults);
    assert upd.cmds == [];
    assert add.cmds + upd.cmds == add.cmds;
    StepEffect(plan[0], s.members, namespace, userId, embed, clock(0), checkFaults(0), s);
  }

  /** A DELETE followed by an UPDATE of the same existing id leaves an
      orphan: the document is written back but the id is no longer a
      member, so the scope is no longer consistent. */
  lemma DeleteThenUpdateOrphans(s: Scope, namespace: string, userId: string, id: string, text: string,
                                embed: Embedder, clock: nat -> string, checkFaults: nat -> Option<string>)
    requires id in s.members && embed(text).Some? && checkFaults(1).None?
    ensures var plan := [MemoryUpdateItem(id, text, DELETE, None), MemoryUpdateItem(id, text, UPDATE, None)];
      var r := PersistMemoryOperations(s, namespace, userId, plan, embed, clock, checkFaults, None);
      && r.Ok?
      && r.value.results == [OperationResult(true, DELETE, id, None), OperationResult(true, UPDATE, id, None)]
      && id !in r.value.scope.members
      && id in r.value.scope.docs
      && r.value.scope.docs[id].createdAt.None?
      && !Consistent(r.value.scope)
  {
    var plan := [MemoryUpdateItem(id, text, DELETE, None), MemoryUpdateItem(id, text, UPDATE, None)];
    var del := QueueItem(plan[0], s.members, namespace, userId, embed, clock(0), checkFaults(0));
    var upd := QueueItem(plan[1], s.members, namespace, userId, embed, clock(1), checkFaults(1));
    var q := Queue(plan, s.members, namespace, userId, embed, clock, checkFaults);
    QueueTwo(plan[0], plan[1], s.members, namespace, userId, embed, clock, checkFaults);
    ApplyConcat(s, del.cmds, upd.cmds);
    StepEffect(plan[0], s.members, namespace, userId, embed, clock(0), checkFaults(0), s);
    var mid := Apply(s, del.cmds);
    StepEffect(plan[1], s.members, namespace, userId, embed, clock(1), checkFaults(1), mid);
  }

  /** Deleting is idempotent: a second identical DELETE batch leaves the
      scope exactly as the first one left it. */
  lemma DeleteIdempotent(s: Scope, namespace: string, userId: string, id: string, text: string,
                         embed: Embedder, clock: nat -> string, checkFaults: nat -> Option<string>)
    ensures var plan := [MemoryUpdateItem(id, text, DELETE, None)];
      var r1 := PersistMemoryOperations(s, namespace, userId, plan, embed, clock, checkFaults, None);
      var r2 := PersistMemoryOperations(r1.value.scope, namespace, userId, plan, embed, clock, checkFaults, None);
      && r1.Ok? && r2.Ok?
      && r2.value.scope == r1.value.scope
      && id !in r1.value.scope.members && id !in r1.value.scope.docs
      && r2.value.results == r1.value.results
  {
    var plan := [MemoryUpdateItem(id, text, DELETE, None)];
    QueueOne(plan[0], s.members, namespace, userId, embed, clock, checkFaults);
    var cmds := [SRem(id), Del(id)];
    var t := Apply(s, cmds);
    ApplyTwo(s, SRem(id), Del(id));
    ApplyTwo(t, SRem(id), Del(id));
    QueueOne(plan[0], t.members, namespace, userId, embed, clock, checkFaults);
    assert t.members - {id} == t.members;
    assert t.docs - {id} == t.docs;
  }

  /** A plan of NONE items reports success for every item and leaves the
      scope unchanged. */
  lemma {:induction false} NonePlanChangesNothing(s: Scope, namespace: string, userId: string,
                                                  plan: seq<MemoryUpdateItem>, embed: Embedder, clock: nat -> string, checkFaults: nat -> Option<string>)
    requires forall j :: 0 <= j < |plan| ==> plan[j].event == NONE
    ensures var r := PersistMemoryOperations(s, namespace, userId, plan, embed, clock, checkFaults, None);
      && r.Ok?
      && r.value.scope == s
      && forall j :: 0 <= j < |plan| ==> r.value.results[j].success
  {
    if |plan| > 0 {
      NoneQueuesNothing(plan, s.members, namespace, userId, embed, clock, checkFaults);
    }
  }

  lemma {:induction false} NoneQueuesNothing(plan: seq<MemoryUpdateItem>, pre: set<string>, namespace: string, userId: string,
                                             embed: Embedder, clock: nat -> string, checkFaults: nat -> Option<string>)
    requires forall j :: 0 <= j < |plan| ==> plan[j].event == NONE
    ensures Queue(plan, pre, namespace, userId, embed, clock, checkFaults).cmds == []
    decreases |plan|
  {
    if |plan| > 0 {
      var n := |plan| - 1;
      var prefix := plan[..n];
      assert forall j :: 0 <= j < n ==> prefix[j] == plan[j];
      NoneQueuesNothing(prefix, pre, namespace, userId, embed, clock, checkFaults);
      QueueSnoc(plan, pre, namespace, userId, embed, clock, checkFaults);
      assert plan[n].event == NONE;
    }
  }

  /** The queue phase of a two-item plan. */
  lemma QueueTwo(a: MemoryUpdateItem, b: MemoryUpdateItem, pre: set<string>, namespace: string, userId: string,
                 embed: Embedder, clock: nat -> string, checkFaults: nat -> Option<string>)
    ensures Queue([a, b], pre, namespace, userId, embed, clock, checkFaults).cmds
      == QueueItem(a, pre, namespace, userId, embed, clock(0), checkFaults(0)).cmds + QueueItem(b, pre, namespace, userId, embed, clock(1), checkFaults(1)).cmds
  {
    assert [a, b][..1] == [a];
    QueueOne(a, pre, namespace, userId, embed, clock, checkFaults);
  }

  /** The queue phase of a one-item plan. */
  lemma QueueOne(a: MemoryUpdateItem, pre: set<string>, namespace: string, userId: string,
                 embed: Embedder, clock: nat -> string, checkFaults: nat -> Option<string>)
    ensures var st := QueueItem(a, pre, namespace, userId, embed, clock(0), checkFaults(0));
      Queue([a], pre, namespace, userId, embed, clock, checkFaults) == Queued([st.result], st.cmds)
  {
    var st := QueueItem(a, pre, namespace, userId, embed, clock(0), checkFaults(0));
    assert [a][..0] == [];
    assert Queue([a][..0], pre, namespace, userId, embed, clock, checkFaults) == Queued([], []);
    assert [] + st.cmds == st.cmds;
    assert [] + [st.result] == [st.result];
  }
}

=== FILE: memory_store.dfy ===
/** The part of the key/value store the memory pipeline uses, for one
    (namespace, user) pair: the membership set stored at
    `memories:{namespace}:{userId}:ids` and the JSON documents stored at
    `memories:{namespace}:{userId}:{memoryId}`. */
module MemoryStore {
  import opened Wrappers

  /** A memory document. `createdAt` is optional because an update rewrites
      the whole document without it. */
  datatype Doc = Doc(
    id: string,
    text: string,
    embedding: seq<real>,
    namespace: string,
    userId: string,
    createdAt: Option<string>,
    updatedAt: string)

  /** The membership set and the documents of one (namespace, user) pair,
      documents keyed by memory id. */
  datatype Scope = Scope(members: set<string>, docs: map<string, Doc>)

  const EmptyScope := Scope({}, map[])

  /** The whole store: one scope per memory key `memories:{ns}:{user}`; a key
      that is absent reads as an empty scope. */
  type Db = map<string, Scope>

  function ScopeAt(db: Db, key: string): Scope {
    if key in db then db[key] else EmptyScope
  }

  /** What the store holds about one memory id. */
  datatype Slot = Slot(member: bool, doc: Option<Doc>)

  function SlotOf(s: Scope, id: string): Slot {
    Slot(id in s.members, if id in s.docs then Some(s.docs[id]) else None)
  }

  /** A scope is consistent when a document exists exactly when its id is
      in the membership set. */
  predicate Consistent(s: Scope) {
    s.docs.Keys == s.members
  }

  /** One queued store write. */
  datatype Command =
    | JsonSet(id: string, doc: Doc)   // replace the whole document
    | SAdd(id: string)                // add to the membership set
    | SRem(id: string)                // remove from the membership set
    | Del(id: string)                 // delete the document

  function Run(s: Scope, c: Command): (t: Scope)
    ensures SlotOf(t, c.id) == match c
      case JsonSet(_, d) => SlotOf(s, c.id).(doc := Some(d))
      case SAdd(_) => SlotOf(s, c.id).(member := true)
      case SRem(_) => SlotOf(s, c.id).(member := false)
      case Del(_) => SlotOf(s, c.id).(doc := None)
    ensures forall x :: x != c.id ==> SlotOf(t, x) == SlotOf(s, x)
  {
    match c
    case JsonSet(id, d) => s.(docs := s.docs[id := d])
    case SAdd(id) => s.(members := s.members + {id})
    case SRem(id) => s.(members := s.members - {id})
    case Del(id) => s.(docs := s.docs - {id})
  }

  /** The queued writes applied in queue order, as the transaction's `exec`
      does. */
  function Apply(s: Scope, cmds: seq<Command>): Scope
    decreases |cmds|
  {
    if |cmds| == 0 then s else Apply(Run(s, cmds[0]), cmds[1..])
  }

  lemma {:induction false} ApplyConcat(s: Scope, a: seq<Command>, b: seq<Command>)
    ensures Apply(s, a + b) == Apply(Apply(s, a), b)
    decreases |a|
  {
    if |a| > 0 {
      assert (a + b)[0] == a[0];
      assert (a + b)[1..] == a[1..] + b;
      ApplyConcat(Run(s, a[0]), a[1..], b);
    } else {
      assert a + b == b;
    }
  }

  lemma ApplyOne(s: Scope, a: Command)
    ensures Apply(s, [a]) == Run(s, a)
  {
    assert [a][1..] == [];
  }

  lemma ApplyTwo(s: Scope, a: Command, b: Command)
    ensures Apply(s, [a, b]) == Run(Run(s, a), b)
  {
    assert [a, b][1..] == [b];
    ApplyOne(Run(s, a), b);
  }

  /** Writes about other ids leave an id's slot alone. */
  lemma {:induction false} ApplyElsewhere(s: Scope, cmds: seq<Command>, x: string)
    requires forall k :: 0 <= k < |cmds| ==> cmds[k].id != x
    ensures SlotOf(Apply(s, cmds), x) == SlotOf(s, x)
    decreases |cmds|
  {
    if |cmds| > 0 {
      ApplyElsewhere(Run(s, cmds[0]), cmds[1..], x);
    }
  }

  /** How the store answers reads: whether reading the membership set fails,
      the order in which it enumerates the members, and the ids whose
      document read fails. */
  datatype Env = Env(setFault: bool, order: seq<string>, docFaults: set<string>)

  /** `order` lists every member exactly once. */
  ghost predicate Enumerates(order: seq<string>, members: set<string>) {
    && (forall i, j :: 0 <= i < j < |order| ==> order[i] != order[j])
    && (forall x :: x in members <==> x in order)
  }

  /** `envAt(k)` describes how the scope at memory key `k` answers reads. */
  ghost predicate AnswersReads(db: Db, envAt: string -> Env) {
    forall k :: Enumerates(envAt(k).order, ScopeAt(db, k).members)
  }

  /** The document a read of `id` finds: `None` when the read fails or no
      document is stored there. */
  function ReadDoc(s: Scope, env: Env, id: string): Option<Doc> {
    if id in env.docFaults || id !in s.docs then None else Some(s.docs[id])
  }

  /** An enumeration has as many entries as the set has members. */
  lemma {:induction false} EnumerationSize(order: seq<string>, members: set<string>)
    requires Enumerates(order, members)
    ensures |order| == |members|
    decreases |order|
  {
    if |order| > 0 {
      var x := order[0];
      var rest := order[1..];
      assert Enumerates(rest, members - {x}) by {
        forall y
          ensures y in members - {x} <==> y in rest
        {
          if y in rest {
            var k :| 0 <= k < |rest| && rest[k] == y;
            assert order[k + 1] == y;
          }
          if y in members - {x} {
            assert y in order;
            var k :| 0 <= k < |order| && order[k] == y;
            assert k != 0;
            assert rest[k - 1] == y;
          }
        }
      }
      EnumerationSize(rest, members - {x});
    } else {
      assert forall y :: y !in members;
      assert members == {};
    }
  }
}

=== FILE: namespace_actions.dfy ===
/** The namespace actions of the dashboard (src/actions/namespace.ts):
    creating a namespace with its first API key, and selecting the current
    namespace. The session's user id, the random key id, the timestamp, the
    cipher and the point where a store call fails are parameters. */
module NamespaceActions {
  import opened Wrappers
  import opened Text
  import opened Encoding
  import opened Accounts
  import opened ApiAuth
  import opened NamespaceData

  const UnauthorizedAccess := "Unauthorized access."
  const NullNameError := "Expected string, received null"
  const TooShortError := "Name must be at least 3 characters long."
  const TooLongError := "Name must be 50 characters or less."
  const DuplicateError := "Namespace with this name already exists."
  const UnexpectedError := "An unexpected error occurred. Please try again."
  const CreatedMessage := "Successfully created namespace."

  /** The form field checked against `CreateNamespaceSchema`: a string of 3
      to 50 characters (`None` is a missing field). */
  function ValidateName(raw: Option<string>): (r: Result<string, string>)
    ensures r.Ok? <==> raw.Some? && 3 <= |raw.value| <= 50
    ensures r.Ok? ==> r.value == raw.value
    ensures raw.None? ==> r == Err(NullNameError)
    ensures raw.Some? && |raw.value| < 3 ==> r == Err(TooShortError)
    ensures raw.Some? && |raw.value| > 50 ==> r == Err(TooLongError)
  {
    match raw
    case None => Err(NullNameError)
    case Some(name) =>
      if |name| < 3 then Err(TooShortError)
      else if |name| > 50 then Err(TooLongError)
      else Ok(name)
  }

  predicate IsUpper(c: char) {
    'A' <= c <= 'Z'
  }

  function LowerChar(c: char): (d: char)
    ensures !IsUpper(d)
    ensures !IsUpper(c) ==> d == c
    ensures IsSpace(d) <==> IsSpace(c)
  {
    if IsUpper(c) then (c as int + 32) as char else c
  }

  /** `toLowerCase` on the letters A to Z. */
  function Lower(s: string): (r: string)
    ensures |r| == |s| && forall i :: 0 <= i < |s| ==> r[i] == LowerChar(s[i])
  {
    seq(|s|, i requires 0 <= i < |s| => LowerChar(s[i]))
  }

  /** `replace(/\s+/g, "-")`: every maximal run of white space becomes one
      hyphen. */
  function Hyphenate(s: string): (r: string)
    ensures |r| <= |s| && (|s| > 0 ==> |r| > 0)
    ensures forall i :: 0 <= i < |r| ==> !IsSpace(r[i])
    ensures NoUpper(s) ==> NoUpper(r)
  {
    HyphenateFrom(s, false)
  }

  /** The replacement scanning `s`, where `inRun` says whether the
      characters just before `s` were white space already replaced. */
  function HyphenateFrom(s: string, inRun: bool): (r: string)
    ensures |r| <= |s| && (|s| > 0 && !inRun ==> |r| > 0)
    ensures forall i :: 0 <= i < |r| ==> !IsSpace(r[i])
    ensures NoUpper(s) ==> NoUpper(r)
    decreases |s|
  {
    if |s| == 0 then ""
    else
      assert NoUpper(s) ==> NoUpper(s[1..]) by {
        if NoUpper(s) {
          forall i | 0 <= i < |s[1..]|
            ensures !IsUpper(s[1..][i])
          {
            assert s[1..][i] == s[i + 1];
          }
        }
      }
      if IsSpace(s[0]) then
        (if inRun then "" else "-") + HyphenateFrom(s[1..], true)
      else [s[0]] + HyphenateFrom(s[1..], false)
  }

  predicate NoUpper(s: string) {
    forall i :: 0 <= i < |s| ==> !IsUpper(s[i])
  }

  /** The namespace slug: the name lower-cased, each run of white space
      replaced by one hyphen. */
  function Slug(name: string): (r: string)
    ensures |r| <= |name| && (|name| > 0 ==> |r| > 0)
    ensures forall i :: 0 <= i < |r| ==> !IsSpace(r[i]) && !IsUpper(r[i])
  {
    Hyphenate(Lower(name))
  }

  /** A string without white space is left as it is by the replacement. */
  lemma {:induction false} HyphenateNoSpace(s: string, inRun: bool)
    requires forall i :: 0 <= i < |s| ==> !IsSpace(s[i])
    ensures HyphenateFrom(s, inRun) == s
    decreases |s|
  {
    if |s| > 0 {
      HyphenateNoSpace(s[1..], false);
      assert [s[0]] + s[1..] == s;
    }
  }

  /** The defining property of the replacement: a maximal white-space run
      `w` between two pieces is replaced by exactly one hyphen. */
  lemma HyphenateRun(a: string, w: string, b: string)
    requires |a| == 0 || !IsSpace(a[|a| - 1])
    requires |w| > 0 && IsBlank(w)
    requires |b| == 0 || !IsSpace(b[0])
    ensures Hyphenate(a + w + b) == Hyphenate(a) + "-" + Hyphenate(b)
  {
    RunFrom(a, w, b, false);
  }

  lemma {:induction false} RunFrom(a: string, w: string, b: string, inRun: bool)
    requires (|a| == 0 && !inRun) || (|a| > 0 && !IsSpace(a[|a| - 1]))
    requires |w| > 0 && IsBlank(w)
    requires |b| == 0 || !IsSpace(b[0])
    ensures HyphenateFrom(a + w + b, inRun) == HyphenateFrom(a, inRun) + "-" + HyphenateFrom(b, false)
    decreases |a|
  {
    var s := a + w + b;
    if |a| == 0 {
      assert s == w + b;
      assert s[1..] == w[1..] + b;
      SkipBlank(w[1..], b);
      assert HyphenateFrom(a, inRun) == "";
    } else {
      assert s[0] == a[0];
      assert s[1..] == a[1..] + w + b;
      var lead := if IsSpace(a[0]) then (if inRun then "" else "-") else [a[0]];
      var f := IsSpace(a[0]);
      RunFrom(a[1..], w, b, f);
      assert HyphenateFrom(s, inRun) == lead + HyphenateFrom(a[1..] + w + b, f);
      assert HyphenateFrom(a, inRun) == lead + HyphenateFrom(a[1..], f);
      Regroup(lead, HyphenateFrom(a[1..], f), HyphenateFrom(b, false));
    }
  }

  /** Inside a run, more white space adds nothing, and the run ends at
      the first other character. */
  lemma {:induction false} SkipBlank(w: string, b: string)
    requires IsBlank(w)
    requires |b| == 0 || !IsSpace(b[0])
    ensures HyphenateFrom(w + b, true) == HyphenateFrom(b, false)
    decreases |w|
  {
    if |w| > 0 {
      assert (w + b)[0] == w[0];
      assert (w + b)[1..] == w[1..] + b;
      SkipBlank(w[1..], b);
    } else {
      assert w + b == b;
    }
  }

  lemma Regroup(p: string, x: string, y: string)
    ensures (p + x) + "-" + y == p + (x + "-" + y)
  {
  }

  /** Slugging a slug changes nothing. */
  lemma SlugIdempotent(name: string)
    ensures Slug(Slug(name)) == Slug(name)
  {
    var s := Slug(name);
    assert Lower(s) == s;
    HyphenateNoSpace(s, false);
  }

  /** The alphabet of the random key id: `A-Za-z0-9_-`. */
  predicate IsKeyIdChar(c: char) {
    ('A' <= c <= 'Z') || ('a' <= c <= 'z') || ('0' <= c <= '9') || c == '_' || c == '-'
  }

  /** `nanoid(32)`: 32 characters of that alphabet. */
  predicate IsKeyId(id: string) {
    |id| == 32 && forall i :: 0 <= i < |id| ==> IsKeyIdChar(id[i])
  }

  /** The plain API key built from a key id. */
  function PlainKey(id: string): (k: string)
    ensures StartsWith(k, "key_") && k[4..] == id
    ensures IsKeyId(id) ==> IsAscii(k) && |k| == 36
  {
    "key_" + id
  }

  /** `CreateState`: an error, or the new key, the namespace and a message. */
  datatype CreateState = CreateState(error: Option<string>, newApiKey: Option<string>, namespace: Option<string>, message: Option<string>)

  function Failure(e: string): CreateState {
    CreateState(Some(e), None, None, None)
  }

  datatype Created = Created(state: CreateState, store: Store)

  /** Where the store and cipher calls of `createNamespace` break off: the
      read of the user record, the transaction that writes the record and
      the key index (taken as all or nothing), or the encryption and write
      of the plain key that follow it. */
  datatype CreateFault = CreateRuns | CreateReadFails | CreateCommitFails | CreatePlainKeyFails

  /** The checks of `createNamespace` pass: a signed-in user, a valid name,
      and no namespace of that slug yet. */
  predicate CreateAllowed(st: Store, user: Option<string>, rawName: Option<string>) {
    SignedIn(user) && ValidateName(rawName).Ok? && !HasName(UserDataOf(st, user.value).namespaces, Slug(rawName.value))
  }

  /** `after` is `st` with the transaction of `createNamespace` committed:
      the namespace appended to the user's record and selected when it is
      the first, and its key hash indexed under the user; no other record
      changes. */
  ghost predicate CreateCommitted(st: Store, after: Store, u: string, slug: string, h: string, createdAt: string) {
    var d := UserDataOf(st, u);
    && u in after.users
    && after.users[u].namespaces == d.namespaces + [Namespace(slug, h, createdAt)]
    && after.users[u].current == (if |d.namespaces| == 0 then Some(slug) else d.current)
    && after.apiKeys == st.apiKeys[h := u]
    && after.users.Keys == st.users.Keys + {u}
    && (forall v :: v in st.users && v != u ==> after.users[v] == st.users[v])
  }

  /** `createNamespace`. A call that throws after the transaction leaves
      the transaction's writes in place. */
  function CreateNamespace(st: Store, user: Option<string>, rawName: Option<string>, keyId: string, createdAt: string,
                           enc: Base64, encrypt: string -> string, fault: CreateFault): (r: Created)
    ensures !SignedIn(user) ==> r == Created(Failure(UnauthorizedAccess), st)
    ensures SignedIn(user) && ValidateName(rawName).Err? ==> r == Created(Failure(ValidateName(rawName).error), st)
    ensures SignedIn(user) && ValidateName(rawName).Ok? && fault == CreateReadFails ==> r == Created(Failure(UnexpectedError), st)
    ensures SignedIn(user) && ValidateName(rawName).Ok? && fault != CreateReadFails
         && HasName(UserDataOf(st, user.value).namespaces, Slug(rawName.value))
      ==> r == Created(Failure(DuplicateError), st)
    ensures CreateAllowed(st, user, rawName) && fault == CreateCommitFails ==> r == Created(Failure(UnexpectedError), st)
    ensures CreateAllowed(st, user, rawName) && fault == CreatePlainKeyFails ==>
      && r.state == Failure(UnexpectedError)
      && CreateCommitted(st, r.store, user.value, Slug(rawName.value), BufferHash(enc, PlainKey(keyId)), createdAt)
      && r.store.plainKeys == st.plainKeys
    ensures r.state.error.None? <==> CreateAllowed(st, user, rawName) && fault == CreateRuns
    ensures r.state.error.None? ==>
      var u, slug, plain := user.value, Slug(rawName.value), PlainKey(keyId);
      && r.state == CreateState(None, Some(plain), Some(slug), Some(CreatedMessage))
      && CreateCommitted(st, r.store, u, slug, BufferHash(enc, plain), createdAt)
      && r.store.plainKeys == st.plainKeys[(u, slug) := encrypt(plain)]
    ensures !CreateAllowed(st, user, rawName) || fault == CreateReadFails || fault == CreateCommitFails ==> r.store == st
  {
    if !SignedIn(user) then Created(Failure(UnauthorizedAccess), st)
    else
      match ValidateName(rawName)
      case Err(e) => Created(Failure(e), st)
      case Ok(name) =>
        var u := user.value;
        var slug := Slug(name);
        if fault == CreateReadFails then Created(Failure(UnexpectedError), st)
        else
          var d := UserDataOf(st, u);
          if HasName(d.namespaces, slug) then Created(Failure(DuplicateError), st)
          else if fault == CreateCommitFails then Created(Failure(UnexpectedError), st)
          else
            var plain := PlainKey(keyId);
            var h := BufferHash(enc, plain);
            var nss := d.namespaces + [Namespace(slug, h, createdAt)];
            var d' := UserData(nss, if |nss| == 1 then Some(slug) else d.current);
            var committed := st.(users := st.users[u := d'], apiKeys := st.apiKeys[h := u]);
            if fault == CreatePlainKeyFails then Created(Failure(UnexpectedError), committed)
            else assert fault.CreateRuns?; Created(CreateState(None, Some(plain), Some(slug), Some(CreatedMessage)),
                         committed.(plainKeys := st.plainKeys[(u, slug) := encrypt(plain)]))
  }

  /** A failure after the transaction reports an error, yet the namespace
      exists: creating it again is refused as a duplicate. */
  lemma CreateLateFailureBlocksRetry(st: Store, user: Option<string>, rawName: Option<string>, keyId: string, keyId2: string,
                                     createdAt: string, enc: Base64, encrypt: string -> string)
    requires CreateAllowed(st, user, rawName)
    ensures var r := CreateNamespace(st, user, rawName, keyId, createdAt, enc, encrypt, CreatePlainKeyFails);
      && r.state.error == Some(UnexpectedError)
      && CreateNamespace(r.store, user, rawName, keyId2, createdAt, enc, encrypt, CreateRuns)
         == Created(Failure(DuplicateError), r.store)
  {
    var r := CreateNamespace(st, user, rawName, keyId, createdAt, enc, encrypt, CreatePlainKeyFails);
    var nss := UserDataOf(r.store, user.value).namespaces;
    assert nss[|nss| - 1].name == Slug(rawName.value);
  }

  /** The duplicate check keeps every developer's namespace names unique. */
  lemma CreatePreservesDistinctNames(st: Store, user: Option<string>, rawName: Option<string>, keyId: string, createdAt: string,
                                     enc: Base64, encrypt: string -> string, fault: CreateFault)
    requires DistinctNames(st)
    ensures DistinctNames(CreateNamespace(st, user, rawName, keyId, createdAt, enc, encrypt, fault).store)
  {
    var r := CreateNamespace(st, user, rawName, keyId, createdAt, enc, encrypt, fault);
    if CreateAllowed(st, user, rawName) && (fault == CreateRuns || fault == CreatePlainKeyFails) {
      var u := user.value;
      var nss := UserDataOf(st, u).namespaces;
      var slug := Slug(rawName.value);
      assert UniqueNames(nss);
      assert forall j :: 0 <= j < |nss| ==> nss[j].name != slug;
      var nss' := r.store.users[u].namespaces;
      assert UniqueNames(nss') by {
        forall i, j | 0 <= i < j < |nss'|
          ensures nss'[i].name != nss'[j].name
        {
          if j < |nss| { assert nss'[i] == nss[i] && nss'[j] == nss[j]; }
          else { assert nss'[i] == nss[i]; }
        }
      }
    }
  }

  /** A new key whose hash the index does not know yet keeps the index
      complete. */
  lemma CreatePreservesIndexed(st: Store, user: Option<string>, rawName: Option<string>, keyId: string, createdAt: string,
                               enc: Base64, encrypt: string -> string, fault: CreateFault)
    requires Indexed(st)
    requires BufferHash(enc, PlainKey(keyId)) !in st.apiKeys
    ensures Indexed(CreateNamespace(st, user, rawName, keyId, createdAt, enc, encrypt, fault).store)
  {
    var r := CreateNamespace(st, user, rawName, keyId, createdAt, enc, encrypt, fault);
    if CreateAllowed(st, user, rawName) && (fault == CreateRuns || fault == CreatePlainKeyFails) {
      var u := user.value;
      var h := BufferHash(enc, PlainKey(keyId));
      var d := UserDataOf(st, u);
      forall v, j | v in r.store.users && 0 <= j < |r.store.users[v].namespaces|
        ensures r.store.users[v].namespaces[j].apiKey in r.store.apiKeys
        ensures r.store.apiKeys[r.store.users[v].namespaces[j].apiKey] == v
      {
        var k := r.store.users[v].namespaces[j].apiKey;
        if v == u {
          if j < |d.namespaces| {
            assert k == d.namespaces[j].apiKey;
            assert u in st.users;
            assert k != h;
          }
        } else {
          assert r.store.users[v] == st.users[v];
          assert k in st.apiKeys && k != h;
        }
      }
    }
  }

  /** Creation keeps every stored selection listed: the new namespace is
      selected only when it is the first, and nothing is removed. */
  lemma CreateKeepsSelectionListed(st: Store, user: Option<string>, rawName: Option<string>, keyId: string, createdAt: string,
                                   enc: Base64, encrypt: string -> string, fault: CreateFault)
    requires SelectionListed(st)
    ensures SelectionListed(CreateNamespace(st, user, rawName, keyId, createdAt, enc, encrypt, fault).store)
  {
    var r := CreateNamespace(st, user, rawName, keyId, createdAt, enc, encrypt, fault);
    if CreateAllowed(st, user, rawName) && (fault == CreateRuns || fault == CreatePlainKeyFails) {
      var u := user.value;
      var d := UserDataOf(st, u);
      var nss := r.store.users[u].namespaces;
      var c := r.store.users[u].current;
      if c.Some? && c.value != "" {
        if |d.namespaces| == 0 {
          assert nss[0].name == c.value;
        } else {
          assert u in st.users;
          var j :| 0 <= j < |d.namespaces| && d.namespaces[j].name == c.value;
          assert nss[j] == d.namespaces[j];
        }
      }
      forall v | v in r.store.users && r.store.users[v].current.Some? && r.store.users[v].current.value != ""
        ensures HasName(r.store.users[v].namespaces, r.store.users[v].current.value)
      {
        if v != u { assert v in st.users; }
      }
    }
  }

  /** The key a successful create hands out authenticates, for the new
      namespace and its owner, when the index did not know its hash. */
  lemma CreateThenAuthenticate(st: Store, user: Option<string>, rawName: Option<string>, keyId: string, createdAt: string,
                               enc: Base64, encrypt: string -> string)
    requires Indexed(st) && IsKeyId(keyId)
    requires BufferHash(enc, PlainKey(keyId)) !in st.apiKeys
    requires CreateNamespace(st, user, rawName, keyId, createdAt, enc, encrypt, CreateRuns).state.error.None?
    ensures var r := CreateNamespace(st, user, rawName, keyId, createdAt, enc, encrypt, CreateRuns);
      HandleApiAuth(r.store, enc, r.state.newApiKey.value, false) == AuthOk(r.state.namespace.value, user.value)
  {
    var r := CreateNamespace(st, user, rawName, keyId, createdAt, enc, encrypt, CreateRuns);
    var u := user.value;
    var plain := PlainKey(keyId);
    var h := BufferHash(enc, plain);
    var d := UserDataOf(st, u);
    AsciiHashesAgree(enc, plain);
    FreshHashUnused(st, u, h);
    var nss := r.store.users[u].namespaces;
    assert forall j :: 0 <= j < |d.namespaces| ==> nss[j].apiKey != h;
    assert nss[|d.namespaces|].apiKey == h;
    assert IndexOfKey(nss, h) == |d.namespaces|;
  }

  /** The first namespace created becomes the current one. */
  lemma FirstCreatedIsCurrent(st: Store, user: Option<string>, rawName: Option<string>, keyId: string, createdAt: string,
                              enc: Base64, encrypt: string -> string)
    requires SignedIn(user) && UserDataOf(st, user.value).namespaces == []
    requires CreateNamespace(st, user, rawName, keyId, createdAt, enc, encrypt, CreateRuns).state.error.None?
    ensures var r := CreateNamespace(st, user, rawName, keyId, createdAt, enc, encrypt, CreateRuns);
      GetCurrentNamespace(r.store, user, false) == r.state.namespace
  {
    var slug := Slug(rawName.value);
    assert |slug| > 0;
  }

  /** `setCurrentNamespace`: select a namespace the user has; report
      whether it was selected. */
  function SetCurrentNamespace(st: Store, user: Option<string>, name: string, fault: bool): (r: (bool, Store))
    ensures r.0 <==> SignedIn(user) && !fault && HasName(UserDataOf(st, user.value).namespaces, name)
    ensures !r.0 ==> r.1 == st
    ensures r.0 ==>
      var d := UserDataOf(st, user.value);
      && r.1.apiKeys == st.apiKeys && r.1.plainKeys == st.plainKeys
      && r.1.users == st.users[user.value := d.(current := Some(name))]
  {
    if !SignedIn(user) || fault then (false, st)
    else
      var d := UserDataOf(st, user.value);
      if !HasName(d.namespaces, name) then (false, st)
      else (true, st.(users := st.users[user.value := d.(current := Some(name))]))
  }

  /** Selecting a namespace the developer has keeps selections listed. */
  lemma SetKeepsSelectionListed(st: Store, user: Option<string>, name: string, fault: bool)
    requires SelectionListed(st)
    ensures SelectionListed(SetCurrentNamespace(st, user, name, fault).1)
  {
    var r := SetCurrentNamespace(st, user, name, fault);
    if r.0 {
      forall v | v in r.1.users && r.1.users[v].current.Some? && r.1.users[v].current.value != ""
        ensures HasName(r.1.users[v].namespaces, r.1.users[v].current.value)
      {
        if v != user.value { assert v in st.users; }
      }
    }
  }

  /** What was selected is what is read back, and the list of namespaces is
      not touched. */
  lemma SetThenGetCurrent(st: Store, user: Option<string>, name: string)
    requires SetCurrentNamespace(st, user, name, false).0 && name != ""
    ensures var st' := SetCurrentNamespace(st, user, name, false).1;
      && GetCurrentNamespace(st', user, false) == Some(name)
      && UserDataOf(st', user.value).namespaces == UserDataOf(st, user.value).namespaces
  {
  }
}

=== FILE: namespace_data.dfy ===
/** Reading the selected namespace (src/data/namespace.ts; the same
    function is repeated in src/actions/namespace.ts). */
module NamespaceData {
  import opened Wrappers
  import opened Accounts

  /** `getCurrentNamespace`: the stored selection when it is truthy, else
      the first namespace's name, else nothing; nothing as well when nobody
      is signed in or the store read fails (`fault`). */
  function GetCurrentNamespace(st: Store, user: Option<string>, fault: bool): (r: Option<string>)
    ensures !SignedIn(user) || fault ==> r.None?
    ensures r.Some? ==>
      var d := UserDataOf(st, user.value);
      r == d.current || (exists j :: 0 <= j < |d.namespaces| && d.namespaces[j].name == r.value)
    ensures SignedIn(user) && !fault ==>
      var d := UserDataOf(st, user.value);
      (r.None? <==> (d.current.None? || d.current.value == "") && |d.namespaces| == 0)
    ensures SignedIn(user) && !fault ==>
      var d := UserDataOf(st, user.value);
      && (d.current.Some? && d.current.value != "" ==> r == d.current)
      && ((d.current.None? || d.current.value == "") && |d.namespaces| > 0 ==> r == Some(d.namespaces[0].name))
  {
    if !SignedIn(user) || fault then None
    else
      var d := UserDataOf(st, user.value);
      if d.current.Some? && d.current.value != "" then d.current
      else if |d.namespaces| > 0 then Some(d.namespaces[0].name)
      else None
  }

  /** Every developer's stored selection, when truthy, names one of their
      namespaces. */
  ghost predicate SelectionListed(st: Store) {
    forall u :: u in st.users && st.users[u].current.Some? && st.users[u].current.value != "" ==>
      HasName(st.users[u].namespaces, st.users[u].current.value)
  }

  /** In a store whose selections are listed, the selection read back names
      one of the developer's namespaces. */
  lemma CurrentIsListed(st: Store, user: Option<string>)
    requires SelectionListed(st)
    ensures var r := GetCurrentNamespace(st, user, false);
      r.Some? ==> HasName(UserDataOf(st, user.value).namespaces, r.value)
  {
    var r := GetCurrentNamespace(st, user, false);
    if r.Some? {
      var d := UserDataOf(st, user.value);
      if !(d.current.Some? && d.current.value != "") {
        assert d.namespaces[0].name == r.value;
      }
    }
  }
}

=== FILE: recall_route.dfy ===
/** The public recall API (src/app/api/v1/recall/route.ts). `POST` takes a
    bearer API key and a conversation, dispatches the memory-processing job
    for it and answers with the memories relevant to its latest message,
    formatted for a prompt. `GET` reports how many memories a user has, or
    rebuilds the vector index. The request body arrives already decoded
    from JSON; the job queue, the index rebuild and the store's failures
    are parameters. */
module RecallRoute {
  import opened Wrappers
  import opened Text
  import opened Encoding
  import opened Accounts
  import opened ApiAuth
  import opened RecallTypes
  import opened MemoryStore
  import opened RedisUtils
  import opened VectorSearch
  import opened MemoryProcessor

  const MissingKeyError := "Unauthorized: Missing API key"
  const InvalidBodyError := "Invalid request body"
  const InternalError := "Internal server error"
  const MissingUserIdError := "Missing userId parameter"
  const RecreateError := "Failed to recreate index"
  const RecreateAction := "recreate-index"

  /** How many memories a recall asks retrieval for. */
  const RecallTopK := 2

  // ---------------------------------------------------------------------
  // Prompt formatting

  const Header := "From recall memories:"
  const Separator := "\n- "

  /** `formatMemoriesForPrompt`: nothing for no memories, otherwise a header
      line followed by one bulleted line per memory. */
  function FormatMemoriesForPrompt(ms: seq<string>): (r: string)
    ensures r == "" <==> |ms| == 0
    ensures |ms| > 0 ==> StartsWith(r, Header + Separator)
  {
    if |ms| == 0 then "" else Header + Separator + Join(ms, Separator)
  }

  /** Reading a formatted block back: drop the header and cut at the
      bullets. */
  function ParseFormatted(s: string): seq<string> {
    if s == "" then [] else Split(s, Separator)[1..]
  }

  /** The separator cannot overlap itself. */
  lemma SeparatorUnbordered()
    ensures Unbordered(Separator)
  {
    assert !HasBorder(Separator, 1) by { assert Separator[1..][0] == '-'; }
    assert !HasBorder(Separator, 2) by { assert Separator[2..][0] == ' '; }
  }

  /** The header holds no bullet: it has no line break. */
  lemma HeaderHasNoSeparator()
    ensures !Contains(Header, Separator)
  {
    AbsentHead(Header, Separator);
  }

  /** A non-empty formatted block is the header joined with the memories. */
  lemma FormatIsJoin(ms: seq<string>)
    requires |ms| > 0
    ensures FormatMemoriesForPrompt(ms) == Join([Header] + ms, Separator)
  {
    assert ([Header] + ms)[1..] == ms;
  }

  /** Formatting loses nothing as long as no memory holds a bullet of its
      own: the memories can be read back in order. */
  lemma ParseFormattedRoundTrip(ms: seq<string>)
    requires forall i :: 0 <= i < |ms| ==> !Contains(ms[i], Separator)
    ensures ParseFormatted(FormatMemoriesForPrompt(ms)) == ms
  {
    if |ms| > 0 {
      var xs := [Header] + ms;
      HeaderHasNoSeparator();
      SeparatorUnbordered();
      assert forall i :: 0 <= i < |xs| ==> !Contains(xs[i], Separator) by {
        forall i | 0 <= i < |xs|
          ensures !Contains(xs[i], Separator)
        {
          if i > 0 { assert xs[i] == ms[i - 1]; }
        }
      }
      FormatIsJoin(ms);
      SplitJoin(xs, Separator);
      assert xs[1..] == ms;
    }
  }

  // ---------------------------------------------------------------------
  // The bearer header

  const BearerPrefix := "Bearer "

  /** The API key of an `Authorization` header, when the header is present
      and starts with `Bearer `; everything after the prefix is the key. */
  function BearerKey(header: Option<string>): (r: Option<string>)
    ensures r.Some? <==> header.Some? && StartsWith(header.value, BearerPrefix)
    ensures r.Some? ==> header.value == BearerPrefix + r.value
  {
    if header.Some? && StartsWith(header.value, BearerPrefix) then Some(header.value[7..]) else None
  }

  /** Any key sent with the prefix is the key read back. */
  lemma BearerRoundTrip(key: string)
    ensures BearerKey(Some(BearerPrefix + key)) == Some(key)
  {
    assert (BearerPrefix + key)[..7] == BearerPrefix;
    assert (BearerPrefix + key)[7..] == key;
  }

  // ---------------------------------------------------------------------
  // Request validation

  /** One message of a decoded body; a field that is missing or not a
      string is `None`. */
  datatype RawMessage = RawMessage(role: Option<string>, content: Option<string>)

  /** A decoded body. A body that is not a JSON object has neither field. */
  datatype RawBody = RawBody(userId: Option<string>, messages: Option<seq<RawMessage>>)

  /** The validated request. */
  datatype RecallRequest = RecallRequest(userId: string, messages: seq<Message>)

  /** The role enumeration `"user" | "assistant" | "system"`. */
  function ParseRole(s: string): (r: Option<Role>)
    ensures forall role :: r == Some(role) <==> RoleName(role) == s
  {
    if s == "user" then Some(User)
    else if s == "assistant" then Some(Assistant)
    else if s == "system" then Some(System)
    else None
  }

  function ParseMessage(m: RawMessage): (r: Option<Message>)
    ensures r.Some? <==> m.role.Some? && ParseRole(m.role.value).Some? && m.content.Some?
    ensures r.Some? ==> r.value == Message(ParseRole(m.role.value).value, m.content.value)
  {
    if m.role.Some? && m.content.Some? then
      match ParseRole(m.role.value)
      case Some(role) => Some(Message(role, m.content.value))
      case None => None
    else None
  }

  /** All messages parse, or the array is rejected. */
  function ParseMessages(ms: seq<RawMessage>): (r: Option<seq<Message>>)
    ensures r.Some? <==> forall i :: 0 <= i < |ms| ==> ParseMessage(ms[i]).Some?
    ensures r.Some? ==> |r.value| == |ms| && forall i :: 0 <= i < |ms| ==> r.value[i] == ParseMessage(ms[i]).value
    decreases |ms|
  {
    if |ms| == 0 then Some([])
    else
      var rest := ParseMessages(ms[1..]);
      assert forall i :: 1 <= i < |ms| ==> ms[i] == ms[1..][i - 1];
      match ParseMessage(ms[0])
      case None => None
      case Some(m) =>
        match rest
        case None => None
        case Some(more) => Some([m] + more)
  }

  /** The wire form of a message. */
  function Encode(m: Message): RawMessage {
    RawMessage(Some(RoleName(m.role)), Some(m.content))
  }

  function EncodeAll(ms: seq<Message>): (r: seq<RawMessage>)
    ensures |r| == |ms| && forall i :: 0 <= i < |ms| ==> r[i] == Encode(ms[i])
  {
    seq(|ms|, i requires 0 <= i < |ms| => Encode(ms[i]))
  }

  /** Every well-typed conversation is read back as itself. */
  lemma ParseEncodedMessages(ms: seq<Message>)
    ensures ParseMessages(EncodeAll(ms)) == Some(ms)
  {
    var raw := EncodeAll(ms);
    forall i | 0 <= i < |ms|
      ensures ParseMessage(raw[i]) == Some(ms[i])
    {
      assert ParseRole(RoleName(ms[i].role)) == Some(ms[i].role);
    }
    var r := ParseMessages(raw);
    assert r.Some?;
    assert r.value == ms;
  }

  /** `recallApiSchema.safeParse`: a string `userId` (the empty string
      included) and at least one well-formed message. */
  function ValidateBody(b: RawBody): (r: Result<RecallRequest, string>)
    ensures r.Ok? <==>
      && b.userId.Some? && b.messages.Some? && |b.messages.value| >= 1
      && ParseMessages(b.messages.value).Some?
    ensures r.Ok? ==> r.value == RecallRequest(b.userId.value, ParseMessages(b.messages.value).value)
    ensures r.Err? ==> r.error == InvalidBodyError
  {
    if b.userId.None? || b.messages.None? || |b.messages.value| < 1 then Err(InvalidBodyError)
    else
      match ParseMessages(b.messages.value)
      case None => Err(InvalidBodyError)
      case Some(ms) => Ok(RecallRequest(b.userId.value, ms))
  }

  /** A body built from a user id and a non-empty conversation validates to
      exactly that request. */
  lemma ValidateEncodedBody(userId: string, ms: seq<Message>)
    requires |ms| >= 1
    ensures ValidateBody(RawBody(Some(userId), Some(EncodeAll(ms)))) == Ok(RecallRequest(userId, ms))
  {
    ParseEncodedMessages(ms);
  }

  // ---------------------------------------------------------------------
  // The handlers

  /** The authentication inputs: the account store, the base64 encoder and
      whether the store client fails. */
  datatype Auth = Auth(st: Store, enc: Base64, fault: bool)

  /** The retrieval inputs: embedder, vector index, the memory store, how
      each scope of it answers reads, and the square root. */
  datatype Memories = Memories(embed: Embedder, index: Index, db: Db, envAt: string -> Env, sqrt: real -> real)

  ghost predicate Sound(m: Memories) {
    PositiveRoots(m.sqrt) && AnswersReads(m.db, m.envAt)
  }

  datatype Response =
    | Recalled(memories: string, namespace: string, userId: string)
    | Status(namespace: string, userId: string, memoryCount: nat)
    | Recreated(namespace: string, userId: string)
    | Failed(status: int, error: string)

  /** A `POST` answer together with the job it dispatched, if any. */
  datatype PostOutcome = PostOutcome(response: Response, dispatched: Option<EventData>)

  /** Authentication as both handlers perform it. */
  function Authenticate(header: Option<string>, a: Auth): (r: Result<string, Response>)
    ensures BearerKey(header).None? ==> r == Err(Failed(401, MissingKeyError))
    ensures BearerKey(header).Some? ==>
      match HandleApiAuth(a.st, a.enc, BearerKey(header).value, a.fault)
      case AuthOk(ns, _) => r == Ok(ns)
      case AuthFail(e, status) => r == Err(Failed(status, e))
  {
    match BearerKey(header)
    case None => Err(Failed(401, MissingKeyError))
    case Some(key) =>
      match HandleApiAuth(a.st, a.enc, key, a.fault)
      case AuthOk(ns, _) => Ok(ns)
      case AuthFail(e, status) => Err(Failed(status, e))
  }

  /** The retrieval a recall performs: the latest message is the query, at
      most two memories are asked for, scoped to the end user. */
  function Recall(ns: string, req: RecallRequest, m: Memories): (r: seq<string>)
    requires Sound(m) && |req.messages| >= 1
    ensures IsBlank(req.messages[|req.messages| - 1].content) ==> r == []
    ensures var p := RecallParams(ns, req);
      forall i :: 0 <= i < |r| ==>
        && r[i] != ""
        && (StoredText(ScopeAt(m.db, MemoryKey(ns, req.userId)), r[i]) || IndexedText(p, m.embed, m.index, r[i]))
    ensures |r| <= RecallTopK || forall i :: 0 <= i < |r| ==> IndexedText(RecallParams(ns, req), m.embed, m.index, r[i])
    ensures r == RetrieveMemories(RecallParams(ns, req), m.embed, m.index, m.db, m.envAt(MemoryKey(ns, req.userId)), m.sqrt)
  {
    var key := MemoryKey(ns, req.userId);
    var p := RecallParams(ns, req);
    assert p.namespace == ns && p.userId == req.userId;
    assert p.query == Some(req.messages[|req.messages| - 1].content);
    RetrievedAreStoredOrIndexed(p, m.embed, m.index, m.db, m.envAt(key), m.sqrt);
    RetrievedFromIndexOrFew(p, m.embed, m.index, m.db, m.envAt(key), m.sqrt);
    RetrieveMemories(p, m.embed, m.index, m.db, m.envAt(key), m.sqrt)
  }

  /** The search a recall asks for: the latest message's content as the
      query and at most `RecallTopK` results. */
  function RecallParams(ns: string, req: RecallRequest): RetrieveParams
    requires |req.messages| >= 1
  {
    RetrieveParams(ns, req.userId, Some(req.messages[|req.messages| - 1].content), Some(RecallTopK))
  }

  /** `POST`. `body` is `None` when the payload is not valid JSON, which
      ends in the catch-all 500; `sendFault` is a failure to enqueue the
      job, which does the same. */
  function Post(header: Option<string>, body: Option<RawBody>, a: Auth, sendFault: bool, m: Memories): (r: PostOutcome)
    requires Sound(m)
    ensures r.dispatched.Some? <==> r.response.Recalled?
    ensures r.response.Failed? ==> r.response.status in {400, 401, 500}
    ensures Authenticate(header, a).Err? ==> r.response == Authenticate(header, a).error
    ensures r.response.Recalled? <==>
      && Authenticate(header, a).Ok? && body.Some? && ValidateBody(body.value).Ok? && !sendFault
    ensures Authenticate(header, a).Ok? && body.Some? && ValidateBody(body.value).Err? ==>
      r.response == Failed(400, InvalidBodyError)
    ensures Authenticate(header, a).Ok? && (body.None? || (ValidateBody(body.value).Ok? && sendFault)) ==>
      r == PostOutcome(Failed(500, InternalError), None)
    ensures r.response.Recalled? ==>
      var ns := Authenticate(header, a).value;
      var req := ValidateBody(body.value).value;
      && r.response == Recalled(FormatMemoriesForPrompt(Recall(ns, req, m)), ns, req.userId)
      && r.dispatched == Some(EventData(Some(req.messages), Some(ns), Some(req.userId)))
  {
    match Authenticate(header, a)
    case Err(resp) =>
      assert resp.Failed? && resp.status in {401, 500};
      PostOutcome(resp, None)
    case Ok(ns) =>
      if body.None? then PostOutcome(Failed(500, InternalError), None)
      else
        match ValidateBody(body.value)
        case Err(e) => PostOutcome(Failed(400, e), None)
        case Ok(req) =>
          if sendFault then PostOutcome(Failed(500, InternalError), None)
          else
            var event := EventData(Some(req.messages), Some(ns), Some(req.userId));
            PostOutcome(Recalled(FormatMemoriesForPrompt(Recall(ns, req, m)), ns, req.userId), Some(event))
  }

  /** The route accepts an empty end-user id, but the job it dispatches
      then fails validation: the job runs exactly when both the namespace
      and the end-user id are non-empty. */
  lemma DispatchedJobValidates(header: Option<string>, body: Option<RawBody>, a: Auth, sendFault: bool, m: Memories)
    requires Sound(m)
    ensures var r := Post(header, body, a, sendFault, m);
      r.dispatched.Some? ==>
        (ValidateInputParameters(r.dispatched.value).Ok? <==>
          r.response.userId != "" && r.response.namespace != "")
  {
  }

  /** A conversation sent with a key whose hash an indexed namespace holds
      is recalled under that developer's namespace, and the bulleted answer
      reads back as the retrieved memories. */
  lemma IndexedKeyRecalls(key: string, userId: string, ms: seq<Message>, a: Auth, m: Memories, owner: string, j: int)
    requires Sound(m) && Indexed(a.st) && !a.fault
    requires owner in a.st.users && owner != "" && 0 <= j < |a.st.users[owner].namespaces|
    requires Btoa(a.enc, key) == Some(a.st.users[owner].namespaces[j].apiKey)
    requires |ms| >= 1
    ensures var r := Post(Some(BearerPrefix + key), Some(RawBody(Some(userId), Some(EncodeAll(ms)))), a, false, m);
      && r.response.Recalled?
      && r.response.userId == userId
      && (exists i :: 0 <= i <= j && a.st.users[owner].namespaces[i].name == r.response.namespace)
      && r.dispatched == Some(EventData(Some(ms), Some(r.response.namespace), Some(userId)))
      && ((forall i :: 0 <= i < |Recall(r.response.namespace, RecallRequest(userId, ms), m)| ==>
             !Contains(Recall(r.response.namespace, RecallRequest(userId, ms), m)[i], Separator))
          ==> ParseFormatted(r.response.memories) == Recall(r.response.namespace, RecallRequest(userId, ms), m))
  {
    BearerRoundTrip(key);
    IndexedStoreAuthenticates(a.st, a.enc, key, owner, j);
    ValidateEncodedBody(userId, ms);
    var r := Post(Some(BearerPrefix + key), Some(RawBody(Some(userId), Some(EncodeAll(ms)))), a, false, m);
    var found := Recall(r.response.namespace, RecallRequest(userId, ms), m);
    if forall i :: 0 <= i < |found| ==> !Contains(found[i], Separator) {
      ParseFormattedRoundTrip(found);
    }
  }

  /** `GET`. A missing or empty `userId` is rejected; the `recreate-index`
      action rebuilds the index (`recreateFault` is its failure); any other
      request reports the user's memory count. */
  function Get(header: Option<string>, userId: Option<string>, action: Option<string>, a: Auth,
               recreateFault: bool, db: Db, envAt: string -> Env): (r: Response)
    requires AnswersReads(db, envAt)
    ensures Authenticate(header, a).Err? ==> r == Authenticate(header, a).error
    ensures Authenticate(header, a).Ok? && (userId.None? || userId.value == "") ==>
      r == Failed(400, MissingUserIdError)
    ensures r.Recreated? <==>
      Authenticate(header, a).Ok? && userId.Some? && userId.value != "" && action == Some(RecreateAction) && !recreateFault
    ensures r.Recreated? ==> r == Recreated(Authenticate(header, a).value, userId.value)
    ensures Authenticate(header, a).Ok? && userId.Some? && userId.value != "" && action == Some(RecreateAction) && recreateFault ==>
      r == Failed(500, RecreateError)
    ensures r.Status? <==>
      Authenticate(header, a).Ok? && userId.Some? && userId.value != "" && action != Some(RecreateAction)
    ensures r.Status? ==>
      var key := MemoryKey(r.namespace, r.userId);
      && r.namespace == Authenticate(header, a).value && r.userId == userId.value
      && (envAt(key).setFault ==> r.memoryCount == 0)
      && (!envAt(key).setFault ==> r.memoryCount == |ScopeAt(db, key).members|)
  {
    match Authenticate(header, a)
    case Err(resp) => resp
    case Ok(ns) =>
      if userId.None? || userId.value == "" then Failed(400, MissingUserIdError)
      else if action == Some(RecreateAction) then
        if recreateFault then Failed(500, RecreateError) else Recreated(ns, userId.value)
      else
        var key := MemoryKey(ns, userId.value);
        Status(ns, userId.value, DebugMemoryCount(ScopeAt(db, key), envAt(key)))
  }

  /** Both handlers reject a request at the same authentication step with
      the same answer. */
  lemma HandlersShareAuthentication(header: Option<string>, body: Option<RawBody>, userId: Option<string>,
                                    action: Option<string>, a: Auth, sendFault: bool, m: Memories, recreateFault: bool)
    requires Sound(m)
    requires Authenticate(header, a).Err?
    ensures Post(header, body, a, sendFault, m).response == Get(header, userId, action, a, recreateFault, m.db, m.envAt)
  {
  }
}

=== FILE: recall_types.dfy ===
/** The records the memory pipeline passes between its stages
    (src/types/recall.ts and the validation schemas of src/lib/recall/schemas.ts). */
module RecallTypes {
  import opened Wrappers

  /** The four decisions reconciliation can take about one memory. */
  datatype Event = ADD | UPDATE | DELETE | NONE

  /** The speaker of one conversation turn. */
  datatype Role = User | Assistant | System

  /** The wire name of a role, as it appears in requests and transcripts. */
  function RoleName(r: Role): string {
    match r
    case User => "user"
    case Assistant => "assistant"
    case System => "system"
  }

  /** One turn of a conversation. */
  datatype Message = Message(role: Role, content: string)

  /** One item of a reconciliation plan: the memory `id`, its (new) `text`,
      the decision taken, and optionally the text it replaces. */
  datatype MemoryUpdateItem = MemoryUpdateItem(id: string, text: string, event: Event, oldMemory: Option<string>)

  /** The outcome of persisting one plan item. */
  datatype OperationResult = OperationResult(success: bool, operation: Event, memoryId: string, error: Option<string>)

  /** The embedding provider: `None` when the call fails. */
  type Embedder = string -> Option<seq<real>>

  /** A stored memory as handed to reconciliation: id and text only. */
  datatype SimpleMemory = SimpleMemory(id: string, text: string)
}

=== FILE: redis_utils.dfy ===
/** Key layout of the memory store and the listing of a user's memories
    handed to reconciliation (src/lib/recall/redis-utils.ts). */
module RedisUtils {
  import opened Wrappers
  import opened RecallTypes
  import opened MemoryStore
  import opened Filtering

  /** `memories:{namespace}:{userId}`, the prefix of every key of one user. */
  function MemoryKey(namespace: string, userId: string): string {
    "memories:" + namespace + ":" + userId
  }

  /** The key of the membership set. */
  function IdsKey(namespace: string, userId: string): string {
    MemoryKey(namespace, userId) + ":ids"
  }

  /** The key of one memory document. */
  function DocKey(namespace: string, userId: string, id: string): string {
    MemoryKey(namespace, userId) + ":" + id
  }

  const FetchError := "Failed to retrieve existing memories from Redis"

  /** A member whose document can be read and has a non-empty text,
      projected with the id taken from the membership set. */
  function ReadableMemory(s: Scope, env: Env, id: string): Option<SimpleMemory> {
    match ReadDoc(s, env, id)
    case Some(d) => if d.text != "" then Some(SimpleMemory(id, d.text)) else None
    case None => None
  }

  /** The reading step `fetchUserMemories` maps over the enumeration. */
  function Reader(s: Scope, env: Env): string -> Option<SimpleMemory> {
    id => ReadableMemory(s, env, id)
  }

  /** `fetchUserMemories`: list the user's memories in the store's
      enumeration order, skipping members whose document read fails, is
      missing or has no text; a failure to read the set itself is thrown. */
  function FetchUserMemories(s: Scope, env: Env): (r: Result<seq<SimpleMemory>, string>)
    requires Enumerates(env.order, s.members)
    ensures r.Err? <==> env.setFault
    ensures r.Err? ==> r.error == FetchError
    ensures r.Ok? && s.members == {} ==> r.value == []
    ensures r.Ok? ==> |r.value| <= |s.members|
    ensures r.Ok? ==> forall i :: 0 <= i < |r.value| ==>
      var m := r.value[i];
      m.id in s.members && m.id in s.docs && m.id !in env.docFaults
      && m.text == s.docs[m.id].text && m.text != ""
    ensures r.Ok? ==> forall id :: id in s.members && ReadableMemory(s, env, id).Some? ==>
      SimpleMemory(id, s.docs[id].text) in r.value
    ensures r.Ok? ==> forall i, j :: 0 <= i < j < |r.value| ==> r.value[i].id != r.value[j].id
  {
    EnumerationSize(env.order, s.members);
    FilterMapKeepsDistinct(env.order, Reader(s, env), (m: SimpleMemory) => m.id);
    if env.setFault then Err(FetchError)
    else if |env.order| == 0 then Ok([])
    else Ok(FilterMap(env.order, Reader(s, env)))
  }
}

=== FILE: result_processor.dfy ===
/** Summaries of a persisted batch and the job's result records
    (src/lib/recall/result-processor.ts). */
module ResultProcessor {
  import opened Wrappers
  import opened RecallTypes

  /** The items of `rs` whose `success` flag is `flag`, in order: the
      source's `results.filter(r => r.success)` and its negation. */
  function Where(rs: seq<OperationResult>, flag: bool): (r: seq<OperationResult>)
    ensures |r| <= |rs|
    ensures forall i :: 0 <= i < |r| ==> r[i].success == flag
    decreases |rs|
  {
    if |rs| == 0 then []
    else
      var rest := Where(rs[1..], flag);
      (if rs[0].success == flag then [rs[0]] else []) + rest
  }

  /** The successes and the failures split the batch: nothing is counted
      twice and nothing is lost. */
  lemma {:induction false} WherePartitions(rs: seq<OperationResult>)
    ensures multiset(Where(rs, true)) + multiset(Where(rs, false)) == multiset(rs)
    decreases |rs|
  {
    if |rs| > 0 {
      var head := rs[0];
      var tail := rs[1..];
      WherePartitions(tail);
      assert rs == [head] + tail;
      assert multiset(rs) == multiset{head} + multiset(tail);
      if head.success {
        assert Where(rs, true) == [head] + Where(tail, true);
        assert Where(rs, false) == Where(tail, false);
        assert multiset(Where(rs, true)) == multiset{head} + multiset(Where(tail, true));
      } else {
        assert Where(rs, true) == Where(tail, true);
        assert Where(rs, false) == [head] + Where(tail, false);
        assert multiset(Where(rs, false)) == multiset{head} + multiset(Where(tail, false));
      }
    }
  }

  /** So the two counts add up to the batch size. */
  lemma WhereLengths(rs: seq<OperationResult>)
    ensures |Where(rs, true)| + |Where(rs, false)| == |rs|
  {
    WherePartitions(rs);
    assert |multiset(Where(rs, true)) + multiset(Where(rs, false))| == |multiset(rs)|;
  }

  /** A batch without failures counts every item as successful. */
  lemma {:induction false} AllSucceeded(rs: seq<OperationResult>)
    requires forall i :: 0 <= i < |rs| ==> rs[i].success
    ensures |Where(rs, true)| == |rs|
    decreases |rs|
  {
    if |rs| > 0 {
      AllSucceeded(rs[1..]);
    }
  }

  /** The number of results of one kind: the reference the tally is
      compared against. */
  function KindCount(rs: seq<OperationResult>, e: Event): nat
    decreases |rs|
  {
    if |rs| == 0 then 0
    else (if rs[0].operation == e then 1 else 0) + KindCount(rs[1..], e)
  }

  /** Every result has one of the four kinds. */
  lemma {:induction false} KindCountsSum(rs: seq<OperationResult>)
    ensures KindCount(rs, ADD) + KindCount(rs, UPDATE) + KindCount(rs, DELETE) + KindCount(rs, NONE) == |rs|
    decreases |rs|
  {
    if |rs| > 0 {
      KindCountsSum(rs[1..]);
    }
  }

  /** The count a tally holds for one kind; a kind that is not a key counts
      as 0, as `acc[op] || 0` reads it. */
  function CountOf(m: map<Event, nat>, e: Event): nat {
    if e in m then m[e] else 0
  }

  /** One step of the source's `reduce`. */
  function Tally(acc: map<Event, nat>, r: OperationResult): map<Event, nat> {
    acc[r.operation := CountOf(acc, r.operation) + 1]
  }

  function TallyAll(acc: map<Event, nat>, rs: seq<OperationResult>): map<Event, nat>
    decreases |rs|
  {
    if |rs| == 0 then acc else TallyAll(Tally(acc, rs[0]), rs[1..])
  }

  /** Folding the tally adds the batch's per-kind counts to the starting
      counts, and creates exactly the keys of the kinds that occur. */
  lemma {:induction false} TallyAllCounts(acc: map<Event, nat>, rs: seq<OperationResult>, e: Event)
    ensures CountOf(TallyAll(acc, rs), e) == CountOf(acc, e) + KindCount(rs, e)
    ensures e in TallyAll(acc, rs) <==> e in acc || KindCount(rs, e) > 0
    decreases |rs|
  {
    if |rs| > 0 {
      TallyAllCounts(Tally(acc, rs[0]), rs[1..], e);
    }
  }

  /** `operationCounts`: a key for exactly the kinds present, each holding
      how many results have that kind. */
  function OperationCounts(rs: seq<OperationResult>): (m: map<Event, nat>)
    ensures forall e :: e in m <==> KindCount(rs, e) > 0
    ensures forall e :: CountOf(m, e) == KindCount(rs, e)
  {
    TallyFromEmpty(rs);
    TallyAll(map[], rs)
  }

  lemma TallyFromEmpty(rs: seq<OperationResult>)
    ensures forall e ::
      && (e in TallyAll(map[], rs) <==> KindCount(rs, e) > 0)
      && CountOf(TallyAll(map[], rs), e) == KindCount(rs, e)
  {
    forall e
      ensures (e in TallyAll(map[], rs) <==> KindCount(rs, e) > 0)
        && CountOf(TallyAll(map[], rs), e) == KindCount(rs, e)
    {
      TallyAllCounts(map[], rs, e);
    }
  }

  /** The summary of a persisted batch. */
  datatype Summary = Summary(total: nat, successful: nat, failed: nat, operations: map<Event, nat>)

  /** `processPersistenceResults`' return value. */
  datatype Processed = Processed(results: seq<OperationResult>, summary: Summary)

  /** `processPersistenceResults`: the results returned as they came, with
      their counts. */
  function ProcessPersistenceResults(rs: seq<OperationResult>): (p: Processed)
    ensures p.results == rs
    ensures p.summary.total == |rs|
    ensures p.summary.successful + p.summary.failed == p.summary.total
    ensures p.summary.successful == |Where(rs, true)| && p.summary.failed == |Where(rs, false)|
    ensures var ops := p.summary.operations;
      CountOf(ops, ADD) + CountOf(ops, UPDATE) + CountOf(ops, DELETE) + CountOf(ops, NONE) == p.summary.total
    ensures forall e :: e in p.summary.operations ==> p.summary.operations[e] >= 1
    ensures forall e :: e in p.summary.operations <==> exists i :: 0 <= i < |rs| && rs[i].operation == e
  {
    WhereLengths(rs);
    KindCountsSum(rs);
    KindsPresent(rs);
    Processed(rs, Summary(|rs|, |Where(rs, true)|, |Where(rs, false)|, OperationCounts(rs)))
  }

  lemma KindsPresent(rs: seq<OperationResult>)
    ensures forall e :: KindCount(rs, e) > 0 <==> exists i :: 0 <= i < |rs| && rs[i].operation == e
  {
    forall e
      ensures KindCount(rs, e) > 0 <==> exists i :: 0 <= i < |rs| && rs[i].operation == e
    {
      KindCountPositive(rs, e);
    }
  }

  lemma {:induction false} KindCountPositive(rs: seq<OperationResult>, e: Event)
    ensures KindCount(rs, e) > 0 <==> exists i :: 0 <= i < |rs| && rs[i].operation == e
    decreases |rs|
  {
    if |rs| > 0 {
      KindCountPositive(rs[1..], e);
      if KindCount(rs[1..], e) > 0 {
        var i :| 0 <= i < |rs[1..]| && rs[1..][i].operation == e;
        assert rs[i + 1].operation == e;
      }
      if exists i :: 0 <= i < |rs| && rs[i].operation == e {
        var i :| 0 <= i < |rs| && rs[i].operation == e;
        if i > 0 {
          assert rs[1..][i - 1].operation == e;
        }
      }
    }
  }

  datatype Status = Complete | Error

  /** What the job reports about the facts and plan it worked on. */
  datatype Details = Details(extractedFacts: seq<string>, memoryOperations: nat, persistenceResults: Summary)

  /** `ProcessMemoryResult`. */
  datatype ProcessMemoryResult = ProcessMemoryResult(
    status: Status,
    factsProcessed: nat,
    memoriesChanged: nat,
    operationsSummary: Option<map<Event, nat>>,
    reason: Option<string>,
    details: Option<Details>)

  const NoFactsReason := "No new facts found."

  /** `createProcessingResult`: a completed result carrying its arguments
      unchanged and no reason. */
  function CreateProcessingResult(factsProcessed: nat, memoriesChanged: nat, operationsSummary: map<Event, nat>,
                                  details: Details): (r: ProcessMemoryResult)
    ensures r.status == Complete && r.reason.None?
    ensures r.factsProcessed == factsProcessed && r.memoriesChanged == memoriesChanged
    ensures r.operationsSummary == Some(operationsSummary) && r.details == Some(details)
  {
    ProcessMemoryResult(Complete, factsProcessed, memoriesChanged, Some(operationsSummary), None, Some(details))
  }

  /** `createNoFactsResult`: a completed result that did nothing, saying
      why. */
  function CreateNoFactsResult(): (r: ProcessMemoryResult)
    ensures r.status == Complete && r.factsProcessed == 0 && r.memoriesChanged == 0
    ensures r.reason == Some(NoFactsReason)
    ensures r.operationsSummary.None? && r.details.None?
  {
    ProcessMemoryResult(Complete, 0, 0, None, Some(NoFactsReason), None)
  }
}

=== FILE: text.dfy ===
/** The JavaScript string operations the source relies on, stated over
    `seq<char>`: `startsWith`, `includes`, `split` and `join` with a string
    separator, `replace` with a string pattern, `trim`, and the `\s` class. */
module Text {

  predicate StartsWith(s: string, prefix: string) {
    |prefix| <= |s| && s[..|prefix|] == prefix
  }

  /** `s.includes(p)`, written so that it unfolds one position at a time. */
  predicate Contains(s: string, p: string)
    decreases |s|
  {
    |p| <= |s| && (StartsWith(s, p) || (|s| > 0 && Contains(s[1..], p)))
  }

  /** `p` occurs in `s` at position `i`. */
  predicate OccursAt(s: string, p: string, i: int) {
    0 <= i && i + |p| <= |s| && s[i..i + |p|] == p
  }

  /** A one-character pattern occurs exactly when its character does. */
  lemma {:induction false} ContainsChar(s: string, c: char)
    ensures Contains(s, [c]) <==> c in s
    decreases |s|
  {
    if |s| > 0 {
      ContainsChar(s[1..], c);
      assert s == [s[0]] + s[1..];
    }
  }

  /** A string holding a pattern holds the pattern's first character. */
  lemma HeadOccurs(s: string, p: string)
    requires |p| > 0
    ensures Contains(s, p) ==> p[0] in s
  {
    ContainsIffOccurs(s, p);
    if Contains(s, p) {
      var i :| OccursAt(s, p, i);
      assert s[i] == s[i..i + |p|][0];
    }
  }

  /** A pattern whose first character is absent does not occur. */
  lemma AbsentHead(s: string, p: string)
    requires |p| > 0 && p[0] !in s
    ensures !Contains(s, p)
  {
    HeadOccurs(s, p);
  }

  /** `Contains` agrees with the positional reading of "occurs somewhere". */
  lemma {:induction false} ContainsIffOccurs(s: string, p: string)
    ensures Contains(s, p) <==> exists i :: OccursAt(s, p, i)
    decreases |s|
  {
    if Contains(s, p) {
      if StartsWith(s, p) {
        assert OccursAt(s, p, 0);
      } else {
        ContainsIffOccurs(s[1..], p);
        var i :| OccursAt(s[1..], p, i);
        assert s[1..][i..i + |p|] == s[i + 1..i + 1 + |p|];
        assert OccursAt(s, p, i + 1);
      }
    } else {
      if |s| > 0 {
        ContainsIffOccurs(s[1..], p);
      }
      forall i | OccursAt(s, p, i)
        ensures false
      {
        if i > 0 {
          assert s[1..][i - 1..i - 1 + |p|] == s[i..i + |p|];
          assert OccursAt(s[1..], p, i - 1);
        }
      }
    }
  }

  /** `sep` has a border of length `|sep| - k`: the suffix starting at `k`
      equals the prefix of the same length. */
  predicate HasBorder(sep: string, k: int)
    requires 0 <= k <= |sep|
  {
    sep[k..] == sep[..|sep| - k]
  }

  /** No proper suffix of `sep` is also a prefix of it, so two occurrences of
      `sep` can never overlap. */
  predicate Unbordered(sep: string) {
    forall k :: 0 < k < |sep| ==> !HasBorder(sep, k)
  }

  /** `xs.join(sep)`. */
  function Join(xs: seq<string>, sep: string): string
    decreases |xs|
  {
    if |xs| == 0 then ""
    else if |xs| == 1 then xs[0]
    else xs[0] + sep + Join(xs[1..], sep)
  }

  /** `s.split(sep)` for a non-empty string separator: cut at the leftmost
      non-overlapping occurrences, so the result always has one element more
      than there are cuts. */
  function Split(s: string, sep: string): (parts: seq<string>)
    requires |sep| > 0
    ensures |parts| >= 1
    decreases |s|
  {
    if |s| < |sep| then [s]
    else if s[..|sep|] == sep then [""] + Split(s[|sep|..], sep)
    else
      var rest := Split(s[1..], sep);
      [[s[0]] + rest[0]] + rest[1..]
  }

  /** The number of leftmost non-overlapping occurrences of `sep` in `s`. */
  function Occurrences(s: string, sep: string): nat
    requires |sep| > 0
    decreases |s|
  {
    if |s| < |sep| then 0
    else if s[..|sep|] == sep then 1 + Occurrences(s[|sep|..], sep)
    else Occurrences(s[1..], sep)
  }

  /** For a one-character separator, occurrences add up over a
      concatenation. */
  lemma {:induction false} OccurrencesConcat(x: string, y: string, c: char)
    ensures Occurrences(x + y, [c]) == Occurrences(x, [c]) + Occurrences(y, [c])
    decreases |x|
  {
    if |x| == 0 {
      assert x + y == y;
    } else {
      OccurrencesConcat(x[1..], y, c);
      assert (x + y)[..1] == x[..1];
      assert (x + y)[1..] == x[1..] + y;
    }
  }

  /** `s.split(sep).length - 1` counts the occurrences of `sep`. */
  lemma {:induction false} SplitCountsOccurrences(s: string, sep: string)
    requires |sep| > 0
    ensures |Split(s, sep)| == Occurrences(s, sep) + 1
    decreases |s|
  {
    if |s| < |sep| {
    } else if s[..|sep|] == sep {
      SplitCountsOccurrences(s[|sep|..], sep);
    } else {
      SplitCountsOccurrences(s[1..], sep);
    }
  }

  /** A string without the separator splits into itself. */
  lemma {:induction false} SplitWithoutSeparator(s: string, sep: string)
    requires |sep| > 0 && !Contains(s, sep)
    ensures Split(s, sep) == [s]
    decreases |s|
  {
    if |s| < |sep| {
    } else {
      assert !StartsWith(s, sep);
      SplitWithoutSeparator(s[1..], sep);
      assert [s[0]] + s[1..] == s;
    }
  }

  /** Splitting `m + sep + rest` cuts exactly after `m` when `m` holds no
      occurrence of an unbordered separator. */
  lemma {:induction false} SplitAtFirst(m: string, sep: string, rest: string)
    requires |sep| > 0 && Unbordered(sep) && !Contains(m, sep)
    ensures Split(m + sep + rest, sep) == [m] + Split(rest, sep)
    decreases |m|
  {
    var s := m + sep + rest;
    if |m| == 0 {
      assert s == sep + rest;
      assert s[..|sep|] == sep;
      assert s[|sep|..] == rest;
    } else {
      if |m| >= |sep| {
        assert s[..|sep|] == m[..|sep|];
        assert !StartsWith(m, sep);
        assert !Contains(m[1..], sep);
      } else {
        assert s[..|sep|] == m + sep[..|sep| - |m|];
        if s[..|sep|] == sep {
          OverlapIsBorder(m, sep, rest);
          assert false;
        }
        assert !Contains(m[1..], sep);
      }
      assert s[1..] == m[1..] + sep + rest;
      SplitAtFirst(m[1..], sep, rest);
      assert [m[0]] + m[1..] == m;
    }
  }

  /** An occurrence of `sep` that starts inside a shorter `m` and runs into
      the following `sep` exhibits a border of `sep`. */
  lemma OverlapIsBorder(m: string, sep: string, rest: string)
    requires 0 < |m| < |sep| && (m + sep + rest)[..|sep|] == sep
    ensures HasBorder(sep, |m|)
  {
    var s := m + sep + rest;
    assert sep[|m|..] == s[|m|..|sep|];
    assert s[|m|..|sep|] == sep[..|sep| - |m|];
  }

  /** `split` undoes `join` when no part holds an unbordered separator. */
  lemma {:induction false} SplitJoin(xs: seq<string>, sep: string)
    requires |sep| > 0 && Unbordered(sep) && |xs| > 0
    requires forall i :: 0 <= i < |xs| ==> !Contains(xs[i], sep)
    ensures Split(Join(xs, sep), sep) == xs
    decreases |xs|
  {
    if |xs| == 1 {
      SplitWithoutSeparator(xs[0], sep);
    } else {
      SplitJoin(xs[1..], sep);
      SplitAtFirst(xs[0], sep, Join(xs[1..], sep));
      assert [xs[0]] + xs[1..] == xs;
    }
  }

  /** `s.replace(pattern, replacement)` with a string pattern: only the first
      occurrence is replaced; without one `s` is returned unchanged. */
  function ReplaceFirst(s: string, pattern: string, replacement: string): string
    decreases |s|
  {
    if StartsWith(s, pattern) then replacement + s[|pattern|..]
    else if |s| <= |pattern| then s
    else [s[0]] + ReplaceFirst(s[1..], pattern, replacement)
  }

  /** Replacing the pattern at the very front removes exactly that prefix. */
  lemma ReplaceFirstAtFront(pattern: string, tail: string)
    ensures ReplaceFirst(pattern + tail, pattern, "") == tail
  {
    assert StartsWith(pattern + tail, pattern);
    assert (pattern + tail)[|pattern|..] == tail;
  }

  /** A string without the pattern is left unchanged by `replace`. */
  lemma {:induction false} ReplaceFirstAbsent(s: string, pattern: string, replacement: string)
    requires !Contains(s, pattern)
    ensures ReplaceFirst(s, pattern, replacement) == s
    decreases |s|
  {
    if |s| > |pattern| {
      ReplaceFirstAbsent(s[1..], pattern, replacement);
      assert [s[0]] + s[1..] == s;
    }
  }

  /** The characters JavaScript's `\s` and `String.prototype.trim` treat as
      white space: the ECMAScript WhiteSpace and LineTerminator code points. */
  predicate IsSpace(c: char) {
    var n := c as int;
    || n == 0x20 || (0x09 <= n <= 0x0D)
    || n == 0xA0 || n == 0x1680 || (0x2000 <= n <= 0x200A)
    || n == 0x2028 || n == 0x2029 || n == 0x202F || n == 0x205F
    || n == 0x3000 || n == 0xFEFF
  }

  /** Every character is white space (this includes the empty string). */
  predicate IsBlank(s: string) {
    forall i :: 0 <= i < |s| ==> IsSpace(s[i])
  }

  function TrimStart(s: string): (r: string)
    ensures |r| <= |s| && r == s[|s| - |r|..]
    ensures |r| > 0 ==> !IsSpace(r[0])
    ensures IsBlank(s[..|s| - |r|])
    decreases |s|
  {
    if |s| > 0 && IsSpace(s[0]) then TrimStart(s[1..]) else s
  }

  function TrimEnd(s: string): (r: string)
    ensures |r| <= |s| && r == s[..|r|]
    ensures |r| > 0 ==> !IsSpace(r[|r| - 1])
    ensures IsBlank(s[|r|..])
    decreases |s|
  {
    if |s| > 0 && IsSpace(s[|s| - 1]) then TrimEnd(s[..|s| - 1]) else s
  }

  /** Only a blank string trims to nothing. */
  lemma TrimmedEmptyIsBlank(s: string)
    ensures TrimEnd(TrimStart(s)) == "" ==> IsBlank(s)
  {
    var a := TrimStart(s);
    if TrimEnd(a) == "" {
      assert IsBlank(a) by {
        assert a[|TrimEnd(a)|..] == a;
      }
      assert |a| == 0;
      assert s[..|s| - |a|] == s;
    }
  }

  /** A blank string loses everything to the start trim. */
  lemma BlankTrimsToEmpty(s: string)
    ensures IsBlank(s) ==> TrimStart(s) == ""
  {
  }

  /** `r` is `s` with a blank prefix and a blank suffix cut off. */
  ghost predicate TrimsTo(s: string, r: string) {
    exists i, j :: 0 <= i <= j <= |s| && r == s[i..j] && IsBlank(s[..i]) && IsBlank(s[j..])
  }

  /** The blank ends cut off by the two halves of a trim. */
  lemma TrimmedEnds(s: string)
    ensures TrimsTo(s, TrimEnd(TrimStart(s)))
  {
    var a := TrimStart(s);
    var r := TrimEnd(a);
    var i := |s| - |a|;
    var j := i + |r|;
    assert r == s[i..j];
    assert s[j..] == a[|r|..];
  }

  /** `s.trim()`: the longest slice of `s` that neither starts nor ends with
      white space, everything cut off being white space. */
  function Trim(s: string): (r: string)
    ensures TrimsTo(s, r)
    ensures |r| > 0 ==> !IsSpace(r[0]) && !IsSpace(r[|r| - 1])
    ensures r == "" <==> IsBlank(s)
  {
    TrimmedEnds(s);
    TrimmedEmptyIsBlank(s);
    BlankTrimsToEmpty(s);
    TrimEnd(TrimStart(s))
  }
}

=== FILE: vector_search.dfy ===
/** Retrieval of the memories relevant to a query
    (src/lib/recall/vector-search.ts): the vector index is asked first, and
    an exhaustive cosine ranking over the user's stored documents is the
    fallback. Scores are real numbers; the square root is a parameter. */
module VectorSearch {
  import opened Wrappers
  import opened Text
  import opened RecallTypes
  import opened MemoryStore
  import opened Filtering
  import opened RedisUtils

  const LengthError := "Vectors must have the same length"
  const DefaultTopK := 3

  // ---------------------------------------------------------------------
  // Cosine similarity

  /** The dot product, accumulated from the front as the source's loop does. */
  function Dot(a: seq<real>, b: seq<real>): (r: real)
    requires |a| == |b|
    ensures a == b ==> r >= 0.0
    decreases |a|
  {
    if |a| == 0 then 0.0
    else
      var n := |a| - 1;
      Dot(a[..n], b[..n]) + a[n] * b[n]
  }

  /** The square root handed in is positive on positive numbers. */
  ghost predicate PositiveRoots(sqrt: real -> real) {
    forall x :: x > 0.0 ==> sqrt(x) > 0.0
  }

  /** `cosineSimilarity`, as a definition: an error for vectors of
      different lengths, 0 when either vector has norm 0, and otherwise the
      dot product divided by the product of the norms. */
  function Cosine(a: seq<real>, b: seq<real>, sqrt: real -> real): (r: Result<real, string>)
    requires PositiveRoots(sqrt)
    ensures r.Err? <==> |a| != |b|
    ensures r.Err? ==> r.error == LengthError
    ensures r.Ok? && (Dot(a, a) == 0.0 || Dot(b, b) == 0.0) ==> r.value == 0.0
    ensures r.Ok? && Dot(a, a) != 0.0 && Dot(b, b) != 0.0 ==>
      (r.value > 0.0 <==> Dot(a, b) > 0.0) && (r.value == 0.0 <==> Dot(a, b) == 0.0)
  {
    if |a| != |b| then Err(LengthError)
    else
      var na := Dot(a, a);
      var nb := Dot(b, b);
      if na == 0.0 || nb == 0.0 then Ok(0.0)
      else
        var d := sqrt(na) * sqrt(nb);
        assert d > 0.0 by { assert sqrt(na) > 0.0 && sqrt(nb) > 0.0; }
        SignOfQuotient(Dot(a, b), d);
        Ok(Dot(a, b) / d)
  }

  lemma SignOfQuotient(x: real, d: real)
    requires d > 0.0
    ensures x / d > 0.0 <==> x > 0.0
    ensures x / d == 0.0 <==> x == 0.0
  {
    assert x == (x / d) * d;
  }

  /** The source's loop: one pass accumulating the dot product and both
      squared norms. */
  method Accumulate(a: seq<real>, b: seq<real>) returns (dot: real, normA: real, normB: real)
    requires |a| == |b|
    ensures dot == Dot(a, b) && normA == Dot(a, a) && normB == Dot(b, b)
  {
    dot, normA, normB := 0.0, 0.0, 0.0;
    var i := 0;
    while i < |a|
      invariant 0 <= i <= |a|
      invariant dot == Dot(a[..i], b[..i])
      invariant normA == Dot(a[..i], a[..i])
      invariant normB == Dot(b[..i], b[..i])
    {
      assert a[..i + 1][..i] == a[..i] && b[..i + 1][..i] == b[..i];
      dot := dot + a[i] * b[i];
      normA := normA + a[i] * a[i];
      normB := normB + b[i] * b[i];
      i := i + 1;
    }
    assert a[..i] == a && b[..i] == b;
  }

  /** `cosineSimilarity` as the source computes it. */
  method CosineSimilarity(a: seq<real>, b: seq<real>, sqrt: real -> real) returns (r: Result<real, string>)
    requires PositiveRoots(sqrt)
    ensures r == Cosine(a, b, sqrt)
  {
    if |a| != |b| {
      return Err(LengthError);
    }
    var dot, normA, normB := Accumulate(a, b);
    if normA == 0.0 || normB == 0.0 {
      assert Cosine(a, b, sqrt) == Ok(0.0);
      return Ok(0.0);
    }
    var d := sqrt(normA) * sqrt(normB);
    assert d > 0.0 by {
      assert sqrt(normA) > 0.0 && sqrt(normB) > 0.0;
    }
    assert Cosine(a, b, sqrt).Ok?;
    assert Cosine(a, b, sqrt).value == dot / d;
    return Ok(dot / d);
  }

  lemma {:induction false} DotSymmetric(a: seq<real>, b: seq<real>)
    requires |a| == |b|
    ensures Dot(a, b) == Dot(b, a)
    decreases |a|
  {
    if |a| > 0 {
      DotSymmetric(a[..|a| - 1], b[..|b| - 1]);
    }
  }

  /** Cosine similarity does not depend on the order of its arguments. */
  lemma CosineSymmetric(a: seq<real>, b: seq<real>, sqrt: real -> real)
    requires PositiveRoots(sqrt)
    ensures Cosine(a, b, sqrt) == Cosine(b, a, sqrt)
  {
    if |a| == |b| {
      DotSymmetric(a, b);
    }
  }

  /** A vector of non-zero norm is perfectly similar to itself, when the
      square root is exact at its squared norm. */
  lemma CosineSelf(a: seq<real>, sqrt: real -> real)
    requires PositiveRoots(sqrt)
    requires Dot(a, a) != 0.0 && sqrt(Dot(a, a)) * sqrt(Dot(a, a)) == Dot(a, a)
    ensures Cosine(a, a, sqrt) == Ok(1.0)
  {
    var n := Dot(a, a);
    DivSelf(n);
    assert Cosine(a, a, sqrt).Ok?;
    assert Cosine(a, a, sqrt).value == n / (sqrt(n) * sqrt(n));
    var d := sqrt(n) * sqrt(n);
    assert d == n;
    assert n / d == n / n;
  }

  lemma DivSelf(x: real)
    requires x != 0.0
    ensures x / x == 1.0
  {
    var q := x / x;
    assert q * x == x;
    assert (q - 1.0) * x == 0.0;
  }

  // ---------------------------------------------------------------------
  // Ranking

  /** A candidate memory text with its similarity to the query. */
  datatype Scored = Scored(text: string, similarity: real)

  /** Non-increasing similarity. */
  predicate Ranked(xs: seq<Scored>) {
    forall i, j :: 0 <= i < j < |xs| ==> xs[i].similarity >= xs[j].similarity
  }

  /** The items of `xs` whose similarity is exactly `v`, in order. */
  function WithScore(xs: seq<Scored>, v: real): seq<Scored>
    decreases |xs|
  {
    if |xs| == 0 then []
    else (if xs[0].similarity == v then [xs[0]] else []) + WithScore(xs[1..], v)
  }

  /** Place `x`, which came before every item of `ys` in the input, in
      front of the first item that does not score strictly higher. */
  function Insert(x: Scored, ys: seq<Scored>): (r: seq<Scored>)
    ensures multiset(r) == multiset(ys) + multiset{x}
    ensures |r| == |ys| + 1
    ensures r[0] == x || (|ys| > 0 && r[0] == ys[0])
    ensures Ranked(ys) ==> Ranked(r)
    decreases |ys|
  {
    if |ys| == 0 || ys[0].similarity <= x.similarity then [x] + ys
    else
      var rest := Insert(x, ys[1..]);
      InsertStep(x, ys, rest);
      [ys[0]] + rest
  }

  /** The recursive case of `Insert`: an item that outscores `x` stays in
      front of the insertion into the rest. */
  lemma InsertStep(x: Scored, ys: seq<Scored>, rest: seq<Scored>)
    requires |ys| > 0 && ys[0].similarity > x.similarity
    requires multiset(rest) == multiset(ys[1..]) + multiset{x}
    requires Ranked(ys[1..]) ==> Ranked(rest)
    ensures multiset([ys[0]] + rest) == multiset(ys) + multiset{x}
    ensures Ranked(ys) ==> Ranked([ys[0]] + rest)
  {
    assert ys == [ys[0]] + ys[1..];
    if Ranked(ys) {
      assert Ranked(ys[1..]);
      forall c | c in rest
        ensures ys[0].similarity >= c.similarity
      {
        assert c in multiset(rest);
        if c != x {
          assert c in multiset(ys[1..]);
          var k :| 0 <= k < |ys[1..]| && ys[1..][k] == c;
          assert ys[k + 1] == c;
        }
      }
      ConsRanked(ys[0], rest);
    }
  }

  /** A ranked list stays ranked with an item in front that scores at least
      as high as all of it. */
  lemma ConsRanked(h: Scored, rest: seq<Scored>)
    requires Ranked(rest) && forall c :: c in rest ==> h.similarity >= c.similarity
    ensures Ranked([h] + rest)
  {
    var r := [h] + rest;
    forall i, j | 0 <= i < j < |r|
      ensures r[i].similarity >= r[j].similarity
    {
      assert r[j] == rest[j - 1];
      if i > 0 {
        assert r[i] == rest[i - 1];
      } else {
        assert rest[j - 1] in rest;
      }
    }
  }

  /** The ranking of the fallback search: a stable sort by descending
      similarity. */
  function Rank(xs: seq<Scored>): (r: seq<Scored>)
    ensures multiset(r) == multiset(xs)
    ensures |r| == |xs|
    ensures Ranked(r)
    decreases |xs|
  {
    if |xs| == 0 then []
    else
      assert xs == [xs[0]] + xs[1..];
      Insert(xs[0], Rank(xs[1..]))
  }

  /** `WithScore` of a list with a given head. */
  lemma WithScoreCons(h: Scored, t: seq<Scored>, v: real)
    ensures WithScore([h] + t, v) == (if h.similarity == v then [h] else []) + WithScore(t, v)
  {
    assert ([h] + t)[0] == h && ([h] + t)[1..] == t;
  }

  /** The inductive step of `InsertWithScore`: putting a higher-scored
      item in front of both sides keeps the relation. */
  lemma WithScoreStep(h: Scored, rest: seq<Scored>, t: seq<Scored>, x: Scored, v: real)
    requires h.similarity > x.similarity
    requires WithScore(rest, v) == (if x.similarity == v then [x] else []) + WithScore(t, v)
    ensures WithScore([h] + rest, v) == (if x.similarity == v then [x] else []) + WithScore([h] + t, v)
  {
    WithScoreCons(h, rest, v);
    WithScoreCons(h, t, v);
    if x.similarity == v {
      assert h.similarity != v;
    }
  }

  /** Inserting an item adds it to the items of its own score, in front,
      and leaves those of every other score as they were. */
  lemma {:induction false} InsertWithScore(x: Scored, ys: seq<Scored>, v: real)
    ensures WithScore(Insert(x, ys), v) == (if x.similarity == v then [x] else []) + WithScore(ys, v)
    decreases |ys|
  {
    if |ys| == 0 || ys[0].similarity <= x.similarity {
      WithScoreCons(x, ys, v);
    } else {
      InsertWithScore(x, ys[1..], v);
      WithScoreStep(ys[0], Insert(x, ys[1..]), ys[1..], x, v);
      assert ys == [ys[0]] + ys[1..];
    }
  }

  /** The sort is stable: among items of equal similarity the input order
      survives, so ties keep the store's enumeration order. */
  lemma {:induction false} RankStable(xs: seq<Scored>, v: real)
    ensures WithScore(Rank(xs), v) == WithScore(xs, v)
    decreases |xs|
  {
    if |xs| > 0 {
      RankStable(xs[1..], v);
      InsertWithScore(xs[0], Rank(xs[1..]), v);
    }
  }

  /** `slice(0, k)` of a JavaScript array: a negative `k` counts from the
      end. */
  function Slice<T>(xs: seq<T>, k: int): (r: seq<T>)
    ensures |r| <= |xs|
    ensures r == xs[..|r|]
    ensures k >= 0 ==> |r| == if k < |xs| then k else |xs|
    ensures k < 0 ==> |r| == if |xs| + k > 0 then |xs| + k else 0
  {
    if k >= 0 then (if k < |xs| then xs[..k] else xs)
    else if |xs| + k > 0 then xs[..|xs| + k] else []
  }

  /** What survives a top-k cut of a ranked list scores at least as high as
      everything the cut drops, and nothing is lost or invented. */
  lemma SliceKeepsBest(xs: seq<Scored>, k: int)
    requires Ranked(xs)
    ensures var top := Slice(xs, k);
      && Ranked(top)
      && multiset(top) + multiset(xs[|top|..]) == multiset(xs)
      && forall i, j :: 0 <= i < |top| <= j < |xs| ==> top[i].similarity >= xs[j].similarity
  {
    var top := Slice(xs, k);
    assert xs == top + xs[|top|..];
  }

  /** `WithScore` distributes over concatenation. */
  lemma {:induction false} WithScoreConcat(a: seq<Scored>, b: seq<Scored>, v: real)
    ensures WithScore(a + b, v) == WithScore(a, v) + WithScore(b, v)
    decreases |a|
  {
    if |a| == 0 {
      assert a + b == b;
    } else {
      WithScoreConcat(a[1..], b, v);
      assert (a + b)[0] == a[0];
      assert (a + b)[1..] == a[1..] + b;
    }
  }

  /** `top` holds best-scoring items of `xs`: together with some `rest`
      it makes up `xs`, and nothing in `rest` outscores anything in
      `top`. */
  ghost predicate BestOf(top: seq<Scored>, xs: seq<Scored>) {
    exists rest: seq<Scored> :: multiset(top) + multiset(rest) == multiset(xs)
      && forall i, j :: 0 <= i < |top| && 0 <= j < |rest| ==> top[i].similarity >= rest[j].similarity
  }

  /** Among items of any one score, `top` holds the first ones of `xs`, in
      the order of `xs`. */
  ghost predicate KeepsTieOrder(top: seq<Scored>, xs: seq<Scored>) {
    forall v :: |WithScore(top, v)| <= |WithScore(xs, v)| && WithScore(top, v) == WithScore(xs, v)[..|WithScore(top, v)|]
  }

  /** A top-k cut of a ranked list is a best-scoring part of it. */
  lemma CutIsBest(ranked: seq<Scored>, k: int)
    requires Ranked(ranked)
    ensures BestOf(Slice(ranked, k), ranked)
  {
    var top := Slice(ranked, k);
    var rest := ranked[|top|..];
    SliceKeepsBest(ranked, k);
    assert forall j :: 0 <= j < |rest| ==> rest[j] == ranked[|top| + j];
  }

  /** A cut of the ranking keeps, among ties, the input's order. */
  lemma CutKeepsTieOrder(xs: seq<Scored>, k: int)
    ensures KeepsTieOrder(Slice(Rank(xs), k), xs)
  {
    var ranked := Rank(xs);
    var top := Slice(ranked, k);
    var rest := ranked[|top|..];
    assert ranked == top + rest;
    forall v
      ensures |WithScore(top, v)| <= |WithScore(xs, v)| && WithScore(top, v) == WithScore(xs, v)[..|WithScore(top, v)|]
    {
      RankStable(xs, v);
      WithScoreConcat(top, rest, v);
    }
  }

  /** A top-k cut of the ranking is a best-scoring part of the input that
      keeps the input's order among ties. */
  lemma CutOfRankIsBest(xs: seq<Scored>, k: int)
    ensures BestOf(Slice(Rank(xs), k), xs)
    ensures KeepsTieOrder(Slice(Rank(xs), k), xs)
  {
    CutIsBest(Rank(xs), k);
    CutKeepsTieOrder(xs, k);
  }

  /** A candidate that outscores something kept is kept itself. */
  lemma BestKeepsBetter(top: seq<Scored>, xs: seq<Scored>, c: Scored, i: int)
    requires BestOf(top, xs) && c in xs && 0 <= i < |top| && c.similarity > top[i].similarity
    ensures c in top
  {
    var rest: seq<Scored> :| multiset(top) + multiset(rest) == multiset(xs)
      && forall i, j :: 0 <= i < |top| && 0 <= j < |rest| ==> top[i].similarity >= rest[j].similarity;
    assert c !in rest by {
      forall j | 0 <= j < |rest|
        ensures rest[j] != c
      {
        assert top[i].similarity >= rest[j].similarity;
      }
    }
    assert c in multiset(xs);
    assert multiset(rest)[c] == 0;
    assert c in multiset(top);
  }

  /** A best-scoring part as long as its input holds all of it. */
  lemma BestOfAll(top: seq<Scored>, xs: seq<Scored>)
    requires BestOf(top, xs) && |top| == |xs|
    ensures multiset(top) == multiset(xs)
  {
    var rest: seq<Scored> :| multiset(top) + multiset(rest) == multiset(xs)
      && forall i, j :: 0 <= i < |top| && 0 <= j < |rest| ==> top[i].similarity >= rest[j].similarity;
    assert |multiset(rest)| == 0;
  }

  // ---------------------------------------------------------------------
  // Fallback

  /** The score of one member, or `None` when it is skipped: its document
      read fails or finds nothing, its text is empty, or its embedding's
      length differs from the query's (the similarity throws). */
  function Candidate(s: Scope, env: Env, query: seq<real>, id: string, sqrt: real -> real): Option<Scored>
    requires PositiveRoots(sqrt)
  {
    match ReadDoc(s, env, id)
    case None => None
    case Some(d) =>
      if d.text == "" then None
      else
        match Cosine(query, d.embedding, sqrt)
        case Err(_) => None
        case Ok(sim) => Some(Scored(d.text, sim))
  }

  /** Every usable member scored, in enumeration order. */
  function Candidates(s: Scope, env: Env, query: seq<real>, sqrt: real -> real): seq<Scored>
    requires PositiveRoots(sqrt)
  {
    FilterMap(env.order, id => Candidate(s, env, query, id, sqrt))
  }

  /** `c` is the score of some member of the scope. */
  ghost predicate FromMember(s: Scope, env: Env, query: seq<real>, sqrt: real -> real, c: Scored)
    requires PositiveRoots(sqrt)
  {
    exists id :: id in s.members && Candidate(s, env, query, id, sqrt) == Some(c)
  }

  lemma CandidatesFromMembers(s: Scope, env: Env, query: seq<real>, sqrt: real -> real)
    requires PositiveRoots(sqrt) && Enumerates(env.order, s.members)
    ensures forall c :: c in Candidates(s, env, query, sqrt) ==> FromMember(s, env, query, sqrt, c)
  {
    var cs := Candidates(s, env, query, sqrt);
    forall c | c in cs
      ensures FromMember(s, env, query, sqrt, c)
    {
      var p :| 0 <= p < |cs| && cs[p] == c;
      var k :| 0 <= k < |env.order| && Candidate(s, env, query, env.order[k], sqrt) == Some(cs[p]);
      assert env.order[k] in s.members;
    }
  }

  /** Every item of a cut of the ranking is an item of the input. */
  lemma TopFromInput(xs: seq<Scored>, k: int)
    ensures forall c :: c in Slice(Rank(xs), k) ==> c in xs
  {
    var ranked := Rank(xs);
    forall c | c in Slice(ranked, k)
      ensures c in xs
    {
      assert c in ranked;
      assert c in multiset(ranked);
    }
  }

  /** The ranked, cut list the fallback returns the texts of. The read of
      the membership set is not guarded, so its failure is an error. */
  function FallbackRanked(s: Scope, env: Env, query: seq<real>, topK: int, sqrt: real -> real)
    : (r: Result<seq<Scored>, string>)
    requires PositiveRoots(sqrt) && Enumerates(env.order, s.members)
    ensures r.Err? <==> env.setFault
    ensures r.Ok? && s.members == {} ==> r.value == []
    ensures r.Ok? ==> Ranked(r.value) && |r.value| <= |s.members|
    ensures r.Ok? && topK >= 0 ==> |r.value| <= topK
    ensures r.Ok? ==> forall i :: 0 <= i < |r.value| ==> FromMember(s, env, query, sqrt, r.value[i])
    ensures r.Ok? ==>
      var cs := Candidates(s, env, query, sqrt);
      && (topK >= 0 ==> |r.value| == if topK < |cs| then topK else |cs|)
      && (topK < 0 ==> |r.value| == if |cs| + topK > 0 then |cs| + topK else 0)
      && BestOf(r.value, cs)
      && KeepsTieOrder(r.value, cs)
  {
    EnumerationSize(env.order, s.members);
    if env.setFault then Err(FetchError)
    else
      var cs := Candidates(s, env, query, sqrt);
      CandidatesFromMembers(s, env, query, sqrt);
      TopFromInput(cs, topK);
      CutOfRankIsBest(cs, topK);
      if |env.order| == 0 then
        assert cs == [];
        Ok([])
      else Ok(Slice(Rank(cs), topK))
  }

  /** No scored memory is passed over for a kept one it outscores. */
  lemma FallbackKeepsBetter(s: Scope, env: Env, query: seq<real>, topK: int, sqrt: real -> real, c: Scored, i: int)
    requires PositiveRoots(sqrt) && Enumerates(env.order, s.members)
    requires FallbackRanked(s, env, query, topK, sqrt).Ok?
    requires c in Candidates(s, env, query, sqrt)
    requires 0 <= i < |FallbackRanked(s, env, query, topK, sqrt).value|
    requires c.similarity > FallbackRanked(s, env, query, topK, sqrt).value[i].similarity
    ensures c in FallbackRanked(s, env, query, topK, sqrt).value
  {
    BestKeepsBetter(FallbackRanked(s, env, query, topK, sqrt).value, Candidates(s, env, query, sqrt), c, i);
  }

  /** When `topK` covers every scored memory, all of them are returned. */
  lemma FallbackKeepsAll(s: Scope, env: Env, query: seq<real>, topK: int, sqrt: real -> real)
    requires PositiveRoots(sqrt) && Enumerates(env.order, s.members)
    requires FallbackRanked(s, env, query, topK, sqrt).Ok?
    requires topK >= |Candidates(s, env, query, sqrt)|
    ensures multiset(FallbackRanked(s, env, query, topK, sqrt).value) == multiset(Candidates(s, env, query, sqrt))
  {
    BestOfAll(FallbackRanked(s, env, query, topK, sqrt).value, Candidates(s, env, query, sqrt));
  }

  function Texts(xs: seq<Scored>): (r: seq<string>)
    ensures |r| == |xs|
    ensures forall i :: 0 <= i < |xs| ==> r[i] == xs[i].text
  {
    seq(|xs|, i requires 0 <= i < |xs| => xs[i].text)
  }

  /** `t` is the non-empty text of a readable member document whose
      embedding has the query's length. */
  ghost predicate ReadableText(s: Scope, env: Env, query: seq<real>, t: string) {
    exists id :: id in s.members && id in s.docs && id !in env.docFaults
      && s.docs[id].text == t && t != "" && |s.docs[id].embedding| == |query|
  }

  /** The texts of scored members are readable member texts. */
  lemma TextsReadable(s: Scope, env: Env, query: seq<real>, sqrt: real -> real, top: seq<Scored>)
    requires PositiveRoots(sqrt)
    requires forall i :: 0 <= i < |top| ==> FromMember(s, env, query, sqrt, top[i])
    ensures forall i :: 0 <= i < |top| ==> ReadableText(s, env, query, Texts(top)[i])
  {
    forall i | 0 <= i < |top|
      ensures ReadableText(s, env, query, Texts(top)[i])
    {
      assert FromMember(s, env, query, sqrt, top[i]);
      var id :| id in s.members && Candidate(s, env, query, id, sqrt) == Some(top[i]);
      assert ReadDoc(s, env, id).Some?;
    }
  }

  /** `retrieveMemoriesWithFallback`: the texts of the `topK` best-scoring
      stored memories. */
  function Fallback(s: Scope, env: Env, query: seq<real>, topK: int, sqrt: real -> real)
    : (r: Result<seq<string>, string>)
    requires PositiveRoots(sqrt) && Enumerates(env.order, s.members)
    ensures r.Err? <==> env.setFault
    ensures r.Ok? && s.members == {} ==> r.value == []
    ensures r.Ok? ==> |r.value| <= |s.members|
    ensures r.Ok? && topK >= 0 ==> |r.value| <= topK
    ensures r.Ok? ==> forall i :: 0 <= i < |r.value| ==> ReadableText(s, env, query, r.value[i])
    ensures r.Ok? ==>
      var top := FallbackRanked(s, env, query, topK, sqrt);
      top.Ok? && r.value == Texts(top.value)
  {
    match FallbackRanked(s, env, query, topK, sqrt)
    case Err(e) => Err(e)
    case Ok(top) =>
      TextsReadable(s, env, query, sqrt, top);
      Ok(Texts(top))
  }

  // ---------------------------------------------------------------------
  // Retrieval

  /** The parameters of `retrieveMemories`. The request's `forceFallback`
      flag has no counterpart: the parameter type does not declare it. */
  datatype RetrieveParams = RetrieveParams(namespace: string, userId: string, query: Option<string>, topK: Option<int>)

  /** One document returned by the index; `text` is `None` when the value
      is missing, has no text field or holds no string. */
  datatype SearchDoc = SearchDoc(id: string, text: Option<string>)

  /** The vector index: the documents of the k nearest neighbours of a
      query vector within one namespace and user, or an error when the
      index cannot be created or searched. */
  type Index = (string, string, seq<real>, int) -> Result<seq<SearchDoc>, string>

  function UsableText(d: SearchDoc): (r: Option<string>)
    ensures r.Some? ==> d.text.Some? && r.value == Trim(d.text.value)
    ensures r.Some? ==> r.value != "" && !IsSpace(r.value[0]) && !IsSpace(r.value[|r.value| - 1])
    ensures d.text.Some? && !IsBlank(d.text.value) ==> r.Some?
  {
    if d.text.Some? && d.text.value != "" && Trim(d.text.value) != "" then Some(Trim(d.text.value)) else None
  }

  /** The texts kept from the index's answer: each trimmed, blank ones
      dropped, in the index's order. */
  function IndexTexts(docs: seq<SearchDoc>): (r: seq<string>)
    ensures |r| <= |docs|
    ensures forall i :: 0 <= i < |r| ==> r[i] != "" && !IsSpace(r[i][0]) && !IsSpace(r[i][|r[i]| - 1])
    ensures forall i :: 0 <= i < |r| ==> exists k :: 0 <= k < |docs| && docs[k].text.Some? && r[i] == Trim(docs[k].text.value)
    ensures forall k :: 0 <= k < |docs| && docs[k].text.Some? && !IsBlank(docs[k].text.value) ==>
      Trim(docs[k].text.value) in r
  {
    FilterMap(docs, UsableText)
  }

  /** `retrieveMemories`. The store is read at the user's memory key, and
      `env` describes how that scope answers reads. */
  function RetrieveMemories(p: RetrieveParams, embed: Embedder, index: Index, db: Db, env: Env, sqrt: real -> real)
    : (r: seq<string>)
    requires PositiveRoots(sqrt)
    requires Enumerates(env.order, ScopeAt(db, MemoryKey(p.namespace, p.userId)).members)
    ensures p.query.None? || IsBlank(p.query.value) ==> r == []
    ensures p.query.Some? && embed(p.query.value).None? ==> r == []
    ensures p.query.Some? && !IsBlank(p.query.value) && embed(p.query.value).Some? ==>
      var q := embed(p.query.value).value;
      var k := if p.topK.Some? then p.topK.value else DefaultTopK;
      var fromIndex := index(p.namespace, p.userId, q, k);
      var fallback := Fallback(ScopeAt(db, MemoryKey(p.namespace, p.userId)), env, q, k, sqrt);
      if fromIndex.Ok? && IndexTexts(fromIndex.value) != [] then r == IndexTexts(fromIndex.value)
      else if fallback.Ok? then r == fallback.value
      else r == []
  {
    match p.query
    case None => []
    case Some(query) =>
      if Trim(query) == "" then []
      else
        match embed(query)
        case None => []
        case Some(q) =>
          var k := if p.topK.Some? then p.topK.value else DefaultTopK;
          var texts := match index(p.namespace, p.userId, q, k)
            case Ok(docs) => IndexTexts(docs)
            case Err(_) => [];
          if texts != [] then texts
          else
            match Fallback(ScopeAt(db, MemoryKey(p.namespace, p.userId)), env, q, k, sqrt)
            case Ok(found) => found
            case Err(_) => []
  }

  /** Leaving `topK` out is the same as asking for 3. */
  lemma DefaultTopKIsThree(p: RetrieveParams, embed: Embedder, index: Index, db: Db, env: Env, sqrt: real -> real)
    requires PositiveRoots(sqrt)
    requires Enumerates(env.order, ScopeAt(db, MemoryKey(p.namespace, p.userId)).members)
    requires p.topK.None?
    ensures RetrieveMemories(p, embed, index, db, env, sqrt) == RetrieveMemories(p.(topK := Some(3)), embed, index, db, env, sqrt)
  {
  }

  /** `t` is the text of a stored memory of the scope. */
  ghost predicate StoredText(s: Scope, t: string) {
    exists id :: id in s.members && id in s.docs && s.docs[id].text == t
  }

  /** `t` is the trimmed text of a document the index returned for this
      request's query. */
  ghost predicate IndexedText(p: RetrieveParams, embed: Embedder, index: Index, t: string) {
    && p.query.Some? && embed(p.query.value).Some?
    && var k := if p.topK.Some? then p.topK.value else DefaultTopK;
    && var found := index(p.namespace, p.userId, embed(p.query.value).value, k);
    && found.Ok?
    && exists j :: 0 <= j < |found.value| && found.value[j].text.Some? && t == Trim(found.value[j].text.value)
  }

  /** Every text kept from a successful index answer is an indexed text of
      the request. */
  lemma IndexTextsIndexed(p: RetrieveParams, embed: Embedder, index: Index)
    requires p.query.Some? && embed(p.query.value).Some?
    ensures var k := if p.topK.Some? then p.topK.value else DefaultTopK;
      var found := index(p.namespace, p.userId, embed(p.query.value).value, k);
      found.Ok? ==> forall i :: 0 <= i < |IndexTexts(found.value)| ==> IndexedText(p, embed, index, IndexTexts(found.value)[i])
  {
    var k := if p.topK.Some? then p.topK.value else DefaultTopK;
    var found := index(p.namespace, p.userId, embed(p.query.value).value, k);
    if found.Ok? {
      var ts := IndexTexts(found.value);
      forall i | 0 <= i < |ts|
        ensures IndexedText(p, embed, index, ts[i])
      {
        var j :| 0 <= j < |found.value| && found.value[j].text.Some? && ts[i] == Trim(found.value[j].text.value);
      }
    }
  }

  /** A readable member text is a stored text. */
  lemma ReadableIsStored(s: Scope, env: Env, query: seq<real>, ts: seq<string>)
    requires forall i :: 0 <= i < |ts| ==> ReadableText(s, env, query, ts[i])
    ensures forall i :: 0 <= i < |ts| ==> ts[i] != "" && StoredText(s, ts[i])
  {
  }

  /** Every retrieved text is non-empty and is either a stored memory of
      this user or a document the index returned for this query. */
  lemma RetrievedAreStoredOrIndexed(p: RetrieveParams, embed: Embedder, index: Index, db: Db, env: Env, sqrt: real -> real)
    requires PositiveRoots(sqrt)
    requires Enumerates(env.order, ScopeAt(db, MemoryKey(p.namespace, p.userId)).members)
    ensures var r := RetrieveMemories(p, embed, index, db, env, sqrt);
      forall i :: 0 <= i < |r| ==>
        && r[i] != ""
        && (StoredText(ScopeAt(db, MemoryKey(p.namespace, p.userId)), r[i]) || IndexedText(p, embed, index, r[i]))
  {
    var s := ScopeAt(db, MemoryKey(p.namespace, p.userId));
    if p.query.Some? && !IsBlank(p.query.value) && embed(p.query.value).Some? {
      var q := embed(p.query.value).value;
      var k := if p.topK.Some? then p.topK.value else DefaultTopK;
      var fromIndex := index(p.namespace, p.userId, q, k);
      if fromIndex.Ok? && IndexTexts(fromIndex.value) != [] {
        IndexTextsIndexed(p, embed, index);
      } else {
        var fallback := Fallback(s, env, q, k, sqrt);
        if fallback.Ok? {
          ReadableIsStored(s, env, q, fallback.value);
        }
      }
    }
  }

  /** Unless every text came from the index, retrieval returns no more
      than the `topK` asked for. */
  lemma RetrievedFromIndexOrFew(p: RetrieveParams, embed: Embedder, index: Index, db: Db, env: Env, sqrt: real -> real)
    requires PositiveRoots(sqrt)
    requires Enumerates(env.order, ScopeAt(db, MemoryKey(p.namespace, p.userId)).members)
    requires p.topK.Some? ==> p.topK.value >= 0
    ensures var r := RetrieveMemories(p, embed, index, db, env, sqrt);
      var k := if p.topK.Some? then p.topK.value else DefaultTopK;
      |r| <= k || forall i :: 0 <= i < |r| ==> IndexedText(p, embed, index, r[i])
  {
    if p.query.Some? && !IsBlank(p.query.value) && embed(p.query.value).Some? {
      IndexTextsIndexed(p, embed, index);
    }
  }

  // ---------------------------------------------------------------------
  // Debug helpers

  /** `debugMemoryCount`: the cardinality of the membership set, 0 when it
      cannot be read. */
  function DebugMemoryCount(s: Scope, env: Env): (n: nat)
    ensures env.setFault ==> n == 0
    ensures !env.setFault ==> n == |s.members|
  {
    if env.setFault then 0 else |s.members|
  }

  /** `debugListMemoryIds`: the members in enumeration order, `[]` when the
      set cannot be read. */
  function DebugListMemoryIds(s: Scope, env: Env): (ids: seq<string>)
    requires Enumerates(env.order, s.members)
    ensures forall i :: 0 <= i < |ids| ==> ids[i] in s.members
    ensures !env.setFault ==> forall x :: x in s.members ==> x in ids
  {
    if env.setFault then [] else env.order
  }

  /** The debug count is the length of the debug listing. */
  lemma DebugCountMatchesList(s: Scope, env: Env)
    requires Enumerates(env.order, s.members)
    ensures DebugMemoryCount(s, env) == |DebugListMemoryIds(s, env)|
  {
    EnumerationSize(env.order, s.members);
  }
}

=== FILE: wrappers.dfy ===
/** Optional values and error-or-value results, used wherever the source
    returns `undefined`/`null` or throws. */
module Wrappers {

  /** A value that may be absent (`undefined`/`null` in the source). */
  datatype Option<+T> = None | Some(value: T) {

    /** The value, or `default` when absent (the source's `x ?? default`). */
    function GetOr(default: T): T {
      match this
      case Some(v) => v
      case None => default
    }
  }

  /** Either a value or the message of the error the source would throw. */
  datatype Result<+T, +E> = Ok(value: T) | Err(error: E)
}
